=== FILE: README.md ===
# Voice reservations: extraction and session bookkeeping

This project models the deterministic core of a web app that turns spoken
Czech booking requests into reservation records. The app compares four
pipelines:

- two batch providers: an audio upload that goes to OpenAI or Gemini;
- two live providers: OpenAI Realtime and Gemini Live.

The model covers these parts:

- **Reservation extractors.** Both live pipelines extract a client name, a
  date and a time from model text using ordered regular expressions. Each
  regular expression is written as a leftmost-match function over
  `seq<char>`, with JavaScript's semantics:
  - backtracking is followed where the engine gives characters back;
  - the `i` flag is honoured;
  - `\s` is the ECMAScript whitespace set;
  - `\d` is ASCII.
- **Gemini Live session.** The hook's refs form one immutable record. The
  model covers:
  - the message dispatcher and the merge of partial results;
  - the once-only completion gate and the audio send gate;
  - the per-session reset, the metrics of a finished session, and manual
    stop;
  - the choice of API version;
  - the audio worklet that posts fixed 2048-sample chunks.
- **OpenAI Realtime session.** The model covers:
  - the event dispatcher and the transcript joining;
  - the looser extractor, which reports on a name *or* a date and has no
    once-guard;
  - cost by duration;
  - the stop-and-flush decision.
- **Batch transcription route.** The model covers the provider dispatch, the
  error statuses, the JSON fallback, and the splitter for the labelled
  `TRANSCRIPTION:` / `RESERVATION:` sections of the Gemini reply.
- **The page.** Merging a result, save (prepend) and delete (filter by id),
  recorder selection, and persistence of the saved list.
- **The review card.** Completing a partial reservation with defaults, and
  the edit, cancel and confirm buttons.
- **The metrics panel.** Which blocks show, the duration unit, and the
  accent per provider.

Some inputs are parameters rather than modelled behaviour:

- the clock, the current year, today's date, fresh ids and `localStorage`;
- vendor replies and JSON decoding (a decoder returns `None` where
  `JSON.parse` throws);
- the price-table entries the live sessions read. The shipped table has
  neither entry (`Types.GeminiLiveRates`, `Types.RealtimeInputPerMinute`),
  and the lemmas state what the sessions do both without and with them;
- the transcript value a memoised callback captured.

The session transitions take the fragment parser as a parameter. The live
hook's parser is `GeminiExtract.Extract`, and `GeminiLive.ExtractKeepsFields`
shows that it satisfies the property the session lemmas rely on.

Four facts about the program shape the model:

- The time patterns need minutes; a bare `9 hodin` sets no time.
- Captured names are stored as spoken; nothing normalises them.
- The batch route's success body has no metrics.
- A saved `Reservation` has no metrics field.

## Model

| member | source | states |
|---|---|---|
| Types.ProviderIdInjective | src/components/MetricsDisplay.tsx:9 | the four provider identifiers are pairwise distinct, so an identifier names one pipeline |
| Types.PricingIsPositive | src/types/index.ts:28-47 | every fixed price is positive; output tokens cost more than input tokens for both chat models, and Gemini Flash input is cheaper than gpt-4o-mini input |
| Billing.AddUsage | src/hooks/useGeminiLive.ts:137-140 | a missing count adds nothing; the counters never decrease and their sum grows by exactly the reported counts |
| Billing.SessionMetrics | src/hooks/useGeminiLive.ts:224-232 | every metrics field is present; the total is input plus output; the cost is the billing model's cost, `NaN` included |
| Billing.Cost | src/components/RealtimeRecorder.tsx:224-226 | the cost is `NaN` exactly when it is billed by the minute and a per-minute price is undefined; per-token cost is always a number |
| Billing.CostDependsOnOneMeasure | src/components/RealtimeRecorder.tsx:224-226 | per-minute cost does not depend on tokens, and per-token cost does not depend on duration |
| Billing.TokenCostMonotone | src/hooks/useGeminiLive.ts:229-231 | with non-negative rates, more tokens never cost less |
| Billing.OneMillionInputTokens | src/types/index.ts:31-34 | one million gpt-4o-mini input tokens cost exactly the 0.15 input price |
| Worklet.Process | src/hooks/useGeminiLive.ts:15-30 | the buffer index stays below 2048; every posted chunk holds 2048 samples; posted chunks followed by the new buffer equal the old buffer followed by the first channel's samples; floor(n/2048) chunks are posted, and they form the prefix of the samples in order |
| Worklet.FlattenLength | src/hooks/useGeminiLive.ts:22-25 | k full chunks hold k*2048 samples |
| Regex.Exec | src/hooks/useGeminiLive.ts:156 | `match` fails exactly when the pattern matches at no position; otherwise it returns the match at the leftmost position that matches |
| Regex.FirstPattern | src/hooks/useGeminiLive.ts:155-163 | an ordered pattern list yields the first pattern that matches anywhere; every earlier pattern matches nowhere |
| GeminiExtract.ExtractName | src/hooks/useGeminiLive.ts:148-163 | if no name pattern matches, the stored name is kept; otherwise group 1 of the first pattern that matches, which is two words of the name class |
| GeminiExtract.NamePriority | src/hooks/useGeminiLive.ts:148-163 | `Jméno:` beats `pro`, and `pro` beats `klient(a):`, wherever in the fragment each occurs |
| GeminiExtract.NameMatchShape | src/hooks/useGeminiLive.ts:149-151 | each name pattern captures two words separated by whitespace |
| GeminiExtract.BareIsoAt | src/hooks/useGeminiLive.ts:168 | the bare ISO pattern matches at p exactly when `DDDD-DD-DD` starts there, and group 1 is the whole match |
| GeminiExtract.LabelledIsoNeverDates | src/hooks/useGeminiLive.ts:166-199 | a `Datum:` match yields no date: it is longer than 10 characters and has no group 2 |
| GeminiExtract.SkipLabelledPattern | src/hooks/useGeminiLive.ts:180-199 | the date loop gives the same result with or without its first pattern |
| GeminiExtract.IsoDateWins | src/hooks/useGeminiLive.ts:166-199 | when an ISO date occurs, labelled or not, the date is the leftmost ISO date in the fragment |
| GeminiExtract.NumericDateForm | src/hooks/useGeminiLive.ts:169-195 | with no ISO date, the first `DD.MM.(YYYY)` gives `year-MM-DD`; day and month are padded to 2 digits with unchanged value; the year comes from the capture or is the current year; no range check is made |
| GeminiExtract.MonthNameForm | src/hooks/useGeminiLive.ts:170-189 | with no ISO or numeric form, `DD. <month>` gives `currentYear-NN-DD`, where NN is the table number of the genitive month name matched case-insensitively |
| GeminiExtract.MonthLookupAgrees | src/hooks/useGeminiLive.ts:174-178 | the k-th genitive month name maps to the k-th two-digit number |
| GeminiExtract.MonthNumbersArePadded | src/hooks/useGeminiLive.ts:174-178 | the table's numbers are `01`..`12`, i.e. k+1 padded to two digits |
| GeminiExtract.NoDateForm | src/hooks/useGeminiLive.ts:180-201 | a fragment without any date form sets no date |
| GeminiExtract.DateSearchShape | src/hooks/useGeminiLive.ts:180-201 | every date the loop sets has the shape `Y-DD-DD` (digits) |
| GeminiExtract.ExtractTime | src/hooks/useGeminiLive.ts:204-211 | no match keeps the stored time; a match gives an `HH:MM` text |
| GeminiExtract.TimeIsFirstClock | src/hooks/useGeminiLive.ts:204-211 | the time is the leftmost `H(H)[:.]MM` clock in the fragment, hour padded and minutes copied; without a clock (e.g. a bare `9 hodin`) the time is unchanged |
| GeminiExtract.TimeAt | src/hooks/useGeminiLive.ts:204 | the combined pattern matches at p exactly when a clock follows, either directly or after a prefix (`Čas:`, `v`, `ve`) and non-digits; the time it yields is that clock's, hour padded |
| GeminiExtract.Extract | src/hooks/useGeminiLive.ts:144-211 | name, date and time are each kept or replaced by a well-formed value; a field that was set stays set; notes are untouched |
| GeminiExtract.ExtractIdempotent | src/hooks/useGeminiLive.ts:144-211 | parsing the same fragment twice gives the same result as parsing it once |
| GeminiLive.ExtractKeepsFields | src/hooks/useGeminiLive.ts:155-211 | the hook's parser never clears a set field |
| GeminiLive.Cleanup | src/hooks/useGeminiLive.ts:76-102 | closes the socket and drops the connected and recording flags; everything else is kept |
| GeminiLive.Finish | src/hooks/useGeminiLive.ts:222-245 | without a live price entry it throws, leaving the session as it was and reporting nothing; with one it reports one result (the given text, the three stored fields without notes, metrics of the tokens counted so far at the live rates) and cleans up |
| GeminiLive.ParseFragment | src/hooks/useGeminiLive.ts:213-219 | the completion check passes exactly when the session was not complete and the merged reservation has a name and a date; then the flag is set and it reports (live entry present, socket closed) or throws (no entry, socket and flags untouched); the reported text is the captured transcript or else the fragment |
| GeminiLive.PartsFrom | src/hooks/useGeminiLive.ts:128-135 | a message's parts report at most once, only in a session not yet complete; a throwing completion ends the loop with the flag set and nothing reported; without a report the socket and flags are untouched; tokens are untouched |
| GeminiLive.PartsOutcome | src/hooks/useGeminiLive.ts:128-135 | a report inside the part loop carries a name and a date and the metrics of the tokens before the message at the live rates; set fields stay set |
| GeminiLive.PartsTranscript | src/hooks/useGeminiLive.ts:130-134 | the transcript grows by the text of the parts that carry text, in order: all of them, or, when the completion throws, those up to and including the completing part |
| GeminiLive.Dispatch | src/hooks/useGeminiLive.ts:122-142 | `setupComplete`, or a message without `serverContent`, changes nothing; when the part loop throws, the usage is not counted; otherwise tokens accumulate (missing counts add 0); reports carry name and date; the transcript only grows |
| GeminiLive.OnMessage | src/hooks/useGeminiLive.ts:357-371 | after completion, or when decoding fails, the message is dropped; an error thrown while handling it is caught, so the flag set before the throw stays set and nothing escapes |
| GeminiLive.AtMostOnce | src/hooks/useGeminiLive.ts:213-219 | over any stream of messages, completion reports at most once per session (never if already complete); a complete session stays complete; with the live entry present the flag records exactly whether a report was made |
| GeminiLive.CompleteIgnoresMessages | src/hooks/useGeminiLive.ts:357-358 | a complete session ignores every later message |
| GeminiLive.FieldsStaySet | src/hooks/useGeminiLive.ts:155-211 | within a session, no set reservation field is ever cleared |
| GeminiLive.NoAudioAfterCompletion | src/hooks/useGeminiLive.ts:307-308 | after the message that sets the completion flag, no audio chunk is sent, whether or not the completion was reported |
| GeminiLive.CompletionSwallowed | src/hooks/useGeminiLive.ts:215-230 | with the shipped price table, the completing message reports nothing and leaves the socket, the connected flag and the microphone as they were |
| GeminiLive.CompletionReported | src/hooks/useGeminiLive.ts:215-244 | with a live price entry, the completing message reports once, with a name and a date, and closes the socket |
| GeminiLive.NeverReports | src/hooks/useGeminiLive.ts:222-250 | with the shipped price table, no stream of messages reports anything or closes the socket, and a manual stop throws without changing the session |
| GeminiLive.Stop | src/hooks/useGeminiLive.ts:247-250 | without a live price entry, stop throws and changes nothing; with one it reports once with the current transcript, even after an automatic completion, and stops audio |
| GeminiLive.ApiVersion | src/hooks/useGeminiLive.ts:300-302 | `v1alpha` exactly when the model (default `gemini-2.0-flash-exp`) contains `native-audio-preview`, `v1beta` otherwise; `GeminiLive.NativeAudioUsesAlpha` and `GeminiLive.DefaultModelUsesBeta` pin both answers for concrete names |
| GeminiLive.DefaultModelUsesBeta | src/hooks/useGeminiLive.ts:300-302 | the default model uses `v1beta` |
| GeminiLive.NativeAudioUsesAlpha | src/hooks/useGeminiLive.ts:300-302 | every model name that contains `native-audio-preview` uses `v1alpha` |
| GeminiLive.Connect | src/hooks/useGeminiLive.ts:252-398 | it resets the completion flag, tokens, transcript and reservation; it records only if a key was returned and the microphone opened, otherwise it cleans up |
| GeminiLive.OnOpen | src/hooks/useGeminiLive.ts:322-323 | opening marks the socket open and connected |
| GeminiLive.OnError | src/hooks/useGeminiLive.ts:373-377 | an error clears processing and cleans up, keeping the reservation |
| GeminiLive.OnClose | src/hooks/useGeminiLive.ts:379-385 | a close always marks the socket closed; the rest of the cleanup happens only while recording |
| GeminiLive.ConnectRearms | src/hooks/useGeminiLive.ts:252-323 | a connect with a key and a microphone, then `onopen`, gives the same fresh session whatever came before: not complete, no tokens, empty transcript and reservation, audio flowing |
| GeminiLive.RunNeverOpens | src/hooks/useGeminiLive.ts:357-371 | handling messages never opens the socket: it stays as it was or is closed |
| GeminiLive.SilentAfterCleanup | src/hooks/useGeminiLive.ts:307-308 | after `cleanup` or a socket error, no audio chunk is sent whatever messages still arrive |
| GeminiLive.CloseAfterCleanup | src/hooks/useGeminiLive.ts:379-385 | the close event that `cleanup` causes changes nothing more, and a second close changes nothing |
| RealtimeExtract.Name | src/components/RealtimeRecorder.tsx:200 | a name is found exactly when `pro` plus two words of the letter class match; the result is two words that stand right after the whitespace following the leftmost such `pro`, up to the end of the second word |
| RealtimeExtract.DayThenDigit | src/components/RealtimeRecorder.tsx:201 | `(\d{1,2})\.?\s*` before a digit takes 1 or 2 digits, giving one back when no digit would follow; two adjacent digits always succeed |
| RealtimeExtract.DateAtAsWritten | src/components/RealtimeRecorder.tsx:201 | the date pattern as written; its numeric alternative is tried first |
| RealtimeExtract.IsoAlternativeIsDead | src/components/RealtimeRecorder.tsx:201-208 | the pattern as written never fills group 4, so the `dateMatch[4]` branch is unreachable |
| RealtimeExtract.IsoDateMisread | src/components/RealtimeRecorder.tsx:201-214 | as written, an ISO date `YYYY-MM-DD` is read as day = first two year digits, month = last two year digits, year = current year |
| RealtimeExtract.IsoDateExample | src/components/RealtimeRecorder.tsx:201-214 | as written, the reply `2026-03-05` yields `<currentYear>-26-20` |
| RealtimeExtract.DateAt | src/components/RealtimeRecorder.tsx:201-208 | the corrected pattern tries the ISO alternative first |
| RealtimeExtract.IsoDateKept | src/components/RealtimeRecorder.tsx:207-208 | with the correction, an ISO date is taken verbatim |
| RealtimeExtract.Date | src/components/RealtimeRecorder.tsx:205-215 | a date is found exactly when the corrected pattern matches somewhere, and it has the shape `Y-DD-DD` |
| RealtimeExtract.DateShape | src/components/RealtimeRecorder.tsx:206-214 | at a match position, an ISO date is taken verbatim; otherwise the match is the numeric alternative (day and month of one or two digits, an optional four-digit year) and the date is the captured year or else the current year, then the month, then the day, each padded to two digits with its value unchanged; either way the shape is `Y-DD-DD` |
| RealtimeExtract.NumericDateValue | src/components/RealtimeRecorder.tsx:201-214 | when the leftmost date match in a reply is not an ISO date, the reply's date is that match's year (or the current year), month and day, padded without changing their values |
| RealtimeExtract.IsoDateValue | src/components/RealtimeRecorder.tsx:201-208 | when the leftmost date match in a reply is an ISO date (under the corrected pattern), the reply's date is that ISO date verbatim |
| RealtimeExtract.TimeIsFirstClock | src/components/RealtimeRecorder.tsx:202 | the time is the leftmost `H(H)[:.]MM` clock, whether or not `v` precedes it |
| RealtimeExtract.Time | src/components/RealtimeRecorder.tsx:234 | a time is reported exactly when the time pattern matches |
| RealtimeExtract.SameTimeAsGeminiLive | src/components/RealtimeRecorder.tsx:202 | both live pipelines read the same time from the same text |
| RealtimeExtract.Reservation | src/components/RealtimeRecorder.tsx:204-238 | a reservation is reported exactly when the name or the date matches; it carries the name, date and time found |
| RealtimeSession.Join | src/components/RealtimeRecorder.tsx:166-168 | the old transcript is a prefix and the piece a suffix of the result; a single space separates them exactly when the old transcript is non-empty |
| RealtimeSession.JoinAllSpaced | src/components/RealtimeRecorder.tsx:166-168 | non-empty pieces joined onto an empty transcript are the pieces separated by single spaces |
| RealtimeSession.RunTranscript | src/components/RealtimeRecorder.tsx:164-196 | over any event stream, the transcript is the old one with the completed transcriptions joined on in order; no other event touches it |
| RealtimeSession.ReplyText | src/components/RealtimeRecorder.tsx:181 | the text of the first `text` item, or `""` when there is none or its text is missing |
| RealtimeSession.ParsedText | src/components/RealtimeRecorder.tsx:176-184 | a reply is parsed exactly when the response has a non-empty output whose first item has content |
| RealtimeSession.ParseReply | src/components/RealtimeRecorder.tsx:198-238 | it emits exactly when the name or the date matches; the text is the captured transcript or else the reply; the metrics are of the tokens counted so far, costed per minute at the prices the environment carries (`NaN` when one is undefined, see `RealtimeSession.ReplyCostNeverShown`) |
| RealtimeSession.Handle | src/components/RealtimeRecorder.tsx:164-196 | a completed transcription joins the transcript; `response.done` parses before adding its usage; every other event type changes nothing |
| RealtimeSession.RunEmissions | src/components/RealtimeRecorder.tsx:176-189 | every emission carries a name or a date and consistent token metrics; the counters never decrease |
| RealtimeSession.ReplyExcludesOwnUsage | src/components/RealtimeRecorder.tsx:176-189 | the metrics of an emission exclude the usage of the response being parsed |
| RealtimeSession.NoOnceGuard | src/components/RealtimeRecorder.tsx:204-238 | the same reply handled twice is reported twice |
| RealtimeSession.RequestsResponse | src/components/RealtimeRecorder.tsx:262-274 | stop sends `response.create` exactly when the channel is open; `RealtimeSession.OpenAfterConnect` and `RealtimeSession.DisconnectIsFinal` say when that is |
| RealtimeSession.Flush | src/components/RealtimeRecorder.tsx:276-296 | it emits text and metrics, without a reservation, exactly when the captured transcript is non-empty; it always disconnects |
| RealtimeSession.ReplyCostNeverShown | src/components/RealtimeRecorder.tsx:224-226 | with the shipped price table, every result a stream of events reports costs `NaN`, so the panel never shows its cost |
| RealtimeSession.StopCostNeverShown | src/components/RealtimeRecorder.tsx:284-286 | with the shipped price table, the result of a stop costs `NaN` and its cost is not shown |
| RealtimeSession.PricedStopShowsCost | src/components/RealtimeRecorder.tsx:284-294 | with defined positive per-minute prices, the result of a stop after at least a millisecond shows its cost |
| RealtimeSession.Connect | src/components/RealtimeRecorder.tsx:52-162 | it resets transcript and tokens; on failure it clears processing and disconnects |
| RealtimeSession.OnOpen | src/components/RealtimeRecorder.tsx:110-114 | opening marks the channel open, connected and recording, and clears processing |
| RealtimeSession.Disconnect | src/components/RealtimeRecorder.tsx:241-260 | it closes the channel and drops the flags, keeping transcript and tokens |
| RealtimeSession.OpenAfterConnect | src/components/RealtimeRecorder.tsx:52-114 | a successful connect followed by `onopen` gives the same state whatever came before (empty transcript, no tokens, open, connected, recording, not busy), and a stop then sends `response.create` |
| RealtimeSession.DisconnectIsFinal | src/components/RealtimeRecorder.tsx:241-274 | after a disconnect a late `onopen` does not reopen the channel, a second disconnect changes nothing, and a stop sends nothing; the same holds after a failed connect and after the stop timer |
| RealtimeSession.RunKeepsLifecycle | src/components/RealtimeRecorder.tsx:164-196 | handling events changes only the transcript and the counters |
| TranscribeRoute.TranscriptionAt | src/app/api/transcribe/route.ts:186 | the lazy section pattern matches only at a `TRANSCRIPTION:` label, with one captured group |
| TranscribeRoute.Transcription | src/app/api/transcribe/route.ts:183-189 | without the label the transcription is `""`; a non-empty result is trimmed |
| TranscribeRoute.TranscriptionRoundTrip | src/app/api/transcribe/route.ts:183-189 | for a reply in the requested layout, the transcription is exactly the text between the label and the next `RESERVATION:`, trimmed |
| TranscribeRoute.ReservationCandidate | src/app/api/transcribe/route.ts:191-198 | the candidate runs from `{` to the first `}` after it |
| TranscribeRoute.ReservationRoundTrip | src/app/api/transcribe/route.ts:191-198 | for a reply in the requested layout, the candidate is exactly its JSON object when that object has no inner `}` |
| TranscribeRoute.WithOpenAI | src/app/api/transcribe/route.ts:57-121 | a missing key throws before any request; otherwise it calls Whisper, then the chat model, and the reservation is the decoding of the chat content |
| TranscribeRoute.WithGemini | src/app/api/transcribe/route.ts:123-201 | a missing key throws before any request; otherwise one request; content is the first candidate's first part text or `""`, then both sections are read |
| TranscribeRoute.Post | src/app/api/transcribe/route.ts:17-55 | a body that is not form data, or an `audio` field that is non-empty text, gives 500 before any request; a missing or empty `audio` gives 400 (and only that gives 400); every other failure is a 500 with the generic message; 200 exactly with a text/reservation body; requests are made only for an uploaded file, `openai` taking the two-step path and anything else the Gemini path; on an uploaded file the vendor requests are those of the selected path, and the status is 200 exactly when that path produced a result, whose text and reservation form the body |
| TranscribeRoute.MissingKeyFailsEarly | src/app/api/transcribe/route.ts:57-128 | a missing key for the chosen path gives 500 before any vendor request |
| TranscribeRoute.OpenAISucceeds | src/app/api/transcribe/route.ts:33-46 | with the key set and both OpenAI requests answered, the route returns 200 with the Whisper text and the parse of the chat content, after exactly those two requests |
| TranscribeRoute.UnparsableExtractionKeepsText | src/app/api/transcribe/route.ts:113-120 | chat content that is not JSON gives a `null` reservation but keeps the transcription |
| TranscribeRoute.GeminiReplyRoundTrip | src/app/api/transcribe/route.ts:179-200 | a Gemini reply in the requested layout comes back as its transcription and the decoding of its JSON object |
| Page.HandleTranscription | src/app/page.tsx:35-43 | it always replaces the transcription; it replaces the reservation and metrics only when the result carries them |
| Page.TextOnlyKeepsReview | src/app/page.tsx:35-43 | a text-only result changes nothing but the transcription |
| Page.Save | src/app/page.tsx:45-50 | the new reservation is prepended; review, transcription and metrics are cleared |
| Page.Without | src/app/page.tsx:52-54 | the result holds exactly the elements without the id, and it never grows |
| Page.WithoutKeepsOrder | src/app/page.tsx:52-54 | the filter distributes over concatenation, so the order is kept |
| Page.Delete | src/app/page.tsx:52-54 | delete filters the saved list by id and changes nothing else |
| Page.SaveThenDelete | src/app/page.tsx:45-54 | deleting a just-saved reservation with a fresh id restores the list |
| Page.RecorderFor | src/app/page.tsx:56-84 | `openai-realtime` selects the realtime recorder, `gemini-live` the live recorder, and the others the upload recorder |
| Page.TranscriptionPanelProviders | src/app/page.tsx:86-135 | the transcription panel shows exactly for a non-empty transcription of a batch provider |
| Page.Load | src/app/page.tsx:22-28 | the stored list is adopted only when a non-empty value is stored and it decodes |
| Page.ReloadRestores | src/app/page.tsx:22-33 | with an encoding that decodes back, a reload restores the list last persisted |
| Card.Save | src/components/ReservationCard.tsx:21-31 | name defaults to `Neznámý klient` and date to today when missing or empty; time and notes are copied; provider, id and timestamp come from outside |
| Card.SavedIsComplete | src/components/ReservationCard.tsx:24-25 | a saved reservation always has a non-empty name, and a non-empty date when today is known |
| Card.ClearedNameIsUnknown | src/components/ReservationCard.tsx:24 | an emptied name input saves the placeholder name |
| Card.Cancel | src/components/ReservationCard.tsx:132-135 | cancel leaves editing and resets the working copy to the prop as currently passed |
| Card.CancelDiscardsEdits | src/components/ReservationCard.tsx:132-135 | after cancel the card is as if just mounted with its current prop, so a save stores that prop whatever was typed |
| Card.Receive | src/components/ReservationCard.tsx:17-19 | a new prop replaces only the prop; the working copy and the editing flag survive |
| Card.Shown | src/components/ReservationCard.tsx:62-122 | while editing, the inputs show the working copy; otherwise labels show the prop, with placeholders for a missing name or date and time and notes rows only when the prop has them |
| Card.StaleSave | src/components/ReservationCard.tsx:17-31 | a card that receives a second reservation shows it but saves the one it was mounted with; cancelling an edit picks up the new one |
| Card.ConfirmShowsProp | src/components/ReservationCard.tsx:66-144 | after confirming edits, the labels show the prop, not the edits a save would store |
| Card.Confirm | src/components/ReservationCard.tsx:142-144 | confirm leaves editing and keeps the edits |
| Card.ConfirmKeepsEdits | src/components/ReservationCard.tsx:142-144 | edit, change, confirm, then save stores the edits |
| MetricsView.DurationOf | src/components/MetricsDisplay.tsx:47-50 | below 1000 ms the duration is `<n>ms`; otherwise the seconds form |
| MetricsView.Show | src/components/MetricsDisplay.tsx:47-85 | tokens show iff the total is defined and > 0; the breakdown, inside that block, iff both counts are defined; cost iff defined, a number and > 0 (never `NaN`), as `<0.001` below 0.001 |
| MetricsView.LiveSessionTokens | src/components/MetricsDisplay.tsx:56-67 | live-session metrics show tokens with the breakdown exactly when a token was counted |
| MetricsView.RealtimeCostShown | src/components/MetricsDisplay.tsx:72-85 | with defined positive per-minute prices, a per-minute cost shows exactly when the duration is positive |
| MetricsView.AccentOf | src/components/MetricsDisplay.tsx:13-31 | each provider gets its accent; any other value gets emerald |
| MetricsView.AccentsDistinct | src/components/MetricsDisplay.tsx:13-21 | the four providers get four distinct accents |

## Left out

- Audio capture and playback, the level meter, WebSocket/WebRTC setup, vendor HTTP requests and the upload recorder: no deterministic logic. Their outcomes (key present, microphone opened, channel opened, reply fields) are parameters.
- The 2-second timer in the realtime stop: only its callback body is modelled (`RealtimeSession.Flush`). The transcript it reads is the value captured when stop was pressed, passed in.
- The float to int16 scaling in the worklet: floating point; samples are abstract.
- `Math.round` of `performance.now()` differences: durations are integer milliseconds passed in.
- `toFixed` and `toLocaleString`: formatting of floating values; the seconds and cost blocks carry the number itself.
- `JSON.parse`, `JSON.stringify`, `btoa` and Blob decoding: these are parameters, and a decoder returns `None` where parsing throws.
- Billing.Cost: costs are exact reals. The source computes them in IEEE doubles, whose rounding is not modelled; only `NaN` is.
- GeminiLive.OnMessage: decoding is synchronous here. In the source a Blob frame passes the completion check (src/hooks/useGeminiLive.ts:358) before `await event.data.text()` (362), so a frame in flight when another message completes the session is still dispatched and can change the transcript, the fields and the tokens.
- GeminiLive.CompleteIgnoresMessages: covers messages that arrive after completion, not a Blob frame already past the check when the session completes (see the line above).
- RealtimeExtract.Date: uses the corrected pattern `RealtimeExtract.DateAt`. On an ISO date the code as written gives a date read from the year's digits (see Findings).
- RealtimeExtract.DateShape: its ISO case, and `RealtimeExtract.IsoDateValue`, hold for the corrected pattern; as written the numeric case applies to ISO dates too.
- RealtimeExtract.Reservation: its date comes from `RealtimeExtract.Date`, so the same correction applies.
- RealtimeSession.ParseReply: its reservation comes from `RealtimeExtract.Reservation`, so the same correction applies.
- React re-rendering and memoisation: the transcript value seen by a memoised parsing callback is a parameter (`captured`). In the hook the message handler is memoised at mount, so that value is the one from the first render.
- The `AIProvider` and `Reservation.provider` unions, which lack `gemini-live`: the model uses a four-valued provider, the set the page and the metrics panel switch over.
- RealtimeSession.Event: `transcript` is a string. In the source, a missing transcript would be concatenated as the text `undefined`.
- TranscribeRoute.WithOpenAI: the Whisper `text` is taken as a string. In the source, a missing field would drop `text` from the JSON body.
- Page.Load: a stored value that does not decode leaves the list as it was. In the source, the effect throws.
- Card.Save: the `provider` prop is declared as `"openai" \| "gemini"`, but the page passes its provider through. The model takes any provider.
- The `isProcessing` flag of the page: it is only forwarded to the recorders, which the sessions model themselves.
- UI-only components and key-forwarding routes: no logic beyond rendering or forwarding.

## Findings

| source | as written | input that shows it | evidently intended | confidence | as-written member | corrected member |
|---|---|---|---|---|---|---|
| src/hooks/useGeminiLive.ts:230 | `finishSession` reads `PRICING.gemini.live.audioInput`, but the price table (src/types/index.ts:28-47) has no `gemini.live` entry, so it throws a `TypeError` after the completion flag is set (line 217) and before `onTranscription` (234) and `cleanup` (244); on the message path the catch of `ws.onmessage` (366-368) swallows it, and `stopAndProcess` (247-250) throws the same way | a message whose text parts give a name and a date, e.g. `Jméno: Jan Novák` and `2026-03-05` | the completed session is reported once with its metrics and cleaned up, and stop reports and cleans up | high; not executed | GeminiLive.NeverReports | GeminiLive.CompletionReported |
| src/components/RealtimeRecorder.tsx:226 | the cost adds `PRICING.openai.realtime.audioInputPerMinute` and `audioOutputPerMinute`, which the realtime entry (per-million `audio`, `audioOutput`, `text`) does not define, so every realtime cost is `NaN`, here and at line 286, and the panel's `> 0` test (src/components/MetricsDisplay.tsx:72) hides it | a stop after 60000 ms with a non-empty transcript | the per-minute cost is shown for every session that lasted at least a millisecond | high; not executed | RealtimeSession.ReplyCostNeverShown | MetricsView.RealtimeCostShown |
| src/components/RealtimeRecorder.tsx:201 | the numeric alternative `(\d{1,2})\.?\s*(\d{1,2})\.?\s*(\d{4})?` comes first and matches at the start of every ISO date, so the ISO alternative (group 4) is never chosen | the reply `2026-03-05` gives the date `<currentYear>-26-20` | an ISO date is taken verbatim through the `dateMatch[4]` branch (lines 207-208) | high; not executed | RealtimeExtract.IsoDateMisread | RealtimeExtract.IsoDateKept |

The two pricing rows: every session transition takes the price-table
entry it reads as part of its environment. `Types.GeminiLiveRates` and
`Types.RealtimeInputPerMinute` record the shipped table, where both are
missing. `GeminiLive.CompletionSwallowed` and
`RealtimeSession.StopCostNeverShown` also exhibit the as-written
behaviour. The defined-entry case is the intended one; `GeminiLive.AtMostOnce`,
`GeminiLive.Stop` and `RealtimeSession.PricedStopShowsCost` state it. Neither
property access exists on the declared type of `PRICING`, so the TypeScript
compiler also rejects both.

The as-written pattern is `RealtimeExtract.DateAtAsWritten`.
`RealtimeExtract.IsoAlternativeIsDead` and `RealtimeExtract.IsoDateExample`
exhibit the discrepancy. The rest of the model, including
`RealtimeExtract.Date`, `RealtimeExtract.Reservation` and the realtime
session, uses the corrected `RealtimeExtract.DateAt`.

=== FILE: billing.dfy ===
/** Token counters and the two cost formulas the live sessions use: a
    token-rate formula (Gemini Live) and a duration-rate formula (OpenAI
    Realtime). */
module Billing {
  import opened Wrappers
  import opened Types

  /** `tokensRef.current`. */
  datatype Tokens = Tokens(input: nat, output: nat)

  const NoTokens: Tokens := Tokens(0, 0)

  /** `input += reported.input || 0; output += reported.output || 0`:
      a missing count adds nothing. */
  function AddUsage(t: Tokens, input: Option<nat>, output: Option<nat>): (r: Tokens)
    ensures r.input >= t.input && r.output >= t.output
    ensures input.None? ==> r.input == t.input
    ensures output.None? ==> r.output == t.output
    ensures r.input + r.output == t.input + t.output + input.GetOr(0) + output.GetOr(0)
  {
    Tokens(t.input + input.GetOr(0), t.output + output.GetOr(0))
  }

  /** How a provider is billed. A per-minute price the table does not
      define is `None` (`undefined`). */
  datatype BillingModel =
    | PerToken(rates: TokenRates)
    | PerMinute(inputPerMinute: Option<real>, outputPerMinute: Option<real>)

  /** Estimated cost in USD of a session that used `t` and lasted
      `durationMs` milliseconds. `undefined + undefined` is `NaN`, and so is
      any product with it. */
  function Cost(model: BillingModel, t: Tokens, durationMs: nat): (c: Usd)
    ensures c.NaN? <==> model.PerMinute? && (model.inputPerMinute.None? || model.outputPerMinute.None?)
  {
    match model
    case PerToken(rates) =>
      Usd((t.input as real / 1000000.0) * rates.inputPerMillion
          + (t.output as real / 1000000.0) * rates.outputPerMillion)
    case PerMinute(Some(inRate), Some(outRate)) =>
      Usd((durationMs as real / 60000.0) * (inRate + outRate))
    case PerMinute(_, _) => NaN
  }

  /** Token-rate cost ignores the duration, duration-rate cost ignores the
      tokens. */
  lemma CostDependsOnOneMeasure(model: BillingModel, t1: Tokens, t2: Tokens, d1: nat, d2: nat)
    ensures model.PerToken? ==> Cost(model, t1, d1) == Cost(model, t1, d2)
    ensures model.PerMinute? ==> Cost(model, t1, d1) == Cost(model, t2, d1)
  {
  }

  /** With non-negative rates, more tokens never cost less. */
  lemma TokenCostMonotone(rates: TokenRates, t1: Tokens, t2: Tokens, d: nat)
    requires rates.inputPerMillion >= 0.0 && rates.outputPerMillion >= 0.0
    requires t1.input <= t2.input && t1.output <= t2.output
    ensures Cost(PerToken(rates), t1, d).amount <= Cost(PerToken(rates), t2, d).amount
  {
    var a1, a2 := t1.input as real / 1000000.0, t2.input as real / 1000000.0;
    var b1, b2 := t1.output as real / 1000000.0, t2.output as real / 1000000.0;
    assert a1 * rates.inputPerMillion <= a2 * rates.inputPerMillion by {
      assert (a2 - a1) * rates.inputPerMillion >= 0.0;
    }
    assert b1 * rates.outputPerMillion <= b2 * rates.outputPerMillion by {
      assert (b2 - b1) * rates.outputPerMillion >= 0.0;
    }
  }

  /** One million input tokens of gpt-4o-mini cost exactly its input price. */
  lemma OneMillionInputTokens()
    ensures Cost(PerToken(Pricing.openai.gpt4oMini), Tokens(1000000, 0), 0) == Usd(0.15)
  {
  }

  /** The metrics record both live sessions emit: every field is present,
      the total is the sum of the two counts, and the cost follows the
      billing model. */
  function SessionMetrics(model: BillingModel, t: Tokens, durationMs: nat): (m: UsageMetrics)
    ensures m.durationMs == durationMs
    ensures m.tokensInput == Some(t.input) && m.tokensOutput == Some(t.output)
    ensures m.tokensTotal == Some(m.tokensInput.value + m.tokensOutput.value)
    ensures m.estimatedCostUsd == Some(Cost(model, t, durationMs))
  {
    UsageMetrics(durationMs, Some(t.input), Some(t.output), Some(t.input + t.output),
                  Some(Cost(model, t, durationMs)))
  }
}

=== FILE: card.dfy ===
/** The review card for an extracted reservation
    (src/components/ReservationCard.tsx): the edit, cancel and confirm
    buttons over a working copy, and the completion of a partial
    reservation on save. The fresh id, today's date and the current
    timestamp are parameters. */
module Card {
  import opened Wrappers
  import opened Text
  import opened Types

  /** The name stored when none was given. */
  const UnknownClient: string := "Neznámý klient"

  /** The label shown when the reservation has no date. */
  const NoDate: string := "Datum neuvedeno"

  /** The card's state: the `reservation` prop as currently passed, the
      working copy, and whether the inputs are shown. */
  datatype Card = Card(prop: Draft, edited: Draft, editing: bool)

  /** A card as mounted: the working copy is the reservation itself. */
  function Mount(d: Draft): (c: Card)
    ensures c.prop == d && c.edited == d && !c.editing
  {
    Card(d, d, false)
  }

  /** A new `reservation` prop for a card that stays mounted. The page
      renders the card without a `key`, so its state survives: the working
      copy is still the one taken at mount, or edited since. */
  function Receive(c: Card, d: Draft): (r: Card)
    ensures r.prop == d && r.edited == c.edited && r.editing == c.editing
  {
    c.(prop := d)
  }

  /** What the card shows: while editing, inputs filled from the working
      copy; otherwise labels read from the prop, with a time row and a notes
      row only when the prop has them. */
  datatype View =
    | Inputs(nameInput: string, dateInput: string, timeInput: string, notesInput: string)
    | Labels(name: string, date: string, time: Option<string>, notes: Option<string>)

  function Shown(c: Card): (v: View)
    ensures v.Inputs? <==> c.editing
    ensures v.Inputs? ==> v.nameInput == OrElse(c.edited.clientName, "") && v.dateInput == OrElse(c.edited.date, "")
    ensures v.Inputs? ==> v.timeInput == OrElse(c.edited.time, "") && v.notesInput == OrElse(c.edited.notes, "")
    ensures v.Labels? ==> v.name == OrElse(c.prop.clientName, UnknownClient) && v.date == OrElse(c.prop.date, NoDate)
    ensures v.Labels? ==> (v.time.Some? <==> Truthy(c.prop.time)) && (v.time.Some? ==> v.time == c.prop.time)
    ensures v.Labels? ==> (v.notes.Some? <==> Truthy(c.prop.notes)) && (v.notes.Some? ==> v.notes == c.prop.notes)
  {
    if c.editing then
      Inputs(OrElse(c.edited.clientName, ""), OrElse(c.edited.date, ""),
             OrElse(c.edited.time, ""), OrElse(c.edited.notes, ""))
    else
      Labels(OrElse(c.prop.clientName, UnknownClient), OrElse(c.prop.date, NoDate),
             if Truthy(c.prop.time) then c.prop.time else None,
             if Truthy(c.prop.notes) then c.prop.notes else None)
  }

  /** "Upravit". */
  function Edit(c: Card): (r: Card)
    ensures r.editing && r.prop == c.prop && r.edited == c.edited
  {
    c.(editing := true)
  }

  /** An input's change: one field of the working copy is replaced. */
  function Change(c: Card, edited: Draft): (r: Card)
    ensures r.edited == edited && r.prop == c.prop && r.editing == c.editing
  {
    c.(edited := edited)
  }

  /** "Zrušit": leave editing and reset the working copy to the prop as it
      is now. */
  function Cancel(c: Card): (r: Card)
    ensures !r.editing && r.edited == c.prop && r.prop == c.prop
  {
    c.(editing := false, edited := c.prop)
  }

  /** "Potvrdit": leave editing and keep the edits. */
  function Confirm(c: Card): (r: Card)
    ensures !r.editing && r.edited == c.edited && r.prop == c.prop
  {
    c.(editing := false)
  }

  /** `handleSave`: the working copy completed into a full reservation. */
  function Save(c: Card, provider: Provider, id: string, today: string, now: string): (r: Reservation)
    ensures r.clientName == (if Truthy(c.edited.clientName) then c.edited.clientName.value else UnknownClient)
    ensures r.date == (if Truthy(c.edited.date) then c.edited.date.value else today)
    ensures r.time == c.edited.time && r.notes == c.edited.notes
    ensures r.provider == provider && r.id == id && r.createdAt == now
  {
    Reservation(id, OrElse(c.edited.clientName, UnknownClient), OrElse(c.edited.date, today),
                c.edited.time, c.edited.notes, provider, now)
  }

  /** A saved reservation always has a name, and a date when today's date
      is known. */
  lemma SavedIsComplete(c: Card, provider: Provider, id: string, today: string, now: string)
    ensures Save(c, provider, id, today, now).clientName != ""
    ensures today != "" ==> Save(c, provider, id, today, now).date != ""
  {
  }

  /** Whatever was typed, cancelling and saving stores the reservation the
      card is showing (completed with the defaults), and the card looks as
      if it had just been mounted with it. */
  lemma CancelDiscardsEdits(c: Card, provider: Provider, id: string, today: string, now: string)
    ensures Save(Cancel(c), provider, id, today, now) == Save(Mount(c.prop), provider, id, today, now)
    ensures Cancel(c) == Mount(c.prop)
  {
  }

  /** A card that receives a second reservation shows it but saves the one
      it was mounted with; only an edit that is cancelled picks up the new
      one. */
  lemma StaleSave(a: Draft, b: Draft, provider: Provider, id: string, today: string, now: string)
    ensures Shown(Receive(Mount(a), b)) == Shown(Mount(b))
    ensures Save(Receive(Mount(a), b), provider, id, today, now) == Save(Mount(a), provider, id, today, now)
    ensures Save(Cancel(Edit(Receive(Mount(a), b))), provider, id, today, now)
      == Save(Mount(b), provider, id, today, now)
  {
  }

  /** After confirming, the labels show the prop, not the edits that a
      save would store. */
  lemma ConfirmShowsProp(c: Card, edited: Draft)
    ensures Shown(Confirm(Change(Edit(c), edited))) == Shown(Mount(c.prop))
  {
  }

  /** Confirming and saving stores the edits. */
  lemma ConfirmKeepsEdits(c: Card, edited: Draft, provider: Provider, id: string, today: string, now: string)
    ensures Save(Confirm(Change(Edit(c), edited)), provider, id, today, now)
      == Save(Mount(edited), provider, id, today, now)
  {
  }

  /** Clearing the name input stores the placeholder name. */
  lemma ClearedNameIsUnknown(c: Card, provider: Provider, id: string, today: string, now: string)
    requires c.edited.clientName == Some("")
    ensures Save(c, provider, id, today, now).clientName == UnknownClient
  {
  }
}

=== FILE: gemini_extract.dfy ===
/** The field extractor of the Gemini Live session (`parseReservation`
    in src/hooks/useGeminiLive.ts): three ordered chains of regular
    expressions run over one text fragment and update a partial
    reservation. */
module GeminiExtract {
  import opened Wrappers
  import opened Text
  import opened Regex
  import opened Patterns
  import opened Types

  const CzechLetters: string := "ěščřžýáíéúůďťňĚŠČŘŽÝÁÍÉÚŮĎŤŇ"

  /** `[\wěščřžýáíéúůďťňĚŠČŘŽÝÁÍÉÚŮĎŤŇ]`; the class holds both cases of
      each letter, so the `i` flag adds nothing to it. */
  predicate IsNameChar(c: char) {
    IsAsciiWordChar(c) || c in CzechLetters
  }

  lemma NameCharIsNotSpace()
    ensures forall c :: IsNameChar(c) ==> !IsSpace(c)
  {
  }

  // ---------------------------------------------------------------- names

  /** `/Jméno:\s*(W+\s+W+)/i` at `p`. */
  function JmenoAt(s: string, p: nat): Option<RegexMatch> {
    NameCharIsNotSpace();
    if FoldedAt(s, p, "Jméno:") then TwoWordsAt(s, p, p + 6, 0, IsNameChar) else None
  }

  /** `/pro\s+(W+\s+W+)/i` at `p`. */
  function ProAt(s: string, p: nat): Option<RegexMatch> {
    NameCharIsNotSpace();
    if FoldedAt(s, p, "pro") then TwoWordsAt(s, p, p + 3, 1, IsNameChar) else None
  }

  /** `/klient[a]?:\s*(W+\s+W+)/i` at `p`. When `a:` follows, the variant
      without the `a` cannot match (it would need `:` where `a` is). */
  function KlientAt(s: string, p: nat): Option<RegexMatch> {
    NameCharIsNotSpace();
    if !FoldedAt(s, p, "klient") then None
    else if FoldedAt(s, p + 6, "a:") then TwoWordsAt(s, p, p + 8, 0, IsNameChar)
    else if FoldedAt(s, p + 6, ":") then TwoWordsAt(s, p, p + 7, 0, IsNameChar)
    else None
  }

  /** The name patterns in the order they are tried. */
  const NamePatterns: seq<Matcher> := [JmenoAt, ProAt, KlientAt]

  /** The first name pattern that matches sets the name to its group 1;
      when none matches the stored name is kept. */
  function ExtractName(current: Option<string>, text: string): (r: Option<string>)
    ensures (forall k :: 0 <= k < |NamePatterns| ==> Exec(text, NamePatterns[k]).None?) ==> r == current
    ensures FirstPattern(text, NamePatterns, 0).Some? ==>
      var (k, m) := FirstPattern(text, NamePatterns, 0).value;
      && r == Group(m, 1) && r.Some?
      && IsTwoWords(r.value, IsNameChar)
      && (forall j :: 0 <= j < k ==> Exec(text, NamePatterns[j]).None?)
  {
    match FirstPattern(text, NamePatterns, 0)
    case Some((k, m)) =>
      NameMatchShape(text, k);
      Group(m, 1)
    case None => current
  }

  /** Every name pattern captures two words in group 1. */
  lemma NameMatchShape(text: string, k: nat)
    requires k < |NamePatterns| && Exec(text, NamePatterns[k]).Some?
    ensures var m := Exec(text, NamePatterns[k]).value;
      Group(m, 1).Some? && IsTwoWords(Group(m, 1).value, IsNameChar)
  {
    var p := First(text, NamePatterns[k]).value;
    NamePatternShape(text, p, k);
    var m := Exec(text, NamePatterns[k]).value;
    assert Group(m, 1) == m.groups[0];
  }

  lemma NamePatternShape(s: string, p: nat, k: nat)
    requires k < |NamePatterns| && NamePatterns[k](s, p).Some?
    ensures EndsWithTwoWords(NamePatterns[k](s, p).value, IsNameChar)
  {
    NameCharIsNotSpace();
    assert NamePatterns[0] == JmenoAt && NamePatterns[1] == ProAt && NamePatterns[2] == KlientAt;
  }

  /** Priority: a `Jméno:` label beats `pro`, which beats `klient:`,
      wherever in the fragment each occurs. */
  lemma NamePriority(current: Option<string>, text: string)
    ensures Exec(text, JmenoAt).Some? ==>
      ExtractName(current, text) == Group(Exec(text, JmenoAt).value, 1)
    ensures Exec(text, JmenoAt).None? && Exec(text, ProAt).Some? ==>
      ExtractName(current, text) == Group(Exec(text, ProAt).value, 1)
    ensures Exec(text, JmenoAt).None? && Exec(text, ProAt).None? && Exec(text, KlientAt).Some? ==>
      ExtractName(current, text) == Group(Exec(text, KlientAt).value, 1)
  {
    assert NamePatterns[0] == JmenoAt && NamePatterns[1] == ProAt && NamePatterns[2] == KlientAt;
  }

  // ---------------------------------------------------------------- dates

  /** `/Datum:\s*(\d{4}-\d{2}-\d{2})/i` at `p`. */
  function LabelledIsoAt(s: string, p: nat): (r: Option<RegexMatch>)
    ensures r.Some? ==> FoundAt(s, p, r.value) && |r.value.whole| >= 16 && |r.value.groups| == 1
  {
    if !FoldedAt(s, p, "Datum:") then None
    else
      var q := p + 6 + Run(s, p + 6, IsSpace);
      if IsIsoAt(s, q) then Some(RegexMatch(p, s[p..q + 10], [Some(s[q..q + 10])])) else None
  }

  /** `/(\d{4}-\d{2}-\d{2})/` at `p`. */
  function BareIsoAt(s: string, p: nat): (r: Option<RegexMatch>)
    ensures r.Some? <==> IsIsoAt(s, p)
    ensures r.Some? ==> FoundAt(s, p, r.value) && r.value.groups == [Some(r.value.whole)]
  {
    if IsIsoAt(s, p) then Some(RegexMatch(p, s[p..p + 10], [Some(s[p..p + 10])])) else None
  }

  /** `(\d{1,2})\.\s*` at `p`: the digit count and the position after the
      whitespace. The greedy `\d{1,2}` never backtracks (a one-digit
      capture would be followed by a digit where the dot must be), nor does
      `\s*` (every item that can follow it starts with a non-space). */
  function DottedNumberAt(s: string, p: nat): (r: Option<(nat, nat)>)
    ensures r.Some? ==> 1 <= r.value.0 <= 2 && p + r.value.0 + 1 <= r.value.1 <= |s|
    ensures r.Some? ==> AllDigits(s[p..p + r.value.0]) && s[p + r.value.0] == '.'
    ensures r.Some? ==> forall i :: p <= i < r.value.1 ==> s[i] != '-'
    ensures r.Some? ==> r.value.1 < |s| ==> !IsSpace(s[r.value.1])
  {
    if p > |s| then None
    else
      var d := Digits(s, p, 2);
      if d == 0 || !LiteralAt(s, p + d, ".") then None
      else
        var e := p + d + 1 + Run(s, p + d + 1, IsSpace);
        DottedNoHyphen(s, p, d, e);
        Some((d, e))
  }

  /** Digits, a dot and whitespace hold no hyphen. */
  lemma DottedNoHyphen(s: string, p: nat, d: nat, e: nat)
    requires p + d + 1 <= e <= |s| && AllDigits(s[p..p + d]) && LiteralAt(s, p + d, ".")
    requires forall i :: p + d + 1 <= i < e ==> IsSpace(s[i])
    ensures s[p + d] == '.' && forall i :: p <= i < e ==> s[i] != '-'
  {
    forall i | p <= i < p + d ensures IsDigit(s[i]) {
      assert s[i] == s[p..p + d][i - p];
    }
    assert s[p + d] == s[p + d..p + d + 1][0];
  }

  /** `(\d{4})?` at `r`: the length it consumes, 4 or 0. */
  function OptionalYearAt(s: string, r: nat): (n: nat)
    requires r <= |s|
    ensures (n == 0 || n == 4) && r + n <= |s|
    ensures forall i :: r <= i < r + n ==> IsDigit(s[i])
    ensures n == 4 ==> AllDigits(s[r..r + 4])
  {
    if Digits(s, r, 4) == 4 then
      assert forall i :: r <= i < r + 4 ==> s[i] == s[r..r + 4][i - r];
      4
    else 0
  }

  /** `/(\d{1,2})\.\s*(\d{1,2})\.\s*(\d{4})?/` at `p`; the optional year
      always lets the match succeed, so nothing before it backtracks. */
  function NumericDateAt(s: string, p: nat): (r: Option<RegexMatch>)
    ensures r.Some? ==> FoundAt(s, p, r.value) && IsNumericDateMatch(r.value)
  {
    match DottedNumberAt(s, p)
    case None => None
    case Some((d1, q)) =>
      match DottedNumberAt(s, q)
      case None => None
      case Some((d2, r)) =>
        var y := OptionalYearAt(s, r);
        FillerHasNoHyphen(s, p, q, r, r + y);
        NumericDateMatchShape(s, p, d1, q, d2, r, y);
        Some(NumericDateMatch(s, p, d1, q, d2, r, y))
  }

  /** A match of the numeric date pattern: no hyphen, a one- or two-digit
      day and month, and a four-digit year when one was captured. */
  predicate IsNumericDateMatch(m: RegexMatch) {
    && '-' !in m.whole && |m.groups| == 3
    && m.groups[0].Some? && 1 <= |m.groups[0].value| <= 2 && AllDigits(m.groups[0].value)
    && m.groups[1].Some? && 1 <= |m.groups[1].value| <= 2 && AllDigits(m.groups[1].value)
    && (m.groups[2].Some? ==> |m.groups[2].value| == 4 && AllDigits(m.groups[2].value))
  }

  /** The match of the numeric date pattern from its parts. */
  function NumericDateMatch(s: string, p: nat, d1: nat, q: nat, d2: nat, r: nat, y: nat): (m: RegexMatch)
    requires p + d1 <= q && q + d2 <= r && r + y <= |s|
    ensures FoundAt(s, p, m) && m.whole == s[p..r + y]
    ensures m.groups == [Some(s[p..p + d1]), Some(s[q..q + d2]), if y == 4 then Some(s[r..r + 4]) else None]
  {
    MatchOf(s, p, r + y, [Some(s[p..p + d1]), Some(s[q..q + d2]), if y == 4 then Some(s[r..r + 4]) else None])
  }

  lemma NumericDateMatchShape(s: string, p: nat, d1: nat, q: nat, d2: nat, r: nat, y: nat)
    requires p + d1 <= q && q + d2 <= r && r + y <= |s|
    requires 1 <= d1 <= 2 && AllDigits(s[p..p + d1])
    requires 1 <= d2 <= 2 && AllDigits(s[q..q + d2])
    requires y == 4 ==> AllDigits(s[r..r + 4])
    requires '-' !in s[p..r + y]
    ensures IsNumericDateMatch(NumericDateMatch(s, p, d1, q, d2, r, y))
  {
  }

  lemma FillerHasNoHyphen(s: string, p: nat, q: nat, r: nat, e: nat)
    requires p <= q <= r <= e <= |s|
    requires forall i :: p <= i < q ==> s[i] != '-'
    requires forall i :: q <= i < r ==> s[i] != '-'
    requires forall i :: r <= i < e ==> IsDigit(s[i])
    ensures '-' !in s[p..e]
  {
    NoHyphenIn(s, p, e);
  }

  lemma NoHyphenIn(s: string, i: nat, j: nat)
    requires i <= j <= |s|
    requires forall k :: i <= k < j ==> s[k] != '-'
    ensures '-' !in s[i..j]
  {
  }

  /** The genitive month names of the alternation, in its order. */
  const MonthNames: seq<string> := ["ledna", "února", "března", "dubna", "května", "června",
    "července", "srpna", "září", "října", "listopadu", "prosince"]

  /** The values of the lookup table, in the same order. */
  const MonthNumbers: seq<string> := ["01", "02", "03", "04", "05", "06",
    "07", "08", "09", "10", "11", "12"]

  /** Each table value is the month's number padded to two digits. */
  lemma MonthNumbersArePadded(k: nat)
    requires k < 12
    ensures |MonthNames| == |MonthNumbers| == 12
    ensures MonthNumbers[k] == Pad2(Decimal(k + 1))
  {
  }

  /** The first month name (in alternation order) found at `q`, under the
      `i` flag. No name is a prefix of another, so at most one can match. */
  function MonthAt(s: string, q: nat, k: nat): (r: Option<nat>)
    ensures r.Some? ==> k <= r.value < 12 && FoldedAt(s, q, MonthNames[r.value])
    ensures r.None? ==> forall j :: k <= j < 12 ==> !FoldedAt(s, q, MonthNames[j])
    decreases 12 - k
  {
    if k >= 12 then None
    else if FoldedAt(s, q, MonthNames[k]) then Some(k)
    else MonthAt(s, q, k + 1)
  }

  /** `monthNames[key]`. */
  function MonthLookup(key: string): (r: Option<string>)
    ensures r.Some? <==> key in MonthNames
  {
    if key == "ledna" then Some("01") else if key == "února" then Some("02")
    else if key == "března" then Some("03") else if key == "dubna" then Some("04")
    else if key == "května" then Some("05") else if key == "června" then Some("06")
    else if key == "července" then Some("07") else if key == "srpna" then Some("08")
    else if key == "září" then Some("09") else if key == "října" then Some("10")
    else if key == "listopadu" then Some("11") else if key == "prosince" then Some("12")
    else None
  }

  /** The table maps the k-th month name to the k-th number. */
  lemma MonthLookupAgrees(k: nat)
    requires k < 12
    ensures MonthLookup(MonthNames[k]) == Some(MonthNumbers[k])
  {
  }

  /** `/(\d{1,2})\.\s*(ledna|února|…|prosince)/i` at `p`. */
  function MonthDateAt(s: string, p: nat): (r: Option<RegexMatch>)
    ensures r.Some? ==> FoundAt(s, p, r.value) && |r.value.groups| == 2 && '-' !in r.value.whole
    ensures r.Some? ==> r.value.groups[0].Some? && 1 <= |r.value.groups[0].value| <= 2
    ensures r.Some? ==> AllDigits(r.value.groups[0].value) && r.value.groups[1].Some?
    ensures r.Some? ==> exists k :: 0 <= k < 12 && Lower(r.value.groups[1].value) == MonthNames[k]
  {
    match DottedNumberAt(s, p)
    case None => None
    case Some((d1, q)) =>
      match MonthAt(s, q, 0)
      case None => None
      case Some(k) =>
        var e := q + |MonthNames[k]|;
        MonthFoldsToName(s, q, k);
        MonthDateHasNoHyphen(s, p, q, e);
        Some(MatchOf(s, p, e, [Some(s[p..p + d1]), Some(s[q..e])]))
  }

  lemma MonthDateHasNoHyphen(s: string, p: nat, q: nat, e: nat)
    requires p <= q <= e <= |s|
    requires forall i :: p <= i < q ==> s[i] != '-'
    requires forall i :: q <= i < e ==> s[i] != '-'
    ensures '-' !in s[p..e]
  {
    NoHyphenIn(s, p, e);
  }

  /** A text that matches a month name under the `i` flag lower-cases to
      it, and contains no hyphen. */
  lemma MonthFoldsToName(s: string, q: nat, k: nat)
    requires k < 12 && FoldedAt(s, q, MonthNames[k])
    ensures Lower(s[q..q + |MonthNames[k]|]) == MonthNames[k]
    ensures forall i :: q <= i < q + |MonthNames[k]| ==> s[i] != '-'
  {
    var name := MonthNames[k];
    MonthNameIsLower(k);
    forall i | q <= i < q + |name| ensures Fold(s[i]) == name[i - q] && s[i] != '-' {
      assert Fold(s[q + (i - q)]) == Fold(name[i - q]);
    }
  }

  /** Month names are lower case and hyphen-free. */
  lemma MonthNameIsLower(k: nat)
    requires k < 12
    ensures forall i :: 0 <= i < |MonthNames[k]| ==> MonthNames[k][i] != '-' && Fold(MonthNames[k][i]) == MonthNames[k][i]
  {
    assert forall i :: 0 <= i < |MonthNames[k]| ==> IsMonthLetter(MonthNames[k][i]);
    forall i | 0 <= i < |MonthNames[k]|
      ensures MonthNames[k][i] != '-' && Fold(MonthNames[k][i]) == MonthNames[k][i]
    {
      MonthLetterIsLower(MonthNames[k][i]);
    }
  }

  /** The letters the month names are spelled with. */
  predicate IsMonthLetter(c: char) {
    ('a' <= c <= 'z') || c == 'á' || c == 'č' || c == 'ě' || c == 'í' || c == 'ř' || c == 'ú'
  }

  lemma MonthLetterIsLower(c: char)
    requires IsMonthLetter(c)
    ensures c != '-' && Fold(c) == c
  {
  }

  /** The date patterns in the order they are tried. */
  const DatePatterns: seq<Matcher> := [LabelledIsoAt, BareIsoAt, NumericDateAt, MonthDateAt]

  /** The date one pattern's match yields, `""` when none of the three
      branches applies. */
  function DateFromMatch(m: RegexMatch, year: nat): string {
    if '-' in m.whole && |m.whole| == 10 then OrElse(Group(m, 1), m.whole)
    else if Truthy(Group(m, 2)) && MonthLookup(Lower(Group(m, 2).value)).Some? then
      Decimal(year) + "-" + MonthLookup(Lower(Group(m, 2).value)).value + "-" + Pad2(Captured(m, 1))
    else if Truthy(Group(m, 1)) && Truthy(Group(m, 2)) then
      OrElse(Group(m, 3), Decimal(year)) + "-" + Pad2(Group(m, 2).value) + "-" + Pad2(Group(m, 1).value)
    else ""
  }

  /** The date loop from pattern `i` on: the first pattern that matches and
      yields a non-empty date sets it and stops the loop. */
  function DateSearch(text: string, year: nat, i: nat): (r: Option<string>)
    ensures r.Some? ==> r.value != ""
    decreases |DatePatterns| - i
  {
    if i >= |DatePatterns| then None
    else match Exec(text, DatePatterns[i])
      case Some(m) =>
        var d := DateFromMatch(m, year);
        if d != "" then Some(d) else DateSearch(text, year, i + 1)
      case None => DateSearch(text, year, i + 1)
  }

  /** The labelled `Datum:` pattern can never set the date: its match is
      longer than ten characters and has no group 2. */
  lemma LabelledIsoNeverDates(s: string, p: nat, year: nat)
    requires LabelledIsoAt(s, p).Some?
    ensures DateFromMatch(LabelledIsoAt(s, p).value, year) == ""
  {
  }

  /** Whenever an ISO date occurs anywhere, the date is the leftmost ISO date
      in the fragment, labelled or not. */
  lemma IsoDateWins(text: string, year: nat)
    requires Exec(text, BareIsoAt).Some?
    ensures DateSearch(text, year, 0) == Some(Exec(text, BareIsoAt).value.whole)
    ensures var p := Exec(text, BareIsoAt).value.index;
      IsIsoAt(text, p) && forall q :: 0 <= q < p ==> !IsIsoAt(text, q)
  {
    var p := First(text, BareIsoAt).value;
    var m := Exec(text, BareIsoAt).value;
    assert m == BareIsoAt(text, p).value && IsIsoAt(text, p);
    assert m.index == p;
    forall q | 0 <= q < p
      ensures !IsIsoAt(text, q)
    {
      assert BareIsoAt(text, q).None?;
    }
    assert m.whole[4] == text[p + 4] == '-';
    assert DateFromMatch(m, year) == m.whole;
    assert DatePatterns[1] == BareIsoAt;
    assert DateSearch(text, year, 1) == Some(m.whole);
    SkipLabelledPattern(text, year);
  }

  /** The first pattern of the date loop never decides it. */
  lemma SkipLabelledPattern(text: string, year: nat)
    ensures DateSearch(text, year, 0) == DateSearch(text, year, 1)
  {
    assert DatePatterns[0] == LabelledIsoAt;
    match Exec(text, LabelledIsoAt)
    case Some(l) =>
      LabelledIsoNeverDates(text, First(text, LabelledIsoAt).value, year);
    case None =>
  }

  /** `DD.MM.(YYYY)`: when no ISO date occurs, the first such form gives
      `year-MM-DD` with day and month left-padded to two digits (their
      values unchanged) and the year taken from the text, else the current
      year. Nothing checks that the day or month is in range. */
  lemma NumericDateForm(text: string, year: nat)
    requires Exec(text, BareIsoAt).None? && Exec(text, NumericDateAt).Some?
    ensures var g := Exec(text, NumericDateAt).value.groups;
      var y := if g[2].Some? then g[2].value else Decimal(year);
      && DateSearch(text, year, 0) == Some(y + "-" + Pad2(g[1].value) + "-" + Pad2(g[0].value))
      && |Pad2(g[1].value)| == 2 && DigitsValue(Pad2(g[1].value)) == DigitsValue(g[1].value)
      && |Pad2(g[0].value)| == 2 && DigitsValue(Pad2(g[0].value)) == DigitsValue(g[0].value)
  {
    var m := Exec(text, NumericDateAt).value;
    Pad2KeepsValue(m.groups[0].value);
    Pad2KeepsValue(m.groups[1].value);
    SkipLabelledPattern(text, year);
    assert DatePatterns[1] == BareIsoAt && DatePatterns[2] == NumericDateAt;
    assert DateSearch(text, year, 1) == DateSearch(text, year, 2);
    NumericDateFromMatch(m, year);
  }

  /** What a `DD.MM.(YYYY)` match yields. */
  lemma NumericDateFromMatch(m: RegexMatch, year: nat)
    requires '-' !in m.whole && |m.groups| == 3
    requires m.groups[0].Some? && m.groups[0].value != ""
    requires m.groups[1].Some? && 1 <= |m.groups[1].value| && AllDigits(m.groups[1].value)
    requires m.groups[2].Some? ==> |m.groups[2].value| == 4
    ensures var y := if m.groups[2].Some? then m.groups[2].value else Decimal(year);
      DateFromMatch(m, year) == y + "-" + Pad2(m.groups[1].value) + "-" + Pad2(m.groups[0].value)
  {
    DigitsAreNoMonth(m.groups[1].value);
    assert Group(m, 1) == m.groups[0] && Group(m, 2) == m.groups[1] && Group(m, 3) == m.groups[2];
  }

  /** A digit string is never a month name. */
  lemma DigitsAreNoMonth(g: string)
    requires 1 <= |g| && AllDigits(g)
    ensures MonthLookup(Lower(g)).None?
  {
    var l := Lower(g);
    assert IsDigit(g[0]);
    assert l[0] == Fold(g[0]) == g[0];
    forall k | 0 <= k < 12 ensures l != MonthNames[k] {
      assert !IsDigit(MonthNames[k][0]);
    }
  }

  /** Without a bare ISO date there is no labelled one either. */
  lemma NoIsoNoLabel(text: string)
    requires Exec(text, BareIsoAt).None?
    ensures Exec(text, LabelledIsoAt).None?
  {
    forall p | 0 <= p <= |text| ensures LabelledIsoAt(text, p).None? {
      NoIsoNoLabelAt(text, p);
    }
  }

  lemma NoIsoNoLabelAt(text: string, p: nat)
    requires forall q :: 0 <= q <= |text| ==> BareIsoAt(text, q).None?
    ensures LabelledIsoAt(text, p).None?
  {
    if FoldedAt(text, p, "Datum:") {
      var q := p + 6 + Run(text, p + 6, IsSpace);
      assert BareIsoAt(text, q).None?;
    }
  }

  /** `DD. <month>`: when neither an ISO date nor a `DD.MM.` form occurs,
      the first such form gives `currentYear-MM-DD` with the month's number
      from the table and the day padded. */
  lemma MonthNameForm(text: string, year: nat)
    requires Exec(text, BareIsoAt).None? && Exec(text, NumericDateAt).None?
    requires Exec(text, MonthDateAt).Some?
    ensures var g := Exec(text, MonthDateAt).value.groups;
      exists k :: 0 <= k < 12 && Lower(g[1].value) == MonthNames[k] &&
        DateSearch(text, year, 0) == Some(Decimal(year) + "-" + MonthNumbers[k] + "-" + Pad2(g[0].value))
  {
    SkipLabelledPattern(text, year);
    assert DatePatterns[1] == BareIsoAt && DatePatterns[2] == NumericDateAt && DatePatterns[3] == MonthDateAt;
    assert DateSearch(text, year, 1) == DateSearch(text, year, 2) == DateSearch(text, year, 3);
    var m := Exec(text, MonthDateAt).value;
    var k :| 0 <= k < 12 && Lower(m.groups[1].value) == MonthNames[k];
    MonthDateFromMatch(m, year, k);
  }

  /** A month-name match yields `currentYear-NN-DD` through the table. */
  lemma MonthDateFromMatch(m: RegexMatch, year: nat, k: nat)
    requires '-' !in m.whole && |m.groups| == 2 && m.groups[0].Some? && m.groups[1].Some?
    requires k < 12 && Lower(m.groups[1].value) == MonthNames[k]
    ensures DateFromMatch(m, year) == Decimal(year) + "-" + MonthNumbers[k] + "-" + Pad2(m.groups[0].value)
  {
    MonthLookupAgrees(k);
    assert MonthNames[k] != "";
    assert Group(m, 2) == m.groups[1] && Captured(m, 1) == m.groups[0].value;
    assert Truthy(Group(m, 2)) && MonthLookup(Lower(Group(m, 2).value)) == Some(MonthNumbers[k]);
  }

  /** A fragment without any date form leaves the stored date alone. */
  lemma NoDateForm(text: string, year: nat)
    requires Exec(text, BareIsoAt).None? && Exec(text, NumericDateAt).None?
    requires Exec(text, MonthDateAt).None?
    ensures DateSearch(text, year, 0).None?
  {
    SkipLabelledPattern(text, year);
    assert DatePatterns[1] == BareIsoAt && DatePatterns[2] == NumericDateAt && DatePatterns[3] == MonthDateAt;
    assert DateSearch(text, year, 1) == DateSearch(text, year, 2) == DateSearch(text, year, 3);
  }

  // ----------------------------------------------------------------- time

  /** Where the clock starts in a match of
      `/(?:Čas:|v|ve)\s*C|C\s*(?:hodin)?/i` (`C` the clock) that starts at
      `p`: the prefixed alternatives in their order, then the bare clock.
      `Čas:` and `v` cannot both match at one position, and neither can
      start at a digit. */
  function TimeClockPos(s: string, p: nat): (r: Option<nat>)
    ensures r.Some? ==> p <= r.value && ClockAt(s, r.value).Some?
    ensures r.Some? ==> forall i :: p <= i < r.value ==> !IsDigit(s[i])
    ensures ClockAt(s, p).Some? ==> r == Some(p)
  {
    DigitStartsNoPrefix(s, p);
    if PrefixedClockAt(s, p, "Čas:").Some? then PrefixedClockAt(s, p, "Čas:")
    else if PrefixedClockAt(s, p, "v").Some? then PrefixedClockAt(s, p, "v")
    else if PrefixedClockAt(s, p, "ve").Some? then PrefixedClockAt(s, p, "ve")
    else if ClockAt(s, p).Some? then Some(p)
    else None
  }

  /** `prefix\s*C` at `p` under the `i` flag, for a prefix without digits:
      where the clock starts. */
  function PrefixedClockAt(s: string, p: nat, prefix: string): (r: Option<nat>)
    requires forall i :: 0 <= i < |prefix| ==> !IsDigit(Fold(prefix[i]))
    ensures r.Some? ==> FoldedAt(s, p, prefix) && p + |prefix| <= r.value && ClockAt(s, r.value).Some?
    ensures r.Some? ==> forall i :: p <= i < r.value ==> !IsDigit(s[i])
  {
    if FoldedAt(s, p, prefix) && SpacedClockAt(s, p + |prefix|).Some? then
      FoldedHasNoDigit(s, p, prefix);
      Some(SpacedClockAt(s, p + |prefix|).value.0)
    else None
  }

  /** None of the prefixes matches where a digit stands. */
  lemma DigitStartsNoPrefix(s: string, p: nat)
    ensures DigitAt(s, p) ==> !FoldedAt(s, p, "Čas:") && !FoldedAt(s, p, "v") && !FoldedAt(s, p, "ve")
  {
    if DigitAt(s, p) {
      assert Fold(s[p + 0]) == s[p];
      assert Fold("Čas:"[0]) == 'č' && Fold("v"[0]) == 'v' && Fold("ve"[0]) == 'v';
    }
  }

  /** Text that matches a literal without digits under the `i` flag has no
      digits either. */
  lemma FoldedHasNoDigit(s: string, p: nat, lit: string)
    requires FoldedAt(s, p, lit)
    requires forall i :: 0 <= i < |lit| ==> !IsDigit(Fold(lit[i]))
    ensures forall i :: p <= i < p + |lit| ==> !IsDigit(s[i])
  {
    forall i | p <= i < p + |lit| ensures !IsDigit(s[i]) {
      assert Fold(s[p + (i - p)]) == Fold(lit[i - p]);
    }
  }

  /** The time pattern at `p`. The first alternative fills groups 1 and 2,
      the second groups 3 and 4 and takes trailing whitespace and an
      optional `hodin` into the match. */
  function TimeAt(s: string, p: nat): (r: Option<RegexMatch>)
    ensures r.Some? <==> TimeClockPos(s, p).Some?
    ensures r.Some? ==> FoundAt(s, p, r.value) && |r.value.groups| == 4
    ensures r.Some? ==> var c := ClockAt(s, TimeClockPos(s, p).value).value;
      TimeFromMatch(r.value) == ClockText(c.hours, c.minutes)
  {
    match TimeClockPos(s, p)
    case None => None
    case Some(q) =>
      var c := ClockAt(s, q).value;
      if q == p then
        var e := c.end + Run(s, c.end, IsSpace);
        var e' := if FoldedAt(s, e, "hodin") then e + 5 else e;
        var m := MatchOf(s, p, e', [None, None, Some(c.hours), Some(c.minutes)]);
        TimeFromAlternatives(m, c.hours, c.minutes);
        Some(m)
      else
        var m := MatchOf(s, p, c.end, [Some(c.hours), Some(c.minutes), None, None]);
        TimeFromAlternatives(m, c.hours, c.minutes);
        Some(m)
  }

  /** Either alternative's groups give the padded hour and the minutes. */
  lemma TimeFromAlternatives(m: RegexMatch, hours: string, minutes: string)
    requires hours != "" && minutes != ""
    requires m.groups == [Some(hours), Some(minutes), None, None] ||
             m.groups == [None, None, Some(hours), Some(minutes)]
    ensures TimeFromMatch(m) == ClockText(hours, minutes)
  {
  }

  /** A time match needs a clock. */
  lemma TimeNeedsClock(s: string, p: nat)
    ensures TimeAt(s, p).Some? ==>
      TimeClockPos(s, p).value <= |s| && ClockMatchAt(s, TimeClockPos(s, p).value).Some?
  {
  }

  /** `${(m[1] || m[3]).padStart(2, "0")}:${m[2] || m[4]}`. */
  function TimeFromMatch(m: RegexMatch): string {
    Pad2(OrElse(Group(m, 1), Captured(m, 3))) + ":" + OrElse(Group(m, 2), Captured(m, 4))
  }

  /** The time pattern sets the time when it matches; otherwise the stored
      time is kept. */
  function ExtractTime(current: Option<string>, text: string): (r: Option<string>)
    ensures Exec(text, TimeAt).None? ==> r == current
    ensures Exec(text, TimeAt).Some? ==> r.Some? && IsClockText(r.value)
  {
    match Exec(text, TimeAt)
    case Some(m) =>
      var c := ClockAt(text, TimeClockPos(text, First(text, TimeAt).value).value).value;
      ClockTextShape(c);
      Some(TimeFromMatch(m))
    case None => current
  }

  /** Whatever prefix the time pattern matched, the time it yields is the
      leftmost clock of the fragment, and it yields one exactly when the
      fragment holds a clock: a bare `9 hodin` sets nothing, and neither
      `Čas:` nor `v` changes which clock is read. */
  lemma TimeIsFirstClock(current: Option<string>, text: string)
    ensures Exec(text, ClockMatchAt).None? ==> ExtractTime(current, text) == current
    ensures Exec(text, ClockMatchAt).Some? ==>
      var g := Exec(text, ClockMatchAt).value.groups;
      ExtractTime(current, text) == Some(ClockText(g[0].value, g[1].value))
  {
    match First(text, ClockMatchAt)
    case None =>
      forall p | 0 <= p <= |text| ensures TimeAt(text, p).None? {
        TimeNeedsClock(text, p);
      }
    case Some(q0) =>
      LeftmostTimeReadsLeftmostClock(text, q0);
  }

  lemma LeftmostTimeReadsLeftmostClock(text: string, q0: nat)
    requires q0 <= |text| && ClockAt(text, q0).Some?
    requires forall q :: 0 <= q < q0 ==> ClockMatchAt(text, q).None?
    ensures First(text, TimeAt).Some?
    ensures TimeClockPos(text, First(text, TimeAt).value) == Some(q0)
  {
    assert TimeAt(text, q0).Some?;
    var p0 := First(text, TimeAt).value;
    assert p0 <= q0;
    TimeNeedsClock(text, p0);
    TimeClockBeforeClock(text, p0, q0);
  }

  /** A time match that starts no later than the leftmost clock reads it. */
  lemma TimeClockBeforeClock(text: string, p0: nat, q0: nat)
    requires p0 <= q0 < |text| && IsDigit(text[q0])
    requires forall q :: 0 <= q < q0 ==> ClockMatchAt(text, q).None?
    requires TimeClockPos(text, p0).Some?
    ensures TimeClockPos(text, p0) == Some(q0)
  {
    ClockAfterNonDigits(text, p0, TimeClockPos(text, p0).value, q0);
  }

  // ------------------------------------------------------------ the parse

  /** Every date the loop yields has the shape `Y-DD-DD`. */
  lemma DateSearchShape(text: string, year: nat)
    ensures DateSearch(text, year, 0).Some? ==> IsDateText(DateSearch(text, year, 0).value)
  {
    if Exec(text, BareIsoAt).Some? {
      IsoDateShape(text, year);
    } else if Exec(text, NumericDateAt).Some? {
      NumericDateShape(text, year);
    } else if Exec(text, MonthDateAt).Some? {
      MonthDateShape(text, year);
    } else {
      NoDateForm(text, year);
    }
  }

  lemma IsoDateShape(text: string, year: nat)
    requires Exec(text, BareIsoAt).Some?
    ensures DateSearch(text, year, 0).Some? && IsDateText(DateSearch(text, year, 0).value)
  {
    IsoDateWins(text, year);
    var p := Exec(text, BareIsoAt).value.index;
    assert Exec(text, BareIsoAt).value.whole == text[p..p + 10];
    IsoIsDateText(text, p);
  }

  lemma NumericDateShape(text: string, year: nat)
    requires Exec(text, BareIsoAt).None? && Exec(text, NumericDateAt).Some?
    ensures DateSearch(text, year, 0).Some? && IsDateText(DateSearch(text, year, 0).value)
  {
    NumericDateForm(text, year);
    var g := Exec(text, NumericDateAt).value.groups;
    var y := if g[2].Some? then g[2].value else Decimal(year);
    DateTextShape(y, Pad2(g[1].value), Pad2(g[0].value));
  }

  lemma MonthDateShape(text: string, year: nat)
    requires Exec(text, BareIsoAt).None? && Exec(text, NumericDateAt).None?
    requires Exec(text, MonthDateAt).Some?
    ensures DateSearch(text, year, 0).Some? && IsDateText(DateSearch(text, year, 0).value)
  {
    MonthNameForm(text, year);
    var g := Exec(text, MonthDateAt).value.groups;
    var k :| 0 <= k < 12 && Lower(g[1].value) == MonthNames[k] &&
      DateSearch(text, year, 0) == Some(Decimal(year) + "-" + MonthNumbers[k] + "-" + Pad2(g[0].value));
    MonthNumbersArePadded(k);
    DateTextShape(Decimal(year), MonthNumbers[k], Pad2(g[0].value));
  }

  /** An ISO date in the text is a date text. */
  lemma IsoIsDateText(s: string, p: nat)
    requires IsIsoAt(s, p)
    ensures IsDateText(s[p..p + 10])
  {
    var d := s[p..p + 10];
    assert forall i :: 0 <= i < 4 ==> d[..4][i] == s[p..p + 4][i];
    assert forall i :: 0 <= i < 2 ==> d[5..7][i] == s[p + 5..p + 7][i];
    assert forall i :: 0 <= i < 2 ==> d[8..][i] == s[p + 8..p + 10][i];
  }

  /** One call of `parseReservation` on the stored reservation: each of
      name, date and time is replaced when its patterns find one and kept
      otherwise; the notes are never touched. */
  function Extract(d: Draft, text: string, year: nat): (r: Draft)
    ensures r.notes == d.notes
    ensures r.clientName == d.clientName || (r.clientName.Some? && IsTwoWords(r.clientName.value, IsNameChar))
    ensures r.date == d.date || (r.date.Some? && IsDateText(r.date.value))
    ensures r.time == d.time || (r.time.Some? && IsClockText(r.time.value))
    ensures Truthy(d.clientName) ==> Truthy(r.clientName)
    ensures Truthy(d.date) ==> Truthy(r.date)
    ensures Truthy(d.time) ==> Truthy(r.time)
  {
    DateSearchShape(text, year);
    var name := ExtractName(d.clientName, text);
    var date := match DateSearch(text, year, 0)
      case Some(x) => Some(x)
      case None => d.date;
    Draft(name, date, ExtractTime(d.time, text), d.notes)
  }

  /** Parsing the same fragment twice changes nothing more: every value a
      fragment sets depends on the fragment alone. */
  lemma ExtractIdempotent(d: Draft, text: string, year: nat)
    ensures Extract(Extract(d, text, year), text, year) == Extract(d, text, year)
  {
  }
}

=== FILE: gemini_live.dfy ===
/** The session bookkeeping of the Gemini Live hook
    (src/hooks/useGeminiLive.ts): the refs and state the callbacks share,
    written as one immutable record, and each callback body as a pure
    transition. Audio capture, the socket itself and JSON decoding stay
    outside; a transition gets the decoded message (or `None` when decoding
    threw) and the environment values it reads. */
module GeminiLive {
  import opened Wrappers
  import opened Text
  import opened Types
  import opened Billing
  import opened GeminiExtract

  /** One element of `serverContent.modelTurn.parts`. */
  datatype Part = Part(text: Option<string>)

  /** `serverContent`, reduced to `modelTurn?.parts`: `None` when the turn
      or its parts are missing. */
  datatype ServerContent = ServerContent(parts: Option<seq<Part>>)

  datatype UsageMetadata = UsageMetadata(promptTokenCount: Option<nat>, candidatesTokenCount: Option<nat>)

  /** A decoded server message, as far as the dispatcher reads it. */
  datatype Message = Message(
    setupComplete: bool,
    serverContent: Option<ServerContent>,
    usageMetadata: Option<UsageMetadata>)

  /** The socket's `readyState` as far as the send gate reads it; a socket
      that was never opened counts as closed. */
  datatype Socket = Closed | Connecting | Open

  /** The refs and state of the hook. */
  datatype Session = Session(
    reservation: Draft,
    tokens: Tokens,
    complete: bool,
    transcript: string,
    socket: Socket,
    connected: bool,
    recording: bool,
    processing: bool)

  /** The state at mount. */
  const Idle: Session := Session(EmptyDraft, NoTokens, false, "", Closed, false, false, false)

  /** What a callback reads from outside the record: the milliseconds since
      `connect`, the current year, the live model's entry of the price
      table (`None` where the table has none, as `GeminiLiveRates` records),
      and the transcript value captured by the parsing callback when it was
      created (the callback is memoised, so it does not see later
      updates). */
  datatype Env = Env(elapsedMs: nat, year: nat, live: Option<TokenRates>, captured: string)

  /** How a fragment is merged into the partial reservation: the hook's
      parser is `GeminiExtract.Extract`; the transitions below take it as a
      parameter so that their proofs rest on its contract alone. */
  type Parser = (Draft, string, nat) -> Draft

  /** A parser that never clears a field that is set. */
  ghost predicate KeepsFields(parse: Parser) {
    forall d, text, year :: Refines(d, parse(d, text, year))
  }

  /** The hook's parser keeps every field it does not replace. */
  lemma ExtractKeepsFields()
    ensures KeepsFields(Extract)
  {
  }

  /** The state after a callback, the results it passed to
      `onTranscription`, in order, and whether it ended by throwing (the
      error then escapes to whoever called it). */
  datatype Step = Step(session: Session, emitted: seq<TranscriptionResult>, threw: bool)

  /** The three fields of the partial reservation are all kept or refined:
      a set field stays set. */
  predicate Refines(before: Draft, after: Draft) {
    && (Truthy(before.clientName) ==> Truthy(after.clientName))
    && (Truthy(before.date) ==> Truthy(after.date))
    && (Truthy(before.time) ==> Truthy(after.time))
  }

  /** The socket and the flags `cleanup` drops are the same in both. */
  predicate SameLifecycle(a: Session, b: Session) {
    a.socket == b.socket && a.connected == b.connected && a.recording == b.recording
  }

  /** `cleanup`: the socket is closed and the connected and recording flags
      drop; nothing else changes. */
  function Cleanup(s: Session): (r: Session)
    ensures r.socket == Closed && !r.connected && !r.recording
    ensures r.reservation == s.reservation && r.tokens == s.tokens && r.complete == s.complete
    ensures r.transcript == s.transcript && r.processing == s.processing
  {
    s.(socket := Closed, connected := false, recording := false)
  }

  /** `finishSession`. Its metrics read `PRICING.gemini.live`; without that
      entry, reading its `audioInput` throws a `TypeError` before anything
      is reported or cleaned up. With it: one result with the given text,
      the three reservation fields and the metrics of the tokens counted so
      far, then `cleanup`. */
  function Finish(s: Session, text: string, env: Env): (r: Step)
    ensures r.threw <==> env.live.None?
    ensures r.threw ==> r.session == s && r.emitted == []
    ensures !r.threw ==> |r.emitted| == 1 && r.emitted[0].text == text && r.session == Cleanup(s)
    ensures !r.threw ==>
      r.emitted[0].reservation == Some(Draft(s.reservation.clientName, s.reservation.date, s.reservation.time, None))
    ensures !r.threw ==> r.emitted[0].metrics.Some?
    ensures !r.threw ==> var m := r.emitted[0].metrics.value;
      && m.tokensInput == Some(s.tokens.input) && m.tokensOutput == Some(s.tokens.output)
      && m.tokensTotal == Some(s.tokens.input + s.tokens.output)
      && m.estimatedCostUsd == Some(Cost(PerToken(env.live.value), s.tokens, env.elapsedMs))
      && m.durationMs == env.elapsedMs
  {
    match env.live
    case None => Step(s, [], true)
    case Some(rates) =>
      var d := s.reservation;
      var result := TranscriptionResult(text, Some(Draft(d.clientName, d.date, d.time, None)),
        Some(SessionMetrics(PerToken(rates), s.tokens, env.elapsedMs)));
      Step(Cleanup(s), [result], false)
  }

  /** The completion check: the merged reservation has a name and a date
      and the session was not complete yet. */
  predicate Completes(s: Session, merged: Draft) {
    !s.complete && Truthy(merged.clientName) && Truthy(merged.date)
  }

  /** `parseReservation` on one fragment: merge what the patterns find,
      then, when the completion check passes, set the flag and finish. */
  function ParseFragment(s: Session, text: string, env: Env, parse: Parser): (r: Step)
    ensures r.session.reservation == parse(s.reservation, text, env.year)
    ensures |r.emitted| <= 1
    ensures |r.emitted| == 1 <==> Completes(s, r.session.reservation) && env.live.Some?
    ensures r.threw <==> Completes(s, r.session.reservation) && env.live.None?
    ensures r.session.complete == (s.complete || |r.emitted| == 1 || r.threw)
    ensures |r.emitted| == 1 ==> r.emitted[0].text == OrElse(Some(env.captured), text)
    ensures |r.emitted| == 1 ==> r.session.socket == Closed && !r.session.recording
    ensures |r.emitted| == 0 ==>
      r.session == s.(reservation := r.session.reservation, complete := r.session.complete)
    ensures r.session.tokens == s.tokens && r.session.transcript == s.transcript
  {
    var d := parse(s.reservation, text, env.year);
    var s1 := s.(reservation := d);
    if Completes(s, d) then
      Finish(s1.(complete := true), OrElse(Some(env.captured), text), env)
    else Step(s1, [], false)
  }

  /** The text of the parts that carry some, concatenated. */
  function SpokenText(parts: seq<Part>): string {
    if parts == [] then ""
    else (if Truthy(parts[0].text) then parts[0].text.value else "") + SpokenText(parts[1..])
  }

  /** Every emitted result carries a reservation with a name and a date. */
  predicate NamedAndDated(results: seq<TranscriptionResult>) {
    forall i :: 0 <= i < |results| ==>
      results[i].reservation.Some? &&
      Truthy(results[i].reservation.value.clientName) && Truthy(results[i].reservation.value.date)
  }

  /** A report, if there is one, carries the metrics of tokens `t` at the
      live rates. */
  predicate ReportsTokens(results: seq<TranscriptionResult>, env: Env, t: Tokens) {
    |results| == 1 ==>
      env.live.Some? && results[0].metrics == Some(SessionMetrics(PerToken(env.live.value), t, env.elapsedMs))
  }

  lemma NamedAndDatedAppend(x: seq<TranscriptionResult>, y: seq<TranscriptionResult>)
    requires NamedAndDated(x) && NamedAndDated(y)
    ensures NamedAndDated(x + y)
  {
    assert forall i :: |x| <= i < |x + y| ==> (x + y)[i] == y[i - |x|];
  }

  /** The loop over the parts of one message: each part with text is
      appended to the transcript and parsed. A completion that throws ends
      the loop, and the handling of the message, at that part; one that
      reports does not stop the loop. */
  function PartsFrom(s: Session, parts: seq<Part>, env: Env, parse: Parser): (r: Step)
    ensures |r.emitted| <= 1
    ensures |r.emitted| == 1 ==> !s.complete && env.live.Some?
    ensures r.threw ==> !s.complete && env.live.None? && r.emitted == []
    ensures r.session.complete == (s.complete || |r.emitted| == 1 || r.threw)
    ensures r.session.tokens == s.tokens && r.session.processing == s.processing
    ensures |r.emitted| == 1 ==> r.session.socket == Closed && !r.session.recording
    ensures |r.emitted| == 0 ==> SameLifecycle(r.session, s)
    decreases |parts|
  {
    if parts == [] then Step(s, [], false)
    else if Truthy(parts[0].text) then
      var text := parts[0].text.value;
      var a := ParseFragment(s.(transcript := s.transcript + text), text, env, parse);
      if a.threw then a
      else
        var b := PartsFrom(a.session, parts[1..], env, parse);
        Step(b.session, a.emitted + b.emitted, b.threw)
    else
      PartsFrom(s, parts[1..], env, parse)
  }

  /** A report inside the loop carries a name and a date and the metrics of
      the tokens counted before the message; fields set before the loop
      stay set. */
  lemma {:induction false} PartsOutcome(s: Session, parts: seq<Part>, env: Env, parse: Parser)
    ensures var r := PartsFrom(s, parts, env, parse);
      && NamedAndDated(r.emitted)
      && ReportsTokens(r.emitted, env, s.tokens)
      && (KeepsFields(parse) ==> Refines(s.reservation, r.session.reservation))
    decreases |parts|
  {
    if parts != [] {
      if Truthy(parts[0].text) {
        var text := parts[0].text.value;
        var a := ParseFragment(s.(transcript := s.transcript + text), text, env, parse);
        FragmentOutcome(s.(transcript := s.transcript + text), text, env, parse);
        if !a.threw {
          PartsOutcome(a.session, parts[1..], env, parse);
          OutcomeAppend(s, a, PartsFrom(a.session, parts[1..], env, parse), env, parse);
        }
      } else {
        PartsOutcome(s, parts[1..], env, parse);
      }
    }
  }

  /** One fragment's share of `PartsOutcome`. */
  lemma FragmentOutcome(s: Session, text: string, env: Env, parse: Parser)
    ensures var a := ParseFragment(s, text, env, parse);
      && NamedAndDated(a.emitted)
      && ReportsTokens(a.emitted, env, s.tokens)
      && (KeepsFields(parse) ==> Refines(s.reservation, a.session.reservation))
  {
  }

  /** A fragment followed by the rest of the loop keeps the outcome. */
  lemma OutcomeAppend(s: Session, a: Step, b: Step, env: Env, parse: Parser)
    requires NamedAndDated(a.emitted) && NamedAndDated(b.emitted)
    requires |a.emitted| <= 1 && |b.emitted| <= 1 && (|b.emitted| == 1 ==> !a.session.complete)
    requires a.session.complete == (s.complete || |a.emitted| == 1 || a.threw) && a.session.tokens == s.tokens
    requires ReportsTokens(a.emitted, env, s.tokens) && ReportsTokens(b.emitted, env, a.session.tokens)
    requires KeepsFields(parse) ==> Refines(s.reservation, a.session.reservation)
    requires KeepsFields(parse) ==> Refines(a.session.reservation, b.session.reservation)
    ensures NamedAndDated(a.emitted + b.emitted)
    ensures ReportsTokens(a.emitted + b.emitted, env, s.tokens)
    ensures KeepsFields(parse) ==> Refines(s.reservation, b.session.reservation)
  {
    NamedAndDatedAppend(a.emitted, b.emitted);
    if |a.emitted| == 0 {
      assert a.emitted + b.emitted == b.emitted;
    }
  }

  /** The first `k + 1` parts speak the first part's text, then what the
      first `k` of the rest speak. */
  lemma SpokenPrefix(parts: seq<Part>, k: nat)
    requires k < |parts|
    ensures SpokenText(parts[..k + 1]) ==
      (if Truthy(parts[0].text) then parts[0].text.value else "") + SpokenText(parts[1..][..k])
  {
    assert parts[..k + 1][1..] == parts[1..][..k];
  }

  /** `t` is `t0` followed by the text of the first `k` parts, for some `k`
      whose last part carries text. */
  ghost predicate SpokenUpTo(t0: string, parts: seq<Part>, t: string) {
    exists k :: 0 < k <= |parts| && Truthy(parts[k - 1].text) && t == t0 + SpokenText(parts[..k])
  }

  /** The loop appends the text of the parts that carry some, in order:
      all of them, or, when a completion throws, those up to and including
      the part that completed. */
  lemma {:induction false} PartsTranscript(s: Session, parts: seq<Part>, env: Env, parse: Parser)
    ensures var r := PartsFrom(s, parts, env, parse);
      !r.threw ==> r.session.transcript == s.transcript + SpokenText(parts)
    ensures var r := PartsFrom(s, parts, env, parse);
      r.threw ==> SpokenUpTo(s.transcript, parts, r.session.transcript)
    ensures var r := PartsFrom(s, parts, env, parse);
      |s.transcript| <= |r.session.transcript| && r.session.transcript[..|s.transcript|] == s.transcript
    decreases |parts|
  {
    if parts != [] {
      if Truthy(parts[0].text) {
        var text := parts[0].text.value;
        var a := ParseFragment(s.(transcript := s.transcript + text), text, env, parse);
        if a.threw {
          SpokenPrefix(parts, 0);
          assert SpokenUpTo(s.transcript, parts, a.session.transcript) by {
            assert a.session.transcript == s.transcript + SpokenText(parts[..1]);
          }
        } else {
          var b := PartsFrom(a.session, parts[1..], env, parse);
          PartsTranscript(a.session, parts[1..], env, parse);
          ExtendTranscript(s.transcript, text, parts, b.session.transcript, b.threw);
        }
      } else {
        var b := PartsFrom(s, parts[1..], env, parse);
        PartsTranscript(s, parts[1..], env, parse);
        ExtendTranscript(s.transcript, "", parts, b.session.transcript, b.threw);
      }
    }
  }

  /** The rest of the loop's share of the transcript, with the first part's
      text put in front. */
  lemma ExtendTranscript(t0: string, head: string, parts: seq<Part>, t: string, threw: bool)
    requires parts != [] && head == (if Truthy(parts[0].text) then parts[0].text.value else "")
    requires !threw ==> t == t0 + head + SpokenText(parts[1..])
    requires threw ==> SpokenUpTo(t0 + head, parts[1..], t)
    requires |t0 + head| <= |t| && t[..|t0 + head|] == t0 + head
    ensures !threw ==> t == t0 + SpokenText(parts)
    ensures threw ==> SpokenUpTo(t0, parts, t)
    ensures |t0| <= |t| && t[..|t0|] == t0
  {
    if threw {
      ExtendStopped(t0, head, parts, t);
    } else {
      assert SpokenText(parts) == head + SpokenText(parts[1..]);
      assert t0 + head + SpokenText(parts[1..]) == t0 + (head + SpokenText(parts[1..]));
    }
    PrefixOfPrefix(t0, head, t);
  }

  lemma ExtendStopped(t0: string, head: string, parts: seq<Part>, t: string)
    requires parts != [] && head == (if Truthy(parts[0].text) then parts[0].text.value else "")
    requires SpokenUpTo(t0 + head, parts[1..], t)
    ensures SpokenUpTo(t0, parts, t)
  {
    var k :| 0 < k <= |parts[1..]| && Truthy(parts[1..][k - 1].text)
      && t == t0 + head + SpokenText(parts[1..][..k]);
    SpokenPrefix(parts, k);
    assert parts[1..][k - 1] == parts[k];
    assert t0 + head + SpokenText(parts[1..][..k]) == t0 + (head + SpokenText(parts[1..][..k]));
    assert t == t0 + SpokenText(parts[..k + 1]);
  }

  lemma PrefixOfPrefix(t0: string, head: string, t: string)
    requires |t0 + head| <= |t| && t[..|t0 + head|] == t0 + head
    ensures |t0| <= |t| && t[..|t0|] == t0
  {
    assert t[..|t0|] == t[..|t0 + head|][..|t0|];
    assert (t0 + head)[..|t0|] == t0;
  }

  /** `handleGeminiMessage`. A completion that throws leaves it before the
      usage is counted. */
  function Dispatch(s: Session, m: Message, env: Env, parse: Parser): (r: Step)
    ensures m.setupComplete || m.serverContent.None? ==> r == Step(s, [], false)
    ensures m.serverContent.Some? && !m.setupComplete && !r.threw ==>
      r.session.tokens == match m.usageMetadata
        case None => s.tokens
        case Some(u) => AddUsage(s.tokens, u.promptTokenCount, u.candidatesTokenCount)
    ensures r.threw ==> r.session.tokens == s.tokens && r.emitted == [] && env.live.None?
    ensures |r.emitted| <= 1
    ensures r.session.complete == (s.complete || |r.emitted| == 1 || r.threw)
    ensures NamedAndDated(r.emitted)
    ensures ReportsTokens(r.emitted, env, s.tokens)
    ensures |r.emitted| == 1 ==> r.session.socket == Closed && !r.session.recording
    ensures |r.emitted| == 0 ==> SameLifecycle(r.session, s)
    ensures KeepsFields(parse) ==> Refines(s.reservation, r.session.reservation)
    ensures r.session.tokens.input >= s.tokens.input && r.session.tokens.output >= s.tokens.output
    ensures |s.transcript| <= |r.session.transcript| && r.session.transcript[..|s.transcript|] == s.transcript
  {
    if m.setupComplete then Step(s, [], false)
    else match m.serverContent
      case None => Step(s, [], false)
      case Some(content) =>
        var a := PartsFrom(s, content.parts.GetOr([]), env, parse);
        PartsOutcome(s, content.parts.GetOr([]), env, parse);
        PartsTranscript(s, content.parts.GetOr([]), env, parse);
        if a.threw then a
        else
          var tokens := match m.usageMetadata
            case None => a.session.tokens
            case Some(u) => AddUsage(a.session.tokens, u.promptTokenCount, u.candidatesTokenCount);
          Step(a.session.(tokens := tokens), a.emitted, false)
  }

  /** `ws.onmessage`: a message that arrives after completion, or that does
      not decode, is dropped; an error thrown while handling it is caught
      and logged, and what the handler changed before it stays changed. */
  function OnMessage(s: Session, m: Option<Message>, env: Env, parse: Parser): (r: Step)
    ensures !r.threw
    ensures s.complete || m.None? ==> r == Step(s, [], false)
    ensures |r.emitted| <= 1
    ensures |r.emitted| == 1 ==> env.live.Some? && r.session.complete
    ensures env.live.Some? ==> r.session.complete == (s.complete || |r.emitted| == 1)
    ensures r.session.complete ==> s.complete || |r.emitted| == 1 || env.live.None?
    ensures NamedAndDated(r.emitted)
    ensures |r.emitted| == 1 ==> r.session.socket == Closed && !r.session.recording
    ensures |r.emitted| == 0 ==> SameLifecycle(r.session, s)
    ensures KeepsFields(parse) ==> Refines(s.reservation, r.session.reservation)
  {
    if s.complete then Step(s, [], false)
    else match m
      case None => Step(s, [], false)
      case Some(msg) =>
        var d := Dispatch(s, msg, env, parse);
        Step(d.session, d.emitted, false)
  }

  /** One inbound socket message with the environment it is handled in. */
  datatype Inbound = Inbound(message: Option<Message>, env: Env)

  /** A stream of inbound messages handled in order. */
  function Run(s: Session, inbound: seq<Inbound>, parse: Parser): (r: Step)
    decreases |inbound|
  {
    if inbound == [] then Step(s, [], false)
    else
      var a := OnMessage(s, inbound[0].message, inbound[0].env, parse);
      var b := Run(a.session, inbound[1..], parse);
      Step(b.session, a.emitted + b.emitted, false)
  }

  /** Every message of a stream is handled with the live entry present. */
  predicate Priced(inbound: seq<Inbound>) {
    forall i :: 0 <= i < |inbound| ==> inbound[i].env.live.Some?
  }

  /** Completion reports at most once per session, only in a session not
      yet complete, and every report carries a name and a date. A session
      stays complete, and with the live entry present the flag records
      exactly whether a report was made. */
  lemma {:induction false} AtMostOnce(s: Session, inbound: seq<Inbound>, parse: Parser)
    ensures |Run(s, inbound, parse).emitted| <= (if s.complete then 0 else 1)
    ensures |Run(s, inbound, parse).emitted| == 1 ==> Run(s, inbound, parse).session.complete
    ensures s.complete ==> Run(s, inbound, parse).session.complete
    ensures Priced(inbound) ==>
      Run(s, inbound, parse).session.complete == (s.complete || |Run(s, inbound, parse).emitted| == 1)
    ensures NamedAndDated(Run(s, inbound, parse).emitted)
    decreases |inbound|
  {
    if inbound != [] {
      var a := OnMessage(s, inbound[0].message, inbound[0].env, parse);
      AtMostOnce(a.session, inbound[1..], parse);
      NamedAndDatedAppend(a.emitted, Run(a.session, inbound[1..], parse).emitted);
      if Priced(inbound) {
        assert inbound[0].env.live.Some?;
        assert Priced(inbound[1..]) by {
          forall i | 0 <= i < |inbound[1..]| ensures inbound[1..][i].env.live.Some? {
            assert inbound[1..][i] == inbound[i + 1];
          }
        }
      }
    }
  }

  /** Once complete, a session ignores every further message. */
  lemma {:induction false} CompleteIgnoresMessages(s: Session, inbound: seq<Inbound>, parse: Parser)
    requires s.complete
    ensures Run(s, inbound, parse) == Step(s, [], false)
    decreases |inbound|
  {
    if inbound != [] {
      CompleteIgnoresMessages(s, inbound[1..], parse);
    }
  }

  /** Within a session no reservation field that was set is ever cleared. */
  lemma {:induction false} FieldsStaySet(s: Session, inbound: seq<Inbound>, parse: Parser)
    requires KeepsFields(parse)
    ensures Refines(s.reservation, Run(s, inbound, parse).session.reservation)
    decreases |inbound|
  {
    if inbound != [] {
      var a := OnMessage(s, inbound[0].message, inbound[0].env, parse);
      FieldsStaySet(a.session, inbound[1..], parse);
    }
  }

  /** The audio send gate of the worklet's port: chunks go out only while
      the socket is open and the session is not complete. */
  predicate SendsAudio(s: Session) {
    s.socket == Open && !s.complete
  }

  /** After the message that completes a session no audio chunk is sent,
      whether or not the completion was reported. */
  lemma NoAudioAfterCompletion(s: Session, m: Option<Message>, env: Env, parse: Parser)
    requires !s.complete && OnMessage(s, m, env, parse).session.complete
    ensures !SendsAudio(OnMessage(s, m, env, parse).session)
  {
  }

  /** With the shipped price table, the message that completes a session
      reports nothing and closes nothing: the flag stops the audio and
      drops later messages, but the socket, the microphone and the
      connected flag stay as they were. */
  lemma CompletionSwallowed(s: Session, m: Option<Message>, env: Env, parse: Parser)
    requires env.live == GeminiLiveRates
    requires !s.complete && OnMessage(s, m, env, parse).session.complete
    ensures OnMessage(s, m, env, parse).emitted == []
    ensures SameLifecycle(OnMessage(s, m, env, parse).session, s)
  {
  }

  /** With the live entry present, the message that completes a session
      reports it once, with a name and a date, and closes the socket. */
  lemma CompletionReported(s: Session, m: Option<Message>, env: Env, parse: Parser)
    requires env.live.Some?
    requires !s.complete && OnMessage(s, m, env, parse).session.complete
    ensures |OnMessage(s, m, env, parse).emitted| == 1
    ensures NamedAndDated(OnMessage(s, m, env, parse).emitted)
    ensures OnMessage(s, m, env, parse).session.socket == Closed
    ensures !OnMessage(s, m, env, parse).session.recording
  {
  }

  /** With the shipped price table a Gemini Live session never reports:
      no stream of messages emits anything or closes the socket, and a
      manual stop throws without changing anything. */
  lemma {:induction false} NeverReports(s: Session, inbound: seq<Inbound>, parse: Parser, env: Env)
    requires forall i :: 0 <= i < |inbound| ==> inbound[i].env.live == GeminiLiveRates
    requires env.live == GeminiLiveRates
    ensures Run(s, inbound, parse).emitted == []
    ensures SameLifecycle(Run(s, inbound, parse).session, s)
    ensures Stop(s, env) == Step(s, [], true)
    decreases |inbound|
  {
    if inbound != [] {
      var a := OnMessage(s, inbound[0].message, inbound[0].env, parse);
      assert inbound[0].env.live == GeminiLiveRates;
      NeverReports(a.session, inbound[1..], parse, env);
    }
  }

  /** `stopAndProcess`: finish at once with the current transcript and
      whatever has been extracted. It has no completion guard, so with the
      live entry present it reports even after an automatic completion;
      without it, it throws and nothing stops. */
  function Stop(s: Session, env: Env): (r: Step)
    ensures r.threw <==> env.live.None?
    ensures r.threw ==> r.session == s && r.emitted == []
    ensures !r.threw ==> |r.emitted| == 1 && r.emitted[0].text == s.transcript
    ensures !r.threw ==> r.emitted[0].reservation.Some? && r.emitted[0].reservation.value.notes.None?
    ensures !r.threw ==> r.session.complete == s.complete && !SendsAudio(r.session)
  {
    Finish(s, s.transcript, env)
  }

  /** The model used when none is chosen. */
  const DefaultModel: string := "gemini-2.0-flash-exp"

  /** The API version in the socket URL: `v1alpha` for native-audio preview
      models, `v1beta` otherwise. */
  function ApiVersion(model: Option<string>): (v: string)
    ensures v == "v1alpha" || v == "v1beta"
    ensures v == "v1alpha" <==> Contains(OrElse(model, DefaultModel), "native-audio-preview")
  {
    if Contains(OrElse(model, DefaultModel), "native-audio-preview") then "v1alpha" else "v1beta"
  }

  /** Any model whose name contains `native-audio-preview` goes through the
      alpha API. */
  lemma NativeAudioUsesAlpha(a: string, b: string)
    ensures ApiVersion(Some(a + "native-audio-preview" + b)) == "v1alpha"
  {
    var model := a + "native-audio-preview" + b;
    assert model[|a|..|a| + |"native-audio-preview"|] == "native-audio-preview";
    assert LiteralAt(model, |a|, "native-audio-preview");
  }

  /** The default model goes through the beta API. */
  lemma DefaultModelUsesBeta()
    ensures ApiVersion(None) == "v1beta"
  {
    var sub := "native-audio-preview";
    forall p: nat | p <= |DefaultModel| ensures !LiteralAt(DefaultModel, p, sub) {
      if p + |sub| <= |DefaultModel| {
        assert DefaultModel[p..p + |sub|][0] != sub[0];
      }
    }
  }

  /** `connect`: reset the per-session values, then either start recording
      (an API key was returned and the microphone opened) or give up and
      clean up. */
  function Connect(s: Session, apiKey: Option<string>, microphoneOk: bool): (r: Session)
    ensures !r.complete && r.tokens == NoTokens && r.transcript == "" && r.reservation == EmptyDraft
    ensures !r.processing
    ensures r.recording <==> Truthy(apiKey) && microphoneOk
    ensures r.recording ==> r.socket == Connecting
    ensures !r.recording ==> r.socket == Closed && !r.connected
  {
    var reset := s.(complete := false, processing := true, tokens := NoTokens,
                    transcript := "", reservation := EmptyDraft);
    if !Truthy(apiKey) || !microphoneOk then Cleanup(reset.(processing := false))
    else reset.(socket := Connecting, recording := true, processing := false)
  }

  /** `ws.onopen`. */
  function OnOpen(s: Session): (r: Session)
    ensures s.socket == Connecting ==> r.socket == Open && r.connected
    ensures s.socket != Connecting ==> r == s
  {
    if s.socket == Connecting then s.(socket := Open, connected := true) else s
  }

  /** `ws.onerror`. */
  function OnError(s: Session): (r: Session)
    ensures !r.processing && !SendsAudio(r) && !r.recording
    ensures r.reservation == s.reservation && r.complete == s.complete
  {
    Cleanup(s.(processing := false))
  }

  /** `ws.onclose`: an unexpected close while recording cleans up. */
  function OnClose(s: Session): (r: Session)
    ensures r.socket == Closed && !SendsAudio(r)
    ensures !r.recording
    ensures !s.recording ==> r == s.(socket := Closed)
  {
    var closed := s.(socket := Closed);
    if s.recording then Cleanup(closed) else closed
  }

  /** A connect that gets a key and opens the microphone, followed by the
      socket's `onopen`, starts the same fresh session whatever the hook
      held before: the completion gate is re-armed and audio flows. */
  lemma ConnectRearms(s: Session, apiKey: Option<string>)
    requires Truthy(apiKey)
    ensures OnOpen(Connect(s, apiKey, true)) == Idle.(socket := Open, connected := true, recording := true)
    ensures SendsAudio(OnOpen(Connect(s, apiKey, true)))
  {
  }

  /** Messages never open the socket: after any stream it is as before or
      closed. */
  lemma {:induction false} RunNeverOpens(s: Session, inbound: seq<Inbound>, parse: Parser)
    ensures Run(s, inbound, parse).session.socket == s.socket || Run(s, inbound, parse).session.socket == Closed
    decreases |inbound|
  {
    if inbound != [] {
      var a := OnMessage(s, inbound[0].message, inbound[0].env, parse);
      RunNeverOpens(a.session, inbound[1..], parse);
    }
  }

  /** After `cleanup`, and so after a socket error, no audio chunk is sent
      whatever messages still arrive. */
  lemma SilentAfterCleanup(s: Session, inbound: seq<Inbound>, parse: Parser)
    ensures !SendsAudio(Run(Cleanup(s), inbound, parse).session)
    ensures !SendsAudio(Run(OnError(s), inbound, parse).session)
  {
    RunNeverOpens(Cleanup(s), inbound, parse);
    RunNeverOpens(OnError(s), inbound, parse);
  }

  /** The close event that `cleanup` itself causes changes nothing more,
      and a second close changes nothing. */
  lemma CloseAfterCleanup(s: Session)
    ensures OnClose(Cleanup(s)) == Cleanup(s)
    ensures OnClose(OnClose(s)) == OnClose(s)
  {
  }
}

=== FILE: metrics_view.dfy ===
/** What the metrics panel shows (src/components/MetricsDisplay.tsx): which
    blocks appear and which unit the duration is given in. Number
    formatting (`toFixed`, `toLocaleString`) is not modelled: a value shown
    in a formatted form is given as the number itself. */
module MetricsView {
  import opened Wrappers
  import opened Text
  import opened Types
  import opened Billing

  /** The duration: the milliseconds as written, or the seconds form
      (formatted from the same milliseconds). */
  datatype Duration = Millis(text: string) | Seconds(ms: nat)

  /** The token block: the total and, when both counts are known, the
      breakdown. */
  datatype TokenBlock = TokenBlock(total: nat, breakdown: Option<(nat, nat)>)

  /** The cost block: a floor marker for tiny costs, else the amount. */
  datatype CostBlock = BelowFloor | Amount(usd: real)

  /** The colour accent of the panel's icons; the background follows the
      same choice. */
  datatype Accent = Emerald | Purple | Blue | Cyan

  datatype Panel = Panel(duration: Duration, tokens: Option<TokenBlock>, cost: Option<CostBlock>)

  /** The duration in milliseconds below one second, in seconds from then
      on. */
  function DurationOf(ms: nat): (d: Duration)
    ensures d.Millis? <==> ms < 1000
    ensures d.Millis? ==> d.text == Decimal(ms) + "ms"
    ensures d.Seconds? ==> d.ms == ms
  {
    if ms < 1000 then Millis(Decimal(ms) + "ms") else Seconds(ms)
  }

  /** The threshold under which a cost is shown as `<0.001`. */
  const CostFloor: real := 0.001

  /** The panel for a metrics record. */
  function Show(m: UsageMetrics): (p: Panel)
    ensures p.duration == DurationOf(m.durationMs)
    ensures p.tokens.Some? <==> m.tokensTotal.Some? && m.tokensTotal.value > 0
    ensures p.tokens.Some? ==> p.tokens.value.total == m.tokensTotal.value
    ensures p.tokens.Some? ==>
      (p.tokens.value.breakdown.Some? <==> m.tokensInput.Some? && m.tokensOutput.Some?)
    ensures p.tokens.Some? && p.tokens.value.breakdown.Some? ==>
      p.tokens.value.breakdown.value == (m.tokensInput.value, m.tokensOutput.value)
    ensures p.cost.Some? <==> m.estimatedCostUsd.Some? && Positive(m.estimatedCostUsd.value)
    ensures p.cost.Some? ==>
      (p.cost.value.BelowFloor? <==> m.estimatedCostUsd.value.amount < CostFloor)
    ensures p.cost.Some? && p.cost.value.Amount? ==> p.cost.value.usd == m.estimatedCostUsd.value.amount
  {
    var tokens := match m.tokensTotal
      case Some(total) =>
        if total > 0 then
          var breakdown := if m.tokensInput.Some? && m.tokensOutput.Some?
            then Some((m.tokensInput.value, m.tokensOutput.value)) else None;
          Some(TokenBlock(total, breakdown))
        else None
      case None => None;
    var cost := match m.estimatedCostUsd
      case Some(Usd(usd)) => if usd > 0.0 then Some(if usd < CostFloor then BelowFloor else Amount(usd)) else None
      case _ => None;
    Panel(DurationOf(m.durationMs), tokens, cost)
  }

  /** The metrics of a live session show the token block with its breakdown
      as soon as any token was counted, and none before. */
  lemma LiveSessionTokens(model: BillingModel, t: Tokens, ms: nat)
    ensures var p := Show(SessionMetrics(model, t, ms));
      && (p.tokens.Some? <==> t.input + t.output > 0)
      && (p.tokens.Some? ==> p.tokens.value == TokenBlock(t.input + t.output, Some((t.input, t.output))))
  {
  }

  /** A session billed by the minute at defined, positive rates shows a
      cost exactly when it lasted at least a millisecond, whatever its
      tokens. */
  lemma RealtimeCostShown(inRate: real, outRate: real, t: Tokens, ms: nat)
    requires inRate > 0.0 && outRate > 0.0
    ensures Show(SessionMetrics(PerMinute(Some(inRate), Some(outRate)), t, ms)).cost.Some? <==> ms > 0
  {
    var c := Cost(PerMinute(Some(inRate), Some(outRate)), t, ms);
    if ms > 0 {
      assert ms as real / 60000.0 > 0.0;
      assert c.amount > 0.0;
    }
  }

  /** `getAccentClass` and `getBgClass`: one accent per provider, emerald
      for anything else. */
  function AccentOf(provider: string): (a: Accent)
    ensures provider == ProviderId(OpenAI) ==> a == Emerald
    ensures provider == ProviderId(OpenAIRealtime) ==> a == Purple
    ensures provider == ProviderId(Gemini) ==> a == Blue
    ensures provider == ProviderId(GeminiLive) ==> a == Cyan
    ensures (forall p :: provider != ProviderId(p)) ==> a == Emerald
  {
    if provider == "openai" then Emerald
    else if provider == "openai-realtime" then
      assert provider == ProviderId(OpenAIRealtime);
      Purple
    else if provider == "gemini" then
      assert provider == ProviderId(Gemini);
      Blue
    else if provider == "gemini-live" then
      assert provider == ProviderId(GeminiLive);
      Cyan
    else Emerald
  }

  /** The four providers get four different accents. */
  lemma AccentsDistinct(p: Provider, q: Provider)
    ensures AccentOf(ProviderId(p)) == AccentOf(ProviderId(q)) ==> p == q
  {
  }
}

=== FILE: page.dfy ===
/** The page that holds the current result and the saved reservations
    (src/app/page.tsx): its state as one record and each handler as a pure
    update. `localStorage` is an abstract store holding at most one string,
    and JSON encoding and decoding are parameters. */
module Page {
  import opened Wrappers
  import opened Text
  import opened Types

  /** The recorder component the page shows. */
  datatype Recorder = VoiceRecorder | RealtimeRecorder | GeminiLiveRecorder

  /** The page's state: the selected provider, the reservation being
      reviewed, the saved list, the last transcription and the last
      metrics. */
  datatype Page = Page(
    provider: Provider,
    current: Option<Draft>,
    saved: seq<Reservation>,
    transcription: string,
    metrics: Option<UsageMetrics>)

  /** The state at mount. */
  const Initial: Page := Page(OpenAI, None, [], "", None)

  /** `handleTranscription`: the text always replaces the transcription;
      the reservation and the metrics replace theirs only when the result
      carries them. */
  function HandleTranscription(pg: Page, result: TranscriptionResult): (r: Page)
    ensures r.transcription == result.text
    ensures r.current == if result.reservation.Some? then result.reservation else pg.current
    ensures r.metrics == if result.metrics.Some? then result.metrics else pg.metrics
    ensures r.provider == pg.provider && r.saved == pg.saved
  {
    pg.(transcription := result.text,
        current := if result.reservation.Some? then result.reservation else pg.current,
        metrics := if result.metrics.Some? then result.metrics else pg.metrics)
  }

  /** A result without reservation and metrics (what the upload recorder
      passes on for a batch reply whose reservation is `null`; that body
      has no metrics) keeps the reservation under review. */
  lemma TextOnlyKeepsReview(pg: Page, text: string)
    ensures HandleTranscription(pg, TranscriptionResult(text, None, None)) == pg.(transcription := text)
  {
  }

  /** `handleSaveReservation`: the new reservation goes first, and the
      review, the transcription and the metrics are cleared. */
  function Save(pg: Page, reservation: Reservation): (r: Page)
    ensures |r.saved| == |pg.saved| + 1 && r.saved[0] == reservation && r.saved[1..] == pg.saved
    ensures r.current.None? && r.transcription == "" && r.metrics.None?
    ensures r.provider == pg.provider
  {
    pg.(saved := [reservation] + pg.saved, current := None, transcription := "", metrics := None)
  }

  /** `prev.filter(r => r.id !== id)`. */
  function Without(rs: seq<Reservation>, id: string): (r: seq<Reservation>)
    ensures |r| <= |rs|
    ensures forall x :: x in r <==> x in rs && x.id != id
    decreases |rs|
  {
    if rs == [] then []
    else (if rs[0].id != id then [rs[0]] else []) + Without(rs[1..], id)
  }

  /** Filtering keeps the relative order: it distributes over
      concatenation. */
  lemma {:induction false} WithoutKeepsOrder(a: seq<Reservation>, b: seq<Reservation>, id: string)
    ensures Without(a + b, id) == Without(a, id) + Without(b, id)
    decreases |a|
  {
    if a == [] {
      assert a + b == b;
    } else {
      assert (a + b)[1..] == a[1..] + b;
      WithoutKeepsOrder(a[1..], b, id);
    }
  }

  /** A list without the id is left as it is. */
  lemma {:induction false} WithoutAbsent(rs: seq<Reservation>, id: string)
    requires forall i :: 0 <= i < |rs| ==> rs[i].id != id
    ensures Without(rs, id) == rs
    decreases |rs|
  {
    if rs != [] {
      WithoutAbsent(rs[1..], id);
    }
  }

  /** `handleDeleteReservation`. */
  function Delete(pg: Page, id: string): (r: Page)
    ensures r.saved == Without(pg.saved, id)
    ensures r == pg.(saved := r.saved)
  {
    pg.(saved := Without(pg.saved, id))
  }

  /** Deleting a reservation just saved under a fresh id gives back the
      list as it was. */
  lemma SaveThenDelete(pg: Page, reservation: Reservation)
    requires forall i :: 0 <= i < |pg.saved| ==> pg.saved[i].id != reservation.id
    ensures Delete(Save(pg, reservation), reservation.id).saved == pg.saved
  {
    WithoutKeepsOrder([reservation], pg.saved, reservation.id);
    WithoutAbsent(pg.saved, reservation.id);
  }

  /** `isLiveProvider`. */
  predicate IsLive(p: Provider) {
    p == OpenAIRealtime || p == GeminiLive
  }

  /** `renderRecorder`. */
  function RecorderFor(p: Provider): (r: Recorder)
    ensures r == RealtimeRecorder <==> p == OpenAIRealtime
    ensures r == GeminiLiveRecorder <==> p == GeminiLive
    ensures r == VoiceRecorder <==> !IsLive(p)
  {
    match p
    case OpenAIRealtime => RealtimeRecorder
    case GeminiLive => GeminiLiveRecorder
    case _ => VoiceRecorder
  }

  /** The transcription panel shows for a non-empty transcription of a
      batch provider only. */
  predicate ShowsTranscription(pg: Page) {
    pg.transcription != "" && !IsLive(pg.provider)
  }

  /** Exactly the two batch providers show the transcription panel, and
      they are the ones served by the upload recorder. */
  lemma TranscriptionPanelProviders(pg: Page)
    ensures ShowsTranscription(pg) <==>
      pg.transcription != "" && (pg.provider == OpenAI || pg.provider == Gemini)
    ensures ShowsTranscription(pg) ==> RecorderFor(pg.provider) == VoiceRecorder
  {
  }

  // --------------------------------------------------------- persistence

  /** The load effect: the stored list is adopted only when a non-empty
      value is stored and it decodes; otherwise the list is left as it is. */
  function Load(saved: seq<Reservation>, stored: Option<string>,
                decode: string -> Option<seq<Reservation>>): (r: seq<Reservation>)
    ensures !Truthy(stored) ==> r == saved
    ensures Truthy(stored) ==> r == decode(stored.value).GetOr(saved)
  {
    if Truthy(stored) then decode(stored.value).GetOr(saved) else saved
  }

  /** The save effect, run after every change of the list: the store holds
      the encoding of the current list. */
  function Persist(saved: seq<Reservation>, encode: seq<Reservation> -> string): (stored: Option<string>)
    ensures stored.Some?
  {
    Some(encode(saved))
  }

  /** With an encoding that decodes back and never produces the empty
      string, a reload restores the list last persisted, whatever the page
      held before. */
  lemma ReloadRestores(saved: seq<Reservation>, before: seq<Reservation>,
                       encode: seq<Reservation> -> string, decode: string -> Option<seq<Reservation>>)
    requires encode(saved) != "" && decode(encode(saved)) == Some(saved)
    ensures Load(before, Persist(saved, encode), decode) == saved
  {
  }
}

=== FILE: patterns.dfy ===
/** Sub-patterns shared by several of the program's regular expressions:
    two whitespace-separated words, an ISO date and a clock time. */
module Patterns {
  import opened Wrappers
  import opened Text
  import opened Regex

  /** `m` is a match found at `p`: its text is the slice of `s` at `p`. */
  predicate FoundAt(s: string, p: nat, m: RegexMatch) {
    m.index == p && LiteralAt(s, p, m.whole)
  }

  /** The match of the slice `s[p..e]` with the given groups. */
  function MatchOf(s: string, p: nat, e: nat, groups: seq<Option<string>>): (m: RegexMatch)
    requires p <= e <= |s|
    ensures FoundAt(s, p, m) && m.whole == s[p..e] && m.groups == groups
  {
    RegexMatch(p, s[p..e], groups)
  }

  /** `n` splits as `word+ space+ word+` at `i` and `j`. */
  predicate SplitsAsTwoWords(n: string, i: nat, j: nat, word: char -> bool)
    requires i <= j <= |n|
  {
    && (forall k :: 0 <= k < i ==> word(n[k]))
    && (forall k :: i <= k < j ==> IsSpace(n[k]))
    && (forall k :: j <= k < |n| ==> word(n[k]))
  }

  /** `n` is two non-empty words of `word` characters separated by
      whitespace: what `(W+\s+W+)` captures. */
  predicate IsTwoWords(n: string, word: char -> bool) {
    exists i: nat, j: nat | 0 < i < j < |n| :: SplitsAsTwoWords(n, i, j, word)
  }

  /** `(W+\s+W+)` preceded by at least `minLead` whitespace characters
      (`\s*` or `\s+`) that start at `q`, for a match that starts at `p`;
      group 1 is the two words.
      No quantifier here needs to give back characters: whitespace is never
      a word character, so a shorter run would leave a character the next
      item cannot consume. */
  function TwoWordsAt(s: string, p: nat, q: nat, minLead: nat, word: char -> bool): (r: Option<RegexMatch>)
    requires p <= q <= |s|
    requires forall c :: word(c) ==> !IsSpace(c)
    ensures r.Some? ==> FoundAt(s, p, r.value) && EndsWithTwoWords(r.value, word)
  {
    var lead := Run(s, q, IsSpace);
    var c0 := q + lead;
    var w1 := Run(s, c0, word);
    var gap := Run(s, c0 + w1, IsSpace);
    var w2 := Run(s, c0 + w1 + gap, word);
    if lead < minLead || w1 == 0 || gap == 0 || w2 == 0 then None
    else Some(TwoWordsMatch(s, p, c0, w1, gap, w2, word))
  }

  /** `n` stands in `s` at `c`, after the whitespace that runs from `q`,
      of which there are at least `minLead` characters, and no `word`
      character follows it. */
  predicate WordsAt(s: string, q: nat, c: nat, n: string, minLead: nat, word: char -> bool) {
    && q + minLead <= c && c + |n| <= |s| && s[c..c + |n|] == n
    && (forall k :: q <= k < c ==> IsSpace(s[k]))
    && (c + |n| < |s| ==> !word(s[c + |n|]))
  }

  /** `WordsAt` for some position. */
  ghost predicate WordsAfterSpaces(s: string, q: nat, n: string, minLead: nat, word: char -> bool) {
    exists c: nat :: WordsAt(s, q, c, n, minLead, word)
  }

  /** Where the two words of `TwoWordsAt` stand: right after the leading
      whitespace, and they end where the second word's run ends. */
  lemma TwoWordsPlace(s: string, p: nat, q: nat, minLead: nat, word: char -> bool)
    requires p <= q <= |s|
    requires forall c :: word(c) ==> !IsSpace(c)
    requires TwoWordsAt(s, p, q, minLead, word).Some?
    ensures WordsAfterSpaces(s, q, TwoWordsAt(s, p, q, minLead, word).value.groups[0].value, minLead, word)
  {
    var lead := Run(s, q, IsSpace);
    var c0 := q + lead;
    var w1 := Run(s, c0, word);
    var gap := Run(s, c0 + w1, IsSpace);
    var w2 := Run(s, c0 + w1 + gap, word);
    var e := c0 + w1 + gap + w2;
    assert TwoWordsAt(s, p, q, minLead, word).value.groups[0].value == s[c0..e];
    assert s[c0..c0 + |s[c0..e]|] == s[c0..e];
    assert WordsAt(s, q, c0, s[c0..e], minLead, word);
  }

  /** Group 1 holds two words and ends the match. */
  predicate EndsWithTwoWords(m: RegexMatch, word: char -> bool) {
    && |m.groups| == 1 && m.groups[0].Some?
    && var n := m.groups[0].value;
      IsTwoWords(n, word) && |n| <= |m.whole| && m.whole[|m.whole| - |n|..] == n
  }

  /** The match of `TwoWordsAt` from the lengths of its runs. */
  function TwoWordsMatch(s: string, p: nat, c0: nat, w1: nat, gap: nat, w2: nat, word: char -> bool): (m: RegexMatch)
    requires p <= c0 && 0 < w1 && 0 < gap && 0 < w2 && c0 + w1 + gap + w2 <= |s|
    requires forall i :: c0 <= i < c0 + w1 ==> word(s[i])
    requires forall i :: c0 + w1 <= i < c0 + w1 + gap ==> IsSpace(s[i])
    requires forall i :: c0 + w1 + gap <= i < c0 + w1 + gap + w2 ==> word(s[i])
    ensures FoundAt(s, p, m) && EndsWithTwoWords(m, word)
  {
    var e := c0 + w1 + gap + w2;
    var n := s[c0..e];
    var whole := s[p..e];
    TwoWordsSlice(s, c0, w1, gap, w2, word);
    SliceSuffix(s, p, c0, e);
    RegexMatch(p, whole, [Some(n)])
  }

  /** A word run, a whitespace run and a word run, all non-empty, form two
      words. */
  lemma TwoWordsSlice(s: string, c0: nat, w1: nat, gap: nat, w2: nat, word: char -> bool)
    requires 0 < w1 && 0 < gap && 0 < w2 && c0 + w1 + gap + w2 <= |s|
    requires forall i :: c0 <= i < c0 + w1 ==> word(s[i])
    requires forall i :: c0 + w1 <= i < c0 + w1 + gap ==> IsSpace(s[i])
    requires forall i :: c0 + w1 + gap <= i < c0 + w1 + gap + w2 ==> word(s[i])
    ensures IsTwoWords(s[c0..c0 + w1 + gap + w2], word)
  {
    var n := s[c0..c0 + w1 + gap + w2];
    assert forall k :: 0 <= k < |n| ==> n[k] == s[c0 + k];
    assert SplitsAsTwoWords(n, w1, w1 + gap, word);
  }

  /** A slice ending where a longer slice ends is its suffix. */
  lemma SliceSuffix(s: string, p: nat, c: nat, e: nat)
    requires p <= c <= e <= |s|
    ensures s[p..e][|s[p..e]| - |s[c..e]|..] == s[c..e]
  {
  }

  /** `\d{4}-\d{2}-\d{2}` matches at `p`. */
  predicate IsIsoAt(s: string, p: nat) {
    && p + 10 <= |s|
    && AllDigits(s[p..p + 4]) && s[p + 4] == '-'
    && AllDigits(s[p + 5..p + 7]) && s[p + 7] == '-'
    && AllDigits(s[p + 8..p + 10])
  }

  /** The hour and minute captures of a clock time and the position after it. */
  datatype Clock = Clock(hours: string, minutes: string, end: nat)

  /** `(\d{1,2})[:\.](\d{2})` at `q`. The greedy hour never backtracks: when
      two digits are available, a one-digit hour is followed by a digit
      where the separator must be. */
  function ClockAt(s: string, q: nat): (r: Option<Clock>)
    ensures r.Some? ==> 1 <= |r.value.hours| <= 2 && AllDigits(r.value.hours)
    ensures r.Some? ==> r.value.end == q + |r.value.hours| + 3 <= |s| && IsDigit(s[q])
    ensures r.Some? ==> |r.value.minutes| == 2 && AllDigits(r.value.minutes)
    ensures r.Some? ==> s[q..r.value.end] == r.value.hours + [s[q + |r.value.hours|]] + r.value.minutes
    ensures r.Some? ==> s[q + |r.value.hours|] == ':' || s[q + |r.value.hours|] == '.'
  {
    if q > |s| then None
    else
      var h := Digits(s, q, 2);
      if h == 0 || q + h + 3 > |s| then None
      else if (s[q + h] == ':' || s[q + h] == '.') && IsDigit(s[q + h + 1]) && IsDigit(s[q + h + 2]) then
        ClockParts(s, q, h);
        Some(Clock(s[q..q + h], s[q + h + 1..q + h + 3], q + h + 3))
      else None
  }

  /** The slices a clock match is made of. */
  lemma ClockParts(s: string, q: nat, h: nat)
    requires 1 <= h && q + h + 3 <= |s| && AllDigits(s[q..q + h])
    requires IsDigit(s[q + h + 1]) && IsDigit(s[q + h + 2])
    ensures IsDigit(s[q]) && AllDigits(s[q + h + 1..q + h + 3])
    ensures s[q..q + h + 3] == s[q..q + h] + [s[q + h]] + s[q + h + 1..q + h + 3]
  {
    assert s[q] == s[q..q + h][0];
  }

  /** `\s*` from `q`, then a clock: the position the clock starts at and the
      clock. The run of whitespace never gives characters back: a shorter
      run leaves a space where the clock's first digit must be. */
  function SpacedClockAt(s: string, q: nat): (r: Option<(nat, Clock)>)
    ensures r.Some? ==> q <= r.value.0 && ClockAt(s, r.value.0) == Some(r.value.1)
    ensures r.Some? ==> forall i :: q <= i < r.value.0 ==> IsSpace(s[i])
  {
    if q > |s| then None
    else
      var c := q + Run(s, q, IsSpace);
      match ClockAt(s, c)
      case Some(k) => Some((c, k))
      case None => None
  }

  /** A clock at `q` is found by the spaced form with no whitespace taken. */
  lemma ClockStartsSpaced(s: string, q: nat)
    ensures ClockAt(s, q).Some? ==> SpacedClockAt(s, q) == Some((q, ClockAt(s, q).value))
  {
    if ClockAt(s, q).Some? {
      assert !IsSpace(s[q]);
      assert Run(s, q, IsSpace) == 0;
    }
  }

  /** The whitespace before a spaced clock holds no digit. */
  lemma SpacedClockNonDigits(s: string, q: nat)
    ensures SpacedClockAt(s, q).Some? ==> forall i :: q <= i < SpacedClockAt(s, q).value.0 ==> !IsDigit(s[i])
  {
  }

  /** The bare clock pattern `/(\d{1,2})[:\.](\d{2})/` as a matcher: the
      reference the time patterns of both live pipelines are compared with. */
  function ClockMatchAt(s: string, p: nat): (r: Option<RegexMatch>)
    ensures r.Some? <==> ClockAt(s, p).Some?
    ensures r.Some? ==> FoundAt(s, p, r.value)
    ensures r.Some? ==> r.value.groups == [Some(ClockAt(s, p).value.hours), Some(ClockAt(s, p).value.minutes)]
  {
    match ClockAt(s, p)
    case Some(c) => Some(MatchOf(s, p, c.end, [Some(c.hours), Some(c.minutes)]))
    case None => None
  }

  /** A clock reached from `p0` over non-digits only is the digit `q0`
      when no clock starts before `q0`. */
  lemma ClockAfterNonDigits(text: string, p0: nat, q: nat, q0: nat)
    requires p0 <= q0 < |text| && IsDigit(text[q0])
    requires ClockAt(text, q).Some?
    requires forall i :: p0 <= i < q ==> !IsDigit(text[i])
    requires forall k :: 0 <= k < q0 ==> ClockMatchAt(text, k).None?
    ensures q == q0
  {
    assert ClockMatchAt(text, q).Some?;
  }

  /** `HH:MM` with the hour padded to two digits. */
  function ClockText(hours: string, minutes: string): string {
    Pad2(hours) + ":" + minutes
  }

  /** `t` has the shape `DD:DD`. */
  predicate IsClockText(t: string) {
    |t| == 5 && AllDigits(t[..2]) && t[2] == ':' && AllDigits(t[3..])
  }

  lemma ClockTextShape(c: Clock)
    requires 1 <= |c.hours| <= 2 && AllDigits(c.hours)
    requires |c.minutes| == 2 && AllDigits(c.minutes)
    ensures IsClockText(ClockText(c.hours, c.minutes))
  {
    var t := ClockText(c.hours, c.minutes);
    assert t[..2] == Pad2(c.hours);
    assert t[3..] == c.minutes;
  }

  /** `d` has the shape `Y-DD-DD` with a non-empty all-digit year; no range
      check on the month or the day is implied. */
  predicate IsDateText(d: string) {
    && |d| >= 7
    && AllDigits(d[..|d| - 6]) && d[|d| - 6] == '-'
    && AllDigits(d[|d| - 5..|d| - 3]) && d[|d| - 3] == '-'
    && AllDigits(d[|d| - 2..])
  }

  /** `${year}-${month}-${day}` is a date text when the parts are digits
      and month and day have two of them. */
  lemma DateTextShape(year: string, month: string, day: string)
    requires |year| >= 1 && AllDigits(year)
    requires |month| == 2 && AllDigits(month) && |day| == 2 && AllDigits(day)
    ensures IsDateText(year + "-" + month + "-" + day)
  {
    var d := year + "-" + month + "-" + day;
    assert d[..|d| - 6] == year;
    assert d[|d| - 5..|d| - 3] == month;
    assert d[|d| - 2..] == day;
  }
}

=== FILE: realtime_extract.dfy ===
/** The field extractor of the OpenAI Realtime recorder (`parseReservation`
    in src/components/RealtimeRecorder.tsx): one name, one date and one
    time pattern over the assistant's reply. */
module RealtimeExtract {
  import opened Wrappers
  import opened Text
  import opened Regex
  import opened Patterns
  import opened Types
  import GeminiExtract

  // ---------------------------------------------------------------- names

  /** `[A-ZÁ-Ža-zá-ž]` under the `i` flag: the ASCII letters and the code
      points U+00C0 to U+017E. `À` joins the range because its lower-case
      partner `à` is in it; no character outside these has an upper-case
      form inside the class. */
  predicate IsNameLetter(c: char) {
    ('A' <= c <= 'Z') || ('a' <= c <= 'z') || ('À' <= c <= 'ž')
  }

  lemma NameLetterIsNotSpace()
    ensures forall c :: IsNameLetter(c) ==> !IsSpace(c)
  {
  }

  /** `/pro\s+(L+\s+L+)/i` at `p`. */
  function NameAt(s: string, p: nat): Option<RegexMatch> {
    NameLetterIsNotSpace();
    if FoldedAt(s, p, "pro") then TwoWordsAt(s, p, p + 3, 1, IsNameLetter) else None
  }

  /** The name found in a reply: the two words after the leftmost `pro`
      that is followed by them. */
  function Name(text: string): (r: Option<string>)
    ensures r.Some? <==> Exec(text, NameAt).Some?
    ensures r.Some? ==> IsTwoWords(r.value, IsNameLetter)
    ensures r.Some? ==> var p := First(text, NameAt).value;
      FoldedAt(text, p, "pro") && WordsAfterSpaces(text, p + 3, r.value, 1, IsNameLetter)
  {
    NameLetterIsNotSpace();
    match Exec(text, NameAt)
    case Some(m) =>
      NamePlace(text);
      Group(m, 1)
    case None => None
  }

  /** The leftmost match starts at a `pro`, and its group 1 stands after
      the whitespace that follows. */
  lemma NamePlace(text: string)
    requires Exec(text, NameAt).Some?
    ensures var p := First(text, NameAt).value;
      && FoldedAt(text, p, "pro")
      && Group(Exec(text, NameAt).value, 1).Some?
      && WordsAfterSpaces(text, p + 3, Group(Exec(text, NameAt).value, 1).value, 1, IsNameLetter)
  {
    var p := First(text, NameAt).value;
    NameLetterIsNotSpace();
    assert Exec(text, NameAt) == NameAt(text, p);
    assert FoldedAt(text, p, "pro");
    TwoWordsPlace(text, p, p + 3, 1, IsNameLetter);
  }

  // ---------------------------------------------------------------- dates

  /** `(\d{1,2})\.?\s*` followed by a digit, at `p`: the length of group 1
      and where group 2 starts. The engine first tries the longest day; when
      no digit can follow it, a two-digit day is given back one digit, and
      then the second digit itself starts group 2. */
  function DayThenDigit(s: string, p: nat): (r: Option<(nat, nat)>)
    ensures r.Some? ==> 1 <= r.value.0 <= 2 && p + r.value.0 <= r.value.1 && DigitAt(s, r.value.1)
    ensures r.Some? ==> AllDigits(s[p..p + r.value.0])
    ensures DigitAt(s, p) && DigitAt(s, p + 1) ==> r.Some?
  {
    if p > |s| then None
    else
      var d := Digits(s, p, 2);
      if d == 0 then None else DayFrom(s, p, d)
  }

  /** `DayThenDigit` once the greedy day has taken `d` digits. */
  function DayFrom(s: string, p: nat, d: nat): (r: Option<(nat, nat)>)
    requires 1 <= d <= 2 && p + d <= |s| && AllDigits(s[p..p + d])
    ensures r.Some? ==> 1 <= r.value.0 <= 2 && p + r.value.0 <= r.value.1 && DigitAt(s, r.value.1)
    ensures r.Some? ==> AllDigits(s[p..p + r.value.0])
    ensures d == 2 ==> r.Some?
  {
    var c := DotSpaceEnd(s, p + d);
    if DigitAt(s, c) then Some((d, c))
    else if d == 2 then
      assert s[p..p + 1] == s[p..p + 2][..1];
      assert s[p + 1] == s[p..p + 2][1];
      Some((1, p + 1))
    else None
  }

  /** `(\d{1,2})\.?\s*` at `q`, where a digit stands: the length of group 2
      and the position after the optional dot and the whitespace. */
  function MonthThenGap(s: string, q: nat): (r: (nat, nat))
    requires DigitAt(s, q)
    ensures 1 <= r.0 <= 2 && q + r.0 <= r.1 <= |s|
    ensures AllDigits(s[q..q + r.0])
  {
    var d2 := Digits(s, q, 2);
    (d2, DotSpaceEnd(s, q + d2))
  }

  /** `\.?\s*` at `a`: where it stops. */
  function DotSpaceEnd(s: string, a: nat): (c: nat)
    requires a <= |s|
    ensures a <= c <= |s|
  {
    var b := if LiteralAt(s, a, ".") then a + 1 else a;
    b + Run(s, b, IsSpace)
  }

  /** The numeric alternative `(\d{1,2})\.?\s*(\d{1,2})\.?\s*(\d{4})?` at
      `p`. Everything after group 2 is optional, so once group 2 has a
      digit the match succeeds without further backtracking. */
  function NumericAt(s: string, p: nat): (r: Option<RegexMatch>)
    ensures r.Some? <==> DayThenDigit(s, p).Some?
    ensures r.Some? ==> FoundAt(s, p, r.value) && IsNumericMatch(r.value)
  {
    match DayThenDigit(s, p)
    case None => None
    case Some((d1, q)) => Some(NumericFrom(s, p, d1, q))
  }

  /** The numeric alternative once the day of `d1` digits at `p` is
      followed by a digit at `q`. */
  function NumericFrom(s: string, p: nat, d1: nat, q: nat): (m: RegexMatch)
    requires 1 <= d1 <= 2 && p + d1 <= q && DigitAt(s, q) && AllDigits(s[p..p + d1])
    ensures FoundAt(s, p, m) && IsNumericMatch(m)
  {
    var (d2, g) := MonthThenGap(s, q);
    var y := GeminiExtract.OptionalYearAt(s, g);
    NumericMatchShape(s, p, d1, q, d2, g, y);
    NumericMatch(s, p, d1, q, d2, g, y)
  }

  /** The groups of a numeric match: day and month of one or two digits,
      an optional four-digit year, and no ISO group. */
  predicate IsNumericMatch(m: RegexMatch) {
    && |m.groups| == 4 && m.groups[3].None?
    && m.groups[0].Some? && 1 <= |m.groups[0].value| <= 2 && AllDigits(m.groups[0].value)
    && m.groups[1].Some? && 1 <= |m.groups[1].value| <= 2 && AllDigits(m.groups[1].value)
    && (m.groups[2].Some? ==> |m.groups[2].value| == 4 && AllDigits(m.groups[2].value))
  }

  /** The match of the numeric alternative from its parts. */
  function NumericMatch(s: string, p: nat, d1: nat, q: nat, d2: nat, g: nat, y: nat): (m: RegexMatch)
    requires p + d1 <= q && q + d2 <= g && g + y <= |s|
    ensures FoundAt(s, p, m) && |m.groups| == 4 && m.groups[3].None?
    ensures m.groups[0] == Some(s[p..p + d1]) && m.groups[1] == Some(s[q..q + d2])
    ensures m.groups[2] == if y == 4 then Some(s[g..g + 4]) else None
  {
    MatchOf(s, p, g + y, [Some(s[p..p + d1]), Some(s[q..q + d2]), if y == 4 then Some(s[g..g + 4]) else None, None])
  }

  lemma NumericMatchShape(s: string, p: nat, d1: nat, q: nat, d2: nat, g: nat, y: nat)
    requires p + d1 <= q && q + d2 <= g && g + y <= |s|
    requires 1 <= d1 <= 2 && AllDigits(s[p..p + d1])
    requires 1 <= d2 <= 2 && AllDigits(s[q..q + d2])
    requires y == 4 ==> AllDigits(s[g..g + 4])
    ensures IsNumericMatch(NumericMatch(s, p, d1, q, d2, g, y))
  {
  }

  /** The date pattern as written: the numeric alternative first, the ISO
      alternative `(\d{4}-\d{2}-\d{2})` only where it fails. */
  function DateAtAsWritten(s: string, p: nat): (r: Option<RegexMatch>)
    ensures r.Some? ==> FoundAt(s, p, r.value) && |r.value.groups| == 4
  {
    match NumericAt(s, p)
    case Some(m) => Some(m)
    case None =>
      if IsIsoAt(s, p) then Some(MatchOf(s, p, p + 10, [None, None, None, Some(s[p..p + 10])]))
      else None
  }

  /** Wherever an ISO date stands, the numeric alternative already matches
      its first digits, so the ISO alternative never fills group 4 and its
      branch in the extractor cannot be taken. */
  lemma IsoAlternativeIsDead(s: string, p: nat)
    ensures DateAtAsWritten(s, p).Some? ==> DateAtAsWritten(s, p).value.groups[3].None?
  {
    if IsIsoAt(s, p) {
      assert DigitAt(s, p) && DigitAt(s, p + 1) by {
        assert s[p] == s[p..p + 4][0] && s[p + 1] == s[p..p + 4][1];
      }
    }
  }

  /** `match[4]` when set, else `${match[3] || year}-${MM}-${DD}` with day
      and month padded. */
  function DateFromMatch(m: RegexMatch, year: nat): string {
    if Truthy(Group(m, 4)) then Group(m, 4).value
    else OrElse(Group(m, 3), Decimal(year)) + "-" + Pad2(Captured(m, 2)) + "-" + Pad2(Captured(m, 1))
  }

  /** As written, an ISO date is read by the numeric alternative: the
      first two digits of its year become the day, the last two the month,
      and the current year is used. */
  lemma IsoDateMisread(s: string, p: nat, year: nat)
    requires IsIsoAt(s, p)
    ensures DateAtAsWritten(s, p).Some?
    ensures DateFromMatch(DateAtAsWritten(s, p).value, year) ==
      Decimal(year) + "-" + s[p + 2..p + 4] + "-" + s[p..p + 2]
  {
    IsoDayThenDigit(s, p);
    IsoNumericMatch(s, p);
    var m := NumericMatch(s, p, 2, p + 2, 2, p + 4, 0);
    assert DateAtAsWritten(s, p) == Some(m);
    TwoDigitDate(m, year, s[p..p + 2], s[p + 2..p + 4]);
  }

  lemma IsoDayThenDigit(s: string, p: nat)
    requires IsIsoAt(s, p)
    ensures DayThenDigit(s, p) == Some((2, p + 2))
  {
    IsoDigits(s, p);
    assert Digits(s, p, 2) == 2;
    assert DotSpaceEnd(s, p + 2) == p + 2 by {
      assert !LiteralAt(s, p + 2, ".");
      assert Run(s, p + 2, IsSpace) == 0;
    }
  }

  lemma IsoNumericMatch(s: string, p: nat)
    requires IsIsoAt(s, p) && DayThenDigit(s, p) == Some((2, p + 2))
    ensures NumericAt(s, p) == Some(NumericMatch(s, p, 2, p + 2, 2, p + 4, 0))
  {
    IsoDigits(s, p);
    IsoMonthThenGap(s, p);
    assert GeminiExtract.OptionalYearAt(s, p + 4) == 0;
  }

  /** A match with two-digit day and month and no year or ISO group. */
  lemma TwoDigitDate(m: RegexMatch, year: nat, day: string, month: string)
    requires m.groups == [Some(day), Some(month), None, None] && |day| == 2 && |month| == 2
    ensures DateFromMatch(m, year) == Decimal(year) + "-" + month + "-" + day
  {
    assert Group(m, 4).None? && Group(m, 3).None?;
  }

  lemma IsoDigits(s: string, p: nat)
    requires IsIsoAt(s, p)
    ensures IsDigit(s[p]) && IsDigit(s[p + 1]) && IsDigit(s[p + 2]) && IsDigit(s[p + 3])
    ensures !IsDigit(s[p + 4]) && !IsSpace(s[p + 4]) && s[p + 4] != '.'
  {
    var y := s[p..p + 4];
    assert y[0] == s[p] && y[1] == s[p + 1] && y[2] == s[p + 2] && y[3] == s[p + 3];
  }

  lemma IsoMonthThenGap(s: string, p: nat)
    requires IsIsoAt(s, p)
    ensures DigitAt(s, p + 2) && MonthThenGap(s, p + 2) == (2, p + 4)
  {
    IsoDigits(s, p);
    assert Digits(s, p + 2, 2) == 2;
    assert !LiteralAt(s, p + 4, ".");
    assert Run(s, p + 4, IsSpace) == 0;
  }

  /** The reply "2026-03-05" gives the date `<year>-26-20`. */
  lemma IsoDateExample(s: string, year: nat)
    requires s == "2026-03-05"
    ensures DateAtAsWritten(s, 0).Some?
    ensures DateFromMatch(DateAtAsWritten(s, 0).value, year) == Decimal(year) + "-" + "26" + "-" + "20"
  {
    ExampleIsIso(s);
    MisreadAt(s, year, "26", "20");
  }

  lemma MisreadAt(s: string, year: nat, month: string, day: string)
    requires IsIsoAt(s, 0) && s[2..4] == month && s[0..2] == day
    ensures DateAtAsWritten(s, 0).Some?
    ensures DateFromMatch(DateAtAsWritten(s, 0).value, year) == Decimal(year) + "-" + month + "-" + day
  {
    var p: nat := 0;
    IsoDateMisread(s, p, year);
    assert s[p + 2..p + 4] == month && s[p..p + 2] == day;
  }

  lemma ExampleIsIso(s: string)
    requires s == "2026-03-05"
    ensures IsIsoAt(s, 0) && s[2..4] == "26" && s[0..2] == "20"
  {
    assert s[0..4] == "2026" && s[5..7] == "03" && s[8..10] == "05";
    assert AllDigits("2026") && AllDigits("03") && AllDigits("05");
  }

  /** The date pattern with the ISO alternative tried first, as the
      extractor's `match[4]` branch evidently expects. Elsewhere it is the
      pattern as written. */
  function DateAt(s: string, p: nat): (r: Option<RegexMatch>)
    ensures r.Some? ==> FoundAt(s, p, r.value) && |r.value.groups| == 4
    ensures !IsIsoAt(s, p) ==> r == DateAtAsWritten(s, p)
    ensures IsIsoAt(s, p) ==> r.Some? && r.value.groups[3] == Some(s[p..p + 10])
  {
    if IsIsoAt(s, p) then Some(MatchOf(s, p, p + 10, [None, None, None, Some(s[p..p + 10])]))
    else DateAtAsWritten(s, p)
  }

  /** With the ISO alternative first, an ISO date is taken verbatim. */
  lemma IsoDateKept(s: string, p: nat, year: nat)
    requires IsIsoAt(s, p)
    ensures DateFromMatch(DateAt(s, p).value, year) == s[p..p + 10]
  {
  }

  /** The date of a reply: `None` when the pattern does not match. Every
      date has the shape `Y-DD-DD`. */
  function Date(text: string, year: nat): (r: Option<string>)
    ensures r.Some? <==> Exec(text, DateAt).Some?
    ensures r.Some? ==> IsDateText(r.value)
  {
    match Exec(text, DateAt)
    case Some(m) =>
      DateShape(text, First(text, DateAt).value, year);
      Some(DateFromMatch(m, year))
    case None => None
  }

  /** The date a match at `p` yields: an ISO date verbatim; otherwise the
      four-digit year the numeric alternative captured or else the current
      year, then its month and its day (each one or two digits), padded to
      two digits without changing their values. */
  lemma DateShape(s: string, p: nat, year: nat)
    requires DateAt(s, p).Some?
    ensures IsDateText(DateFromMatch(DateAt(s, p).value, year))
    ensures IsIsoAt(s, p) ==> DateFromMatch(DateAt(s, p).value, year) == s[p..p + 10]
    ensures !IsIsoAt(s, p) ==> IsNumericMatch(DateAt(s, p).value)
    ensures !IsIsoAt(s, p) ==> var g := DateAt(s, p).value.groups;
      && DateFromMatch(DateAt(s, p).value, year) ==
           OrElse(g[2], Decimal(year)) + "-" + Pad2(g[1].value) + "-" + Pad2(g[0].value)
      && DigitsValue(Pad2(g[1].value)) == DigitsValue(g[1].value)
      && DigitsValue(Pad2(g[0].value)) == DigitsValue(g[0].value)
  {
    var m := DateAt(s, p).value;
    if IsIsoAt(s, p) {
      GeminiExtract.IsoIsDateText(s, p);
    } else {
      assert m == NumericAt(s, p).value;
      NumericDateText(m, year);
      Pad2KeepsValue(m.groups[0].value);
      Pad2KeepsValue(m.groups[1].value);
    }
  }

  /** A match of the numeric alternative yields `year-MM-DD`. */
  lemma NumericDateText(m: RegexMatch, year: nat)
    requires IsNumericMatch(m)
    ensures DateFromMatch(m, year) ==
      OrElse(m.groups[2], Decimal(year)) + "-" + Pad2(m.groups[1].value) + "-" + Pad2(m.groups[0].value)
    ensures IsDateText(DateFromMatch(m, year))
  {
    assert Group(m, 4).None? && Group(m, 3) == m.groups[2];
    assert Captured(m, 2) == m.groups[1].value && Captured(m, 1) == m.groups[0].value;
    YearText(m.groups[2], year);
    DateTextShape(OrElse(m.groups[2], Decimal(year)), Pad2(m.groups[1].value), Pad2(m.groups[0].value));
  }

  lemma YearText(captured: Option<string>, year: nat)
    requires captured.Some? ==> |captured.value| == 4 && AllDigits(captured.value)
    ensures |OrElse(captured, Decimal(year))| >= 1 && AllDigits(OrElse(captured, Decimal(year)))
  {
  }

  /** The date of a reply whose leftmost date match is not an ISO date:
      the groups of that match, year (captured or current), month and day,
      with month and day keeping their values. */
  lemma NumericDateValue(text: string, year: nat)
    requires Exec(text, DateAt).Some? && !IsIsoAt(text, First(text, DateAt).value)
    ensures IsNumericMatch(Exec(text, DateAt).value)
    ensures var g := Exec(text, DateAt).value.groups;
      && Date(text, year) == Some(OrElse(g[2], Decimal(year)) + "-" + Pad2(g[1].value) + "-" + Pad2(g[0].value))
      && DigitsValue(Pad2(g[1].value)) == DigitsValue(g[1].value)
      && DigitsValue(Pad2(g[0].value)) == DigitsValue(g[0].value)
  {
    DateShape(text, First(text, DateAt).value, year);
  }

  /** The date of a reply whose leftmost date match is an ISO date is that
      date, verbatim. */
  lemma IsoDateValue(text: string, year: nat)
    requires Exec(text, DateAt).Some? && IsIsoAt(text, First(text, DateAt).value)
    ensures var p := First(text, DateAt).value; Date(text, year) == Some(text[p..p + 10])
  {
    DateShape(text, First(text, DateAt).value, year);
  }

  // ----------------------------------------------------------------- time

  /** Where the clock starts in a match of `/v?\s*C/` (`C` the clock) that
      starts at `p`: first with the `v` taken, then without it. */
  function TimeClockPos(s: string, p: nat): (r: Option<nat>)
    ensures r.Some? ==> p <= r.value && ClockAt(s, r.value).Some?
    ensures r.Some? ==> forall i :: p <= i < r.value ==> !IsDigit(s[i])
    ensures ClockAt(s, p).Some? ==> r == Some(p)
  {
    ClockStartsSpaced(s, p);
    SpacedClockNonDigits(s, p);
    SpacedClockNonDigits(s, p + 1);
    if LiteralAt(s, p, "v") && SpacedClockAt(s, p + 1).Some? then
      assert s[p] == s[p..p + 1][0];
      Some(SpacedClockAt(s, p + 1).value.0)
    else if SpacedClockAt(s, p).Some? then
      Some(SpacedClockAt(s, p).value.0)
    else None
  }

  /** The time pattern at `p`, with groups 1 and 2 the clock's. */
  function TimeAt(s: string, p: nat): (r: Option<RegexMatch>)
    ensures r.Some? <==> TimeClockPos(s, p).Some?
    ensures r.Some? ==> FoundAt(s, p, r.value)
    ensures r.Some? ==> var c := ClockAt(s, TimeClockPos(s, p).value).value;
      r.value.groups == [Some(c.hours), Some(c.minutes)]
  {
    match TimeClockPos(s, p)
    case None => None
    case Some(q) =>
      var c := ClockAt(s, q).value;
      Some(MatchOf(s, p, c.end, [Some(c.hours), Some(c.minutes)]))
  }

  /** `${m[1].padStart(2, "0")}:${m[2]}` when the time pattern matches. */
  function Time(text: string): (r: Option<string>)
    ensures r.Some? <==> Exec(text, TimeAt).Some?
  {
    match Exec(text, TimeAt)
    case Some(m) => Some(ClockText(Captured(m, 1), Captured(m, 2)))
    case None => None
  }

  /** The time of a reply is its leftmost clock. */
  lemma TimeIsFirstClock(text: string)
    ensures Exec(text, ClockMatchAt).None? ==> Time(text).None?
    ensures Exec(text, ClockMatchAt).Some? ==>
      var g := Exec(text, ClockMatchAt).value.groups;
      Time(text) == Some(ClockText(g[0].value, g[1].value))
  {
    match First(text, ClockMatchAt)
    case None =>
      forall p | 0 <= p <= |text| ensures TimeAt(text, p).None? {
        TimeNeedsClock(text, p);
      }
    case Some(q0) =>
      LeftmostTimeReadsLeftmostClock(text, q0);
  }

  lemma TimeNeedsClock(s: string, p: nat)
    ensures TimeAt(s, p).Some? ==>
      TimeClockPos(s, p).value <= |s| && ClockMatchAt(s, TimeClockPos(s, p).value).Some?
  {
  }

  lemma LeftmostTimeReadsLeftmostClock(text: string, q0: nat)
    requires q0 <= |text| && ClockAt(text, q0).Some?
    requires forall q :: 0 <= q < q0 ==> ClockMatchAt(text, q).None?
    ensures First(text, TimeAt).Some?
    ensures TimeClockPos(text, First(text, TimeAt).value) == Some(q0)
  {
    assert TimeAt(text, q0).Some?;
    var p0 := First(text, TimeAt).value;
    assert p0 <= q0;
    TimeNeedsClock(text, p0);
    TimeClockBeforeClock(text, p0, q0);
  }

  lemma TimeClockBeforeClock(text: string, p0: nat, q0: nat)
    requires p0 <= q0 < |text| && IsDigit(text[q0])
    requires forall q :: 0 <= q < q0 ==> ClockMatchAt(text, q).None?
    requires TimeClockPos(text, p0).Some?
    ensures TimeClockPos(text, p0) == Some(q0)
  {
    ClockAfterNonDigits(text, p0, TimeClockPos(text, p0).value, q0);
  }

  /** Both live pipelines read the same time from the same text. */
  lemma SameTimeAsGeminiLive(text: string)
    ensures Time(text) == GeminiExtract.ExtractTime(None, text)
  {
    TimeIsFirstClock(text);
    GeminiExtract.TimeIsFirstClock(None, text);
  }

  // ------------------------------------------------------------ the parse

  /** The reservation `parseReservation` reports, or `None` when neither
      the name nor the date pattern matches and nothing is emitted. */
  function Reservation(text: string, year: nat): (r: Option<Draft>)
    ensures r.Some? <==> Name(text).Some? || Date(text, year).Some?
    ensures r.Some? ==> r.value.clientName == Name(text)
    ensures r.Some? ==> r.value.date == Date(text, year)
    ensures r.Some? ==> r.value.time == Time(text) && r.value.notes.None?
  {
    var name := Name(text);
    var date := Date(text, year);
    if name.Some? || date.Some? then Some(Draft(name, date, Time(text), None)) else None
  }
}

=== FILE: realtime_session.dfy ===
/** The session bookkeeping of the OpenAI Realtime recorder
    (src/components/RealtimeRecorder.tsx): the refs and state its callbacks
    share, as one immutable record, and each callback body as a pure
    transition. The peer connection, the data channel itself and JSON
    decoding stay outside; a transition gets the decoded event and the
    environment values it reads. */
module RealtimeSession {
  import opened Wrappers
  import opened Text
  import opened Types
  import opened Billing
  import RealtimeExtract
  import MetricsView

  /** The data channel's `readyState` as far as the stop gate reads it; a
      channel that does not exist counts as closed. */
  datatype Channel = Closed | Connecting | Open

  /** The refs and state of the recorder. */
  datatype Session = Session(
    transcript: string,
    tokens: Tokens,
    channel: Channel,
    connected: bool,
    recording: bool,
    processing: bool)

  /** The state at mount. */
  const Idle: Session := Session("", NoTokens, Closed, false, false, false)

  /** One element of `response.output[0].content`. */
  datatype ContentItem = ContentItem(kind: string, text: Option<string>)

  /** One element of `response.output`. */
  datatype OutputItem = OutputItem(content: Option<seq<ContentItem>>)

  datatype Usage = Usage(inputTokens: Option<nat>, outputTokens: Option<nat>)

  datatype Response = Response(output: Option<seq<OutputItem>>, usage: Option<Usage>)

  /** A decoded data-channel event, as far as the dispatcher reads it. */
  datatype Event = Event(kind: string, transcript: string, response: Option<Response>)

  const TranscriptionCompleted: string := "conversation.item.input_audio_transcription.completed"
  const ResponseDone: string := "response.done"

  /** What a callback reads from outside the record: the milliseconds since
      `connect`, the current year, the per-minute audio prices as the price
      table gives them (`None` for `undefined`), and the transcript value
      the event handler captured when the channel was set up (the handler is
      created inside `connect`, so it does not see later updates). */
  datatype Env = Env(elapsedMs: nat, year: nat, inputPerMinute: Option<real>, outputPerMinute: Option<real>, captured: string)

  /** The prices the recorder reads from the shipped table: neither is
      defined. */
  predicate ShippedPrices(env: Env) {
    env.inputPerMinute == RealtimeInputPerMinute && env.outputPerMinute == RealtimeOutputPerMinute
  }

  /** The state after a callback and the results it passed to
      `onTranscription`, in order. */
  datatype Step = Step(session: Session, emitted: seq<TranscriptionResult>)

  /** The billing of the realtime pipeline: by duration only. */
  function Billed(env: Env): BillingModel {
    PerMinute(env.inputPerMinute, env.outputPerMinute)
  }

  // ----------------------------------------------------------- transcript

  /** `prev + (prev ? " " : "") + piece`. */
  function Join(prev: string, piece: string): (r: string)
    ensures prev == "" ==> r == piece
    ensures prev != "" ==> |r| == |prev| + 1 + |piece| && r[|prev|] == ' '
    ensures |prev| <= |r| && r[..|prev|] == prev
    ensures |piece| <= |r| && r[|r| - |piece|..] == piece
  {
    prev + (if prev != "" then " " else "") + piece
  }

  /** The pieces joined onto `prev` one after the other. */
  function JoinAll(prev: string, pieces: seq<string>): string
    decreases |pieces|
  {
    if pieces == [] then prev else JoinAll(Join(prev, pieces[0]), pieces[1..])
  }

  /** Joining non-empty pieces onto an empty transcript puts exactly one
      space between neighbours: the result is the pieces separated by
      single spaces. */
  function Spaced(pieces: seq<string>): string
    decreases |pieces|
  {
    if pieces == [] then ""
    else if |pieces| == 1 then pieces[0]
    else Spaced(pieces[..|pieces| - 1]) + " " + pieces[|pieces| - 1]
  }

  lemma {:induction false} JoinAllSpaced(pieces: seq<string>)
    requires forall i :: 0 <= i < |pieces| ==> pieces[i] != ""
    ensures JoinAll("", pieces) == Spaced(pieces)
  {
    if pieces != [] {
      JoinAllSpacedFrom(pieces[0], pieces[1..]);
      assert [pieces[0]] + pieces[1..] == pieces;
    }
  }

  lemma {:induction false} JoinAllSpacedFrom(first: string, rest: seq<string>)
    requires first != ""
    requires forall i :: 0 <= i < |rest| ==> rest[i] != ""
    ensures JoinAll(first, rest) == Spaced([first] + rest)
    decreases |rest|
  {
    if rest == [] {
    } else {
      var next := Join(first, rest[0]);
      JoinAllSpacedFrom(next, rest[1..]);
      SpacedCons(first, rest[0], rest[1..]);
      assert [first, rest[0]] + rest[1..] == [first] + rest;
    }
  }

  /** The first two pieces may be joined in advance. */
  lemma {:induction false} SpacedCons(a: string, b: string, rest: seq<string>)
    ensures Spaced([a + " " + b] + rest) == Spaced([a, b] + rest)
    decreases |rest|
  {
    if rest != [] {
      var left := [a + " " + b] + rest;
      var right := [a, b] + rest;
      assert left[..|left| - 1] == [a + " " + b] + rest[..|rest| - 1];
      assert right[..|right| - 1] == [a, b] + rest[..|rest| - 1];
      SpacedCons(a, b, rest[..|rest| - 1]);
    }
  }

  // ------------------------------------------------------------ the reply

  /** The index of the first item of type `text`, if any. */
  function FirstTextItem(content: seq<ContentItem>): (r: Option<nat>)
    ensures r.Some? ==> r.value < |content| && content[r.value].kind == "text"
    ensures r.Some? ==> forall i :: 0 <= i < r.value ==> content[i].kind != "text"
    ensures r.None? ==> forall i :: 0 <= i < |content| ==> content[i].kind != "text"
    decreases |content|
  {
    if content == [] then None
    else if content[0].kind == "text" then Some(0)
    else match FirstTextItem(content[1..])
      case None => None
      case Some(i) => Some(i + 1)
  }

  /** `content.find(c => c.type === "text")?.text || ""`: the text of the
      first text item, or nothing. Later text items are never read. */
  function ReplyText(content: seq<ContentItem>): (r: string)
    ensures FirstTextItem(content).None? ==> r == ""
    ensures FirstTextItem(content).Some? ==> r == OrElse(content[FirstTextItem(content).value].text, "")
  {
    match FirstTextItem(content)
    case None => ""
    case Some(i) => OrElse(content[i].text, "")
  }

  /** The text a `response.done` event hands to the parser: `None` when the
      response has no output, the output is empty, or its first item has no
      content. */
  function ParsedText(response: Option<Response>): (r: Option<string>)
    ensures r.Some? <==>
      response.Some? && response.value.output.Some? && |response.value.output.value| > 0
      && response.value.output.value[0].content.Some?
    ensures r.Some? ==> r.value == ReplyText(response.value.output.value[0].content.value)
  {
    match response
    case None => None
    case Some(resp) =>
      match resp.output
      case None => None
      case Some(output) =>
        if |output| == 0 then None
        else match output[0].content
          case None => None
          case Some(content) => Some(ReplyText(content))
  }

  // ---------------------------------------------------------- transitions

  /** `parseReservation`: report a result whenever the name or the date
      pattern matches, with the metrics of the tokens counted so far. There
      is no completion flag; the session is left as it is. */
  function ParseReply(s: Session, text: string, env: Env): (r: Step)
    ensures r.session == s
    ensures |r.emitted| == 1 <==> RealtimeExtract.Name(text).Some? || RealtimeExtract.Date(text, env.year).Some?
    ensures |r.emitted| <= 1
    ensures |r.emitted| == 1 ==> r.emitted[0].text == OrElse(Some(env.captured), text)
    ensures |r.emitted| == 1 ==> r.emitted[0].reservation == RealtimeExtract.Reservation(text, env.year)
    ensures |r.emitted| == 1 ==> r.emitted[0].metrics == Some(SessionMetrics(Billed(env), s.tokens, env.elapsedMs))
  {
    match RealtimeExtract.Reservation(text, env.year)
    case None => Step(s, [])
    case Some(d) =>
      Step(s, [TranscriptionResult(OrElse(Some(env.captured), text), Some(d),
                                   Some(SessionMetrics(Billed(env), s.tokens, env.elapsedMs)))])
  }

  /** `handleRealtimeEvent`. */
  function Handle(s: Session, e: Event, env: Env): (r: Step)
    ensures e.kind != TranscriptionCompleted && e.kind != ResponseDone ==> r == Step(s, [])
    ensures e.kind == TranscriptionCompleted ==>
      r == Step(s.(transcript := Join(s.transcript, e.transcript)), [])
    ensures e.kind == ResponseDone ==> r.session == s.(tokens := r.session.tokens)
    ensures e.kind == ResponseDone ==> r.session.tokens == match e.response
      case Some(Response(_, Some(u))) => AddUsage(s.tokens, u.inputTokens, u.outputTokens)
      case _ => s.tokens
    ensures e.kind == ResponseDone ==>
      r.emitted == match ParsedText(e.response)
        case None => []
        case Some(text) => ParseReply(s, text, env).emitted
  {
    if e.kind == TranscriptionCompleted then
      Step(s.(transcript := Join(s.transcript, e.transcript)), [])
    else if e.kind == ResponseDone then
      var emitted := match ParsedText(e.response)
        case None => []
        case Some(text) => ParseReply(s, text, env).emitted;
      var tokens := match e.response
        case Some(Response(_, Some(u))) => AddUsage(s.tokens, u.inputTokens, u.outputTokens)
        case _ => s.tokens;
      Step(s.(tokens := tokens), emitted)
    else Step(s, [])
  }

  /** One event from the data channel with the environment it is handled
      in. */
  datatype Inbound = Inbound(event: Event, env: Env)

  /** A stream of events handled in order. */
  function Run(s: Session, inbound: seq<Inbound>): Step
    decreases |inbound|
  {
    if inbound == [] then Step(s, [])
    else
      var a := Handle(s, inbound[0].event, inbound[0].env);
      var b := Run(a.session, inbound[1..]);
      Step(b.session, a.emitted + b.emitted)
  }

  /** The transcripts of the completed-transcription events, in order. */
  function Pieces(inbound: seq<Inbound>): seq<string>
    decreases |inbound|
  {
    if inbound == [] then []
    else if inbound[0].event.kind == TranscriptionCompleted then [inbound[0].event.transcript] + Pieces(inbound[1..])
    else Pieces(inbound[1..])
  }

  /** The transcript after a stream is the old one with the transcribed
      pieces joined on in order; no other event touches it. */
  lemma {:induction false} RunTranscript(s: Session, inbound: seq<Inbound>)
    ensures Run(s, inbound).session.transcript == JoinAll(s.transcript, Pieces(inbound))
    decreases |inbound|
  {
    if inbound != [] {
      var a := Handle(s, inbound[0].event, inbound[0].env);
      RunTranscript(a.session, inbound[1..]);
      if inbound[0].event.kind == TranscriptionCompleted {
        var pieces := Pieces(inbound);
        assert pieces[0] == inbound[0].event.transcript && pieces[1..] == Pieces(inbound[1..]);
      }
    }
  }

  /** Every emitted result carries a reservation with a name or a date, and
      metrics whose total is the sum of its counts and whose cost does not
      depend on them. */
  predicate WellFormed(results: seq<TranscriptionResult>)
  {
    forall i :: 0 <= i < |results| ==>
      && results[i].reservation.Some?
      && (results[i].reservation.value.clientName.Some? || results[i].reservation.value.date.Some?)
      && results[i].metrics.Some?
      && results[i].metrics.value.tokensTotal.Some?
      && results[i].metrics.value.tokensInput.Some? && results[i].metrics.value.tokensOutput.Some?
      && results[i].metrics.value.tokensTotal.value ==
         results[i].metrics.value.tokensInput.value + results[i].metrics.value.tokensOutput.value
  }

  /** What a stream emits is well formed, and the token counters never go
      down. */
  lemma {:induction false} RunEmissions(s: Session, inbound: seq<Inbound>)
    ensures WellFormed(Run(s, inbound).emitted)
    ensures Run(s, inbound).session.tokens.input >= s.tokens.input
    ensures Run(s, inbound).session.tokens.output >= s.tokens.output
    decreases |inbound|
  {
    if inbound != [] {
      var a := Handle(s, inbound[0].event, inbound[0].env);
      HandleWellFormed(s, inbound[0].event, inbound[0].env);
      RunEmissions(a.session, inbound[1..]);
      WellFormedAppend(a.emitted, Run(a.session, inbound[1..]).emitted);
    }
  }

  lemma HandleWellFormed(s: Session, e: Event, env: Env)
    ensures WellFormed(Handle(s, e, env).emitted)
  {
    if e.kind == ResponseDone {
      match ParsedText(e.response)
      case None =>
      case Some(text) => ReplyWellFormed(s, text, env);
    }
  }

  lemma ReplyWellFormed(s: Session, text: string, env: Env)
    ensures WellFormed(ParseReply(s, text, env).emitted)
  {
    var r := ParseReply(s, text, env);
    if |r.emitted| == 1 {
      var d := RealtimeExtract.Reservation(text, env.year);
      assert d.Some? && (d.value.clientName.Some? || d.value.date.Some?);
      OneWellFormed(r.emitted, d, Billed(env), s.tokens, env.elapsedMs);
    }
  }

  lemma OneWellFormed(emitted: seq<TranscriptionResult>, d: Option<Draft>, model: BillingModel, t: Tokens, ms: nat)
    requires |emitted| == 1 && emitted[0].reservation == d
    requires d.Some? && (d.value.clientName.Some? || d.value.date.Some?)
    requires emitted[0].metrics == Some(SessionMetrics(model, t, ms))
    ensures WellFormed(emitted)
  {
  }

  lemma WellFormedAppend(x: seq<TranscriptionResult>, y: seq<TranscriptionResult>)
    requires WellFormed(x) && WellFormed(y)
    ensures WellFormed(x + y)
  {
    assert forall i :: |x| <= i < |x + y| ==> (x + y)[i] == y[i - |x|];
  }

  /** A reply's metrics count only the tokens of earlier responses: the
      usage of the response being parsed is added after the result is
      reported. */
  lemma ReplyExcludesOwnUsage(s: Session, e: Event, env: Env)
    requires |Handle(s, e, env).emitted| == 1
    ensures e.kind == ResponseDone
    ensures Handle(s, e, env).emitted[0].metrics.value.tokensInput == Some(s.tokens.input)
    ensures Handle(s, e, env).emitted[0].metrics.value.tokensOutput == Some(s.tokens.output)
  {
  }

  /** Whether an event reports a result does not depend on the session. */
  lemma SameCountAnyState(s: Session, t: Session, e: Event, env: Env)
    ensures |Handle(s, e, env).emitted| == |Handle(t, e, env).emitted|
  {
    if e.kind == ResponseDone && ParsedText(e.response).Some? {
      var text := ParsedText(e.response).value;
      assert |ParseReply(s, text, env).emitted| == |ParseReply(t, text, env).emitted|;
    }
  }

  /** There is no once-guard: handling the same reply a second time
      reports it again. */
  lemma NoOnceGuard(s: Session, e: Event, env: Env)
    requires |Handle(s, e, env).emitted| == 1
    ensures |Run(s, [Inbound(e, env), Inbound(e, env)]).emitted| == 2
  {
    var a := Handle(s, e, env);
    var b := Handle(a.session, e, env);
    SameCountAnyState(s, a.session, e, env);
    var one := [Inbound(e, env)];
    var two := [Inbound(e, env)] + one;
    assert two[1..] == one && one[1..] == [];
    assert Run(a.session, one).emitted == b.emitted + Run(b.session, []).emitted;
    assert Run(s, two).emitted == a.emitted + Run(a.session, one).emitted;
    assert two == [Inbound(e, env), Inbound(e, env)];
  }

  /** `disconnect`: the channel is closed and the connected and recording
      flags drop; the transcript and the counters stay. */
  function Disconnect(s: Session): (r: Session)
    ensures r.channel == Closed && !r.connected && !r.recording
    ensures r.transcript == s.transcript && r.tokens == s.tokens && r.processing == s.processing
  {
    s.(channel := Closed, connected := false, recording := false)
  }

  /** `stopAndProcess`, its synchronous part: whether `response.create` is
      sent. The session does not change. */
  function RequestsResponse(s: Session): (sent: bool)
    ensures sent <==> s.channel == Open
  {
    s.channel == Open
  }

  /** The body of the timer `stopAndProcess` sets: report the transcript
      captured when stopping, with the metrics of the tokens counted by the
      time the timer fires and no reservation, unless that transcript is
      empty; then disconnect. */
  function Flush(s: Session, stopTranscript: string, env: Env): (r: Step)
    ensures |r.emitted| == (if stopTranscript == "" then 0 else 1)
    ensures |r.emitted| == 1 ==> r.emitted[0].text == stopTranscript && r.emitted[0].reservation.None?
    ensures |r.emitted| == 1 ==> r.emitted[0].metrics == Some(SessionMetrics(Billed(env), s.tokens, env.elapsedMs))
    ensures r.session == Disconnect(s)
  {
    var metrics := SessionMetrics(Billed(env), s.tokens, env.elapsedMs);
    Step(Disconnect(s),
         if stopTranscript != "" then [TranscriptionResult(stopTranscript, None, Some(metrics))] else [])
  }

  /** `connect`: reset the transcript and the counters and mark the
      recorder busy; when the token request, the microphone or the offer
      fails, the busy mark drops and the recorder disconnects. */
  function Connect(s: Session, ok: bool): (r: Session)
    ensures r.transcript == "" && r.tokens == NoTokens
    ensures r.processing <==> ok
    ensures ok ==> r.channel == Connecting
    ensures !ok ==> r.channel == Closed && !r.connected && !r.recording
  {
    var reset := s.(processing := true, tokens := NoTokens, transcript := "");
    if ok then reset.(channel := Connecting) else Disconnect(reset.(processing := false))
  }

  /** `dc.onopen`. */
  function OnOpen(s: Session): (r: Session)
    ensures s.channel == Connecting ==> r.channel == Open && r.connected && r.recording && !r.processing
    ensures s.channel != Connecting ==> r == s
  {
    if s.channel == Connecting
    then s.(channel := Open, connected := true, recording := true, processing := false)
    else s
  }

  /** After a connect that succeeds and the channel's `onopen`, the
      recorder is in the same state whatever it held before: empty
      transcript, no tokens, an open channel that records; stopping then
      sends `response.create`. */
  lemma OpenAfterConnect(s: Session)
    ensures OnOpen(Connect(s, true)) == Session("", NoTokens, Open, true, true, false)
    ensures RequestsResponse(OnOpen(Connect(s, true)))
  {
  }

  /** A disconnected recorder stays closed: a late `onopen` does not reopen
      it, a second disconnect changes nothing, and neither a stop after it
      nor a stop after a failed connect sends `response.create`. */
  lemma DisconnectIsFinal(s: Session, stopTranscript: string, env: Env)
    ensures OnOpen(Disconnect(s)) == Disconnect(s)
    ensures Disconnect(Disconnect(s)) == Disconnect(s)
    ensures !RequestsResponse(Disconnect(s)) && !RequestsResponse(Connect(s, false))
    ensures !RequestsResponse(Flush(s, stopTranscript, env).session)
  {
  }

  /** Handling events changes only the transcript and the counters: the
      channel and the flags are left to the lifecycle callbacks. */
  lemma {:induction false} RunKeepsLifecycle(s: Session, inbound: seq<Inbound>)
    ensures Run(s, inbound).session ==
      s.(transcript := Run(s, inbound).session.transcript, tokens := Run(s, inbound).session.tokens)
    decreases |inbound|
  {
    if inbound != [] {
      var a := Handle(s, inbound[0].event, inbound[0].env);
      RunKeepsLifecycle(a.session, inbound[1..]);
    }
  }

  // ----------------------------------------------------------------- cost

  /** Every result carries metrics whose cost is `NaN`. */
  predicate CostIsNaN(results: seq<TranscriptionResult>) {
    forall i :: 0 <= i < |results| ==>
      results[i].metrics.Some? && results[i].metrics.value.estimatedCostUsd == Some(NaN)
  }

  /** The metrics panel hides the cost of every such result. */
  lemma NaNCostHidden(results: seq<TranscriptionResult>)
    requires CostIsNaN(results)
    ensures forall i :: 0 <= i < |results| ==> MetricsView.Show(results[i].metrics.value).cost.None?
  {
    forall i | 0 <= i < |results|
      ensures MetricsView.Show(results[i].metrics.value).cost.None?
    {
      assert !Positive(results[i].metrics.value.estimatedCostUsd.value);
    }
  }

  lemma CostIsNaNAppend(x: seq<TranscriptionResult>, y: seq<TranscriptionResult>)
    requires CostIsNaN(x) && CostIsNaN(y)
    ensures CostIsNaN(x + y)
  {
    assert forall i :: |x| <= i < |x + y| ==> (x + y)[i] == y[i - |x|];
  }

  /** At the shipped prices every result a stream of events reports costs
      `NaN`, so the panel never shows a realtime cost. */
  lemma {:induction false} ReplyCostNeverShown(s: Session, inbound: seq<Inbound>)
    requires forall i :: 0 <= i < |inbound| ==> ShippedPrices(inbound[i].env)
    ensures CostIsNaN(Run(s, inbound).emitted)
    ensures forall i :: 0 <= i < |Run(s, inbound).emitted| ==>
      MetricsView.Show(Run(s, inbound).emitted[i].metrics.value).cost.None?
    decreases |inbound|
  {
    if inbound != [] {
      var a := Handle(s, inbound[0].event, inbound[0].env);
      ReplyCostNeverShown(a.session, inbound[1..]);
      assert ShippedPrices(inbound[0].env);
      CostIsNaNAppend(a.emitted, Run(a.session, inbound[1..]).emitted);
    }
    NaNCostHidden(Run(s, inbound).emitted);
  }

  /** At the shipped prices the result of a stop costs `NaN` as well. */
  lemma StopCostNeverShown(s: Session, stopTranscript: string, env: Env)
    requires ShippedPrices(env)
    ensures CostIsNaN(Flush(s, stopTranscript, env).emitted)
    ensures forall i :: 0 <= i < |Flush(s, stopTranscript, env).emitted| ==>
      MetricsView.Show(Flush(s, stopTranscript, env).emitted[i].metrics.value).cost.None?
  {
    NaNCostHidden(Flush(s, stopTranscript, env).emitted);
  }

  /** With both per-minute prices defined and positive, the result of a
      stop after at least a millisecond shows its cost. */
  lemma PricedStopShowsCost(s: Session, stopTranscript: string, env: Env)
    requires env.inputPerMinute.Some? && env.inputPerMinute.value > 0.0
    requires env.outputPerMinute.Some? && env.outputPerMinute.value > 0.0
    requires stopTranscript != "" && env.elapsedMs > 0
    ensures MetricsView.Show(Flush(s, stopTranscript, env).emitted[0].metrics.value).cost.Some?
  {
    MetricsView.RealtimeCostShown(env.inputPerMinute.value, env.outputPerMinute.value, s.tokens, env.elapsedMs);
  }
}

=== FILE: regex.dfy ===
/** What `String.prototype.match` returns for a regular expression without
    the `g` flag: the leftmost match, found by trying the pattern at every
    start position in turn. A pattern is modelled as a matcher: a function
    that, given the subject and a start position, returns the match the
    backtracking engine finds there, or `None`. */
module Regex {
  import opened Wrappers

  /** The match array: `index`, `match[0]` and `match[1..]`; a group that
      did not participate is `None` (JavaScript's `undefined`). */
  datatype RegexMatch = RegexMatch(index: nat, whole: string, groups: seq<Option<string>>)

  /** `match[i]` for `i >= 1`. */
  function Group(m: RegexMatch, i: nat): Option<string> {
    if 1 <= i <= |m.groups| then m.groups[i - 1] else None
  }

  /** `match[i]` for a group the pattern makes mandatory, so that it is
      always defined when the whole pattern matched. */
  function Captured(m: RegexMatch, i: nat): string {
    Group(m, i).GetOr("")
  }

  type Matcher = (string, nat) -> Option<RegexMatch>

  /** The leftmost start position at or after `from` where `at` matches. */
  function FirstFrom(s: string, at: Matcher, from: nat): (r: Option<nat>)
    ensures r.Some? ==> from <= r.value <= |s| && at(s, r.value).Some?
    ensures r.Some? ==> forall q :: from <= q < r.value ==> at(s, q).None?
    ensures r.None? ==> forall q :: from <= q <= |s| ==> at(s, q).None?
    decreases |s| + 1 - from
  {
    if from > |s| then None
    else if at(s, from).Some? then Some(from)
    else FirstFrom(s, at, from + 1)
  }

  function First(s: string, at: Matcher): Option<nat> {
    FirstFrom(s, at, 0)
  }

  /** `s.match(pattern)`. */
  function Exec(s: string, at: Matcher): (r: Option<RegexMatch>)
    ensures r.None? <==> forall q :: 0 <= q <= |s| ==> at(s, q).None?
    ensures r.Some? ==> First(s, at).Some? && r == at(s, First(s, at).value)
  {
    match First(s, at)
    case Some(p) => at(s, p)
    case None => None
  }

  /** A position where the pattern matches with no match before it is the
      one `match` reports. */
  lemma FirstIsLeftmost(s: string, at: Matcher, p: nat)
    requires p <= |s| && at(s, p).Some?
    requires forall q :: 0 <= q < p ==> at(s, q).None?
    ensures First(s, at) == Some(p)
    ensures Exec(s, at) == at(s, p)
  {
  }

  /** The first pattern of an ordered list that matches anywhere in `s`,
      trying them from index `i` on, with its index and match. */
  function FirstPattern(s: string, patterns: seq<Matcher>, i: nat): (r: Option<(nat, RegexMatch)>)
    ensures r.Some? ==> i <= r.value.0 < |patterns|
    ensures r.Some? ==> Exec(s, patterns[r.value.0]) == Some(r.value.1)
    ensures r.Some? ==> forall k :: i <= k < r.value.0 ==> Exec(s, patterns[k]).None?
    ensures r.None? <==> forall k :: i <= k < |patterns| ==> Exec(s, patterns[k]).None?
    decreases |patterns| - i
  {
    if i >= |patterns| then None
    else match Exec(s, patterns[i])
      case Some(m) => Some((i, m))
      case None => FirstPattern(s, patterns, i + 1)
  }
}

=== FILE: text.dfy ===
/** Character classes and string helpers with JavaScript's meaning:
    `\d`, `\s`, the `i` flag of a non-Unicode regular expression,
    `padStart`, `trim`, truthiness and `||` on strings, and the decimal
    rendering of a number inside a template literal. */
module Text {
  import opened Wrappers

  /** `\d`: the ASCII digits only. */
  predicate IsDigit(c: char) {
    '0' <= c <= '9'
  }

  /** `\s` (and the characters `String.prototype.trim` removes): the
      ECMAScript WhiteSpace and LineTerminator code points. */
  predicate IsSpace(c: char) {
    || c == '\t' || c == '\n' || c == '\U{B}' || c == '\U{C}' || c == '\r'
    || c == ' ' || c == '\U{A0}' || c == '\U{1680}'
    || ('\U{2000}' <= c <= '\U{200A}')
    || c == '\U{2028}' || c == '\U{2029}' || c == '\U{202F}' || c == '\U{205F}'
    || c == '\U{3000}' || c == '\U{FEFF}'
  }

  predicate IsAsciiLetter(c: char) {
    ('a' <= c <= 'z') || ('A' <= c <= 'Z')
  }

  /** `\w`: ASCII letters, digits and the underscore. */
  predicate IsAsciiWordChar(c: char) {
    IsAsciiLetter(c) || IsDigit(c) || c == '_'
  }

  /** Case folding of the `i` flag on a non-Unicode pattern, restricted to
      the letters that occur in this program's patterns: ASCII letters and
      the Czech letters with diacritics. Every other character folds to
      itself; JavaScript's canonicalisation never relates such a character
      to one of those letters, so comparing folds is exact for them. */
  function Fold(c: char): char {
    if 'A' <= c <= 'Z' then (c as int + 32) as char
    else if c == 'Ě' then 'ě'
    else if c == 'Š' then 'š'
    else if c == 'Č' then 'č'
    else if c == 'Ř' then 'ř'
    else if c == 'Ž' then 'ž'
    else if c == 'Ý' then 'ý'
    else if c == 'Á' then 'á'
    else if c == 'Í' then 'í'
    else if c == 'É' then 'é'
    else if c == 'Ú' then 'ú'
    else if c == 'Ů' then 'ů'
    else if c == 'Ď' then 'ď'
    else if c == 'Ť' then 'ť'
    else if c == 'Ň' then 'ň'
    else c
  }

  /** `toLowerCase()` on the strings it is applied to here (letters of the
      ASCII and Czech alphabets, and digits). */
  function Lower(s: string): (r: string)
    ensures |r| == |s|
    ensures forall i :: 0 <= i < |s| ==> r[i] == Fold(s[i])
  {
    seq(|s|, i requires 0 <= i < |s| => Fold(s[i]))
  }

  /** `lit` occurs in `s` at position `p`, case-sensitively. */
  predicate LiteralAt(s: string, p: nat, lit: string) {
    p + |lit| <= |s| && s[p..p + |lit|] == lit
  }

  /** `lit` occurs in `s` at position `p` under the `i` flag. */
  predicate FoldedAt(s: string, p: nat, lit: string) {
    p + |lit| <= |s| && forall i :: 0 <= i < |lit| ==> Fold(s[p + i]) == Fold(lit[i])
  }

  predicate DigitAt(s: string, p: nat) {
    p < |s| && IsDigit(s[p])
  }

  predicate AllDigits(s: string) {
    forall i :: 0 <= i < |s| ==> IsDigit(s[i])
  }

  /** Length of the longest run of `cls` characters starting at `p`: what a
      greedy `X*` consumes. */
  function Run(s: string, p: nat, cls: char -> bool): (n: nat)
    requires p <= |s|
    ensures p + n <= |s|
    ensures forall i :: p <= i < p + n ==> cls(s[i])
    ensures p + n < |s| ==> !cls(s[p + n])
    decreases |s| - p
  {
    if p < |s| && cls(s[p]) then 1 + Run(s, p + 1, cls) else 0
  }

  /** What a greedy `\d{1,max}` consumes at `p` (0 when it fails). */
  function Digits(s: string, p: nat, max: nat): (n: nat)
    requires p <= |s|
    ensures n <= max && p + n <= |s|
    ensures AllDigits(s[p..p + n])
    ensures n < max && p + n < |s| ==> !IsDigit(s[p + n])
  {
    var run := Run(s, p, IsDigit);
    if run < max then run else max
  }

  /** JavaScript truthiness of an optional string: defined and non-empty. */
  predicate Truthy(o: Option<string>) {
    o.Some? && o.value != ""
  }

  /** `o || fallback` on an optional string. */
  function OrElse(o: Option<string>, fallback: string): (r: string)
    ensures Truthy(o) ==> r == o.value
    ensures !Truthy(o) ==> r == fallback
  {
    if Truthy(o) then o.value else fallback
  }

  /** `d.padStart(2, "0")`. */
  function Pad2(d: string): (r: string)
    ensures |d| >= 2 ==> r == d
    ensures |d| <= 2 ==> |r| == 2
    ensures AllDigits(d) ==> AllDigits(r)
    ensures |d| <= |r| && r[|r| - |d|..] == d
  {
    if |d| >= 2 then d
    else if |d| == 1 then "0" + d
    else "00"
  }

  /** Numeric value of a string of decimal digits. */
  function DigitsValue(d: string): nat
    requires AllDigits(d)
  {
    if |d| == 0 then 0
    else 10 * DigitsValue(d[..|d| - 1]) + (d[|d| - 1] as int - '0' as int)
  }

  /** Left-padding with zeros never changes the number a digit string denotes. */
  lemma {:induction false} Pad2KeepsValue(d: string)
    requires AllDigits(d)
    ensures DigitsValue(Pad2(d)) == DigitsValue(d)
  {
    if |d| == 1 {
      var r := Pad2(d);
      assert r[..|r| - 1] == "0";
      assert DigitsValue(r[..|r| - 1]) == 10 * DigitsValue("") + 0;
      assert d[..0] == "";
    } else if |d| == 0 {
      var r := Pad2(d);
      assert r[..1] == "0";
      assert DigitsValue(r[..1]) == 10 * DigitsValue(r[..0]) + 0;
      assert r[..0] == "";
    }
  }

  function DigitChar(n: nat): (c: char)
    requires n < 10
    ensures IsDigit(c) && c as int - '0' as int == n
  {
    ('0' as int + n) as char
  }

  /** `${n}` for a non-negative integer: its decimal digits, no leading zero. */
  function Decimal(n: nat): (r: string)
    ensures |r| >= 1 && AllDigits(r)
    ensures |r| > 1 ==> r[0] != '0'
    ensures DigitsValue(r) == n
  {
    if n < 10 then [DigitChar(n)]
    else
      var r := Decimal(n / 10) + [DigitChar(n % 10)];
      assert r[..|r| - 1] == Decimal(n / 10);
      r
  }

  /** `s.trimStart()`. */
  function TrimStart(s: string): (r: string)
    ensures |r| <= |s| && r == s[|s| - |r|..]
    ensures forall i :: 0 <= i < |s| - |r| ==> IsSpace(s[i])
    ensures |r| > 0 ==> !IsSpace(r[0])
  {
    if |s| > 0 && IsSpace(s[0]) then TrimStart(s[1..]) else s
  }

  /** `s.trimEnd()`. */
  function TrimEnd(s: string): (r: string)
    ensures |r| <= |s| && r == s[..|r|]
    ensures forall i :: |r| <= i < |s| ==> IsSpace(s[i])
    ensures |r| > 0 ==> !IsSpace(r[|r| - 1])
  {
    if |s| > 0 && IsSpace(s[|s| - 1]) then TrimEnd(s[..|s| - 1]) else s
  }

  /** `s.trim()`. */
  function Trim(s: string): (r: string)
    ensures |r| > 0 ==> !IsSpace(r[0]) && !IsSpace(r[|r| - 1])
  {
    TrimEnd(TrimStart(s))
  }

  /** `s.includes(sub)`. */
  predicate Contains(s: string, sub: string) {
    exists p: nat | p <= |s| :: LiteralAt(s, p, sub)
  }
}

=== FILE: transcribe_route.dfy ===
/** The batch transcription endpoint (src/app/api/transcribe/route.ts):
    the provider dispatch and its error statuses, and the reading of the
    vendors' replies. The vendor requests themselves stay outside: each
    request's outcome is a parameter, and the route reports which requests
    it made, in order. JSON decoding is a parameter too, returning `None`
    where `JSON.parse` throws. */
module TranscribeRoute {
  import opened Wrappers
  import opened Text
  import opened Regex
  import opened Patterns

  // ------------------------------------------------ the Gemini reply text

  const TranscriptionLabel: string := "TRANSCRIPTION:"
  const ReservationLabel: string := "RESERVATION:"

  /** The first position at or after `i` where the lookahead
      `(?=RESERVATION:|$)` holds. */
  function StopAt(s: string, i: nat): (e: nat)
    requires i <= |s|
    ensures i <= e <= |s|
    ensures e == |s| || LiteralAt(s, e, ReservationLabel)
    ensures forall j :: i <= j < e ==> !LiteralAt(s, j, ReservationLabel)
    decreases |s| - i
  {
    if i == |s| || LiteralAt(s, i, ReservationLabel) then i else StopAt(s, i + 1)
  }

  /** `/TRANSCRIPTION:\s*([\s\S]+?)(?=RESERVATION:|$)/` at `p`. The
      whitespace run is taken whole; the lazy group then grows one character
      at a time until the lookahead holds, which it does at the latest at
      the end. Only when nothing but whitespace follows the label does the
      run give back its last character, which becomes the group. */
  function TranscriptionAt(s: string, p: nat): (r: Option<RegexMatch>)
    ensures r.Some? ==> LiteralAt(s, p, TranscriptionLabel) && FoundAt(s, p, r.value)
    ensures r.Some? ==> |r.value.groups| == 1 && r.value.groups[0].Some?
  {
    if !LiteralAt(s, p, TranscriptionLabel) then None
    else
      var w := Run(s, p + |TranscriptionLabel|, IsSpace);
      var q := p + |TranscriptionLabel| + w;
      if q < |s| then
        var e := StopAt(s, q + 1);
        Some(MatchOf(s, p, e, [Some(s[q..e])]))
      else if w > 0 then
        Some(MatchOf(s, p, |s|, [Some(s[q - 1..])]))
      else None
  }

  /** The transcription section: the group, trimmed, or `""` when the
      pattern does not match. */
  function Transcription(content: string): (r: string)
    ensures !Contains(content, TranscriptionLabel) ==> r == ""
    ensures |r| > 0 ==> !IsSpace(r[0]) && !IsSpace(r[|r| - 1])
  {
    match Exec(content, TranscriptionAt)
    case Some(m) =>
      assert LiteralAt(content, First(content, TranscriptionAt).value, TranscriptionLabel);
      Trim(Captured(m, 1))
    case None => ""
  }

  /** The first `}` at or after `i`. */
  function CloseAt(s: string, i: nat): (r: Option<nat>)
    ensures r.Some? ==> i <= r.value < |s| && s[r.value] == '}'
    ensures r.Some? ==> forall j :: i <= j < r.value ==> s[j] != '}'
    ensures r.None? ==> forall j :: i <= j < |s| ==> s[j] != '}'
    decreases |s| - i
  {
    if i >= |s| then None
    else if s[i] == '}' then Some(i)
    else CloseAt(s, i + 1)
  }

  /** `/RESERVATION:\s*(\{[\s\S]*?\})/` at `p`: the whitespace run is taken
      whole (a shorter one would leave whitespace where `{` must be), then
      the group runs from `{` to the first `}` after it. */
  function ReservationAt(s: string, p: nat): (r: Option<RegexMatch>)
    ensures r.Some? ==> FoundAt(s, p, r.value) && |r.value.groups| == 1 && r.value.groups[0].Some?
    ensures r.Some? ==> var g := r.value.groups[0].value;
      |g| >= 2 && g[0] == '{' && g[|g| - 1] == '}' && forall j :: 0 <= j < |g| - 1 ==> g[j] != '}'
  {
    if !LiteralAt(s, p, ReservationLabel) then None
    else
      var q := p + |ReservationLabel| + Run(s, p + |ReservationLabel|, IsSpace);
      if q < |s| && s[q] == '{' then
        match CloseAt(s, q + 1)
        case Some(e) =>
          var g := s[q..e + 1];
          assert forall j :: 0 <= j < |g| - 1 ==> g[j] == s[q + j];
          Some(MatchOf(s, p, e + 1, [Some(g)]))
        case None => None
      else None
  }

  /** The text handed to `JSON.parse` for the reservation: a brace, no
      closing brace before the last character, and a closing brace there. */
  function ReservationCandidate(content: string): (r: Option<string>)
    ensures r.Some? <==> Exec(content, ReservationAt).Some?
    ensures r.Some? ==> |r.value| >= 2 && r.value[0] == '{' && r.value[|r.value| - 1] == '}'
    ensures r.Some? ==> forall j :: 0 <= j < |r.value| - 1 ==> r.value[j] != '}'
  {
    match Exec(content, ReservationAt)
    case Some(m) => m.groups[0]
    case None => None
  }

  /** The reply layout the prompt asks for. */
  function Reply(transcription: string, json: string): string {
    "TRANSCRIPTION: " + transcription + "\n" + ReservationLabel + " " + json
  }

  /** No `RESERVATION:` label starts anywhere in `t`. */
  predicate NoReservationLabel(t: string) {
    forall j :: 0 <= j <= |t| ==> !LiteralAt(t, j, ReservationLabel)
  }

  /** A reply in the requested layout gives back the transcription it was
      built from, provided that text is trimmed and does not itself hold the
      reservation label. */
  lemma TranscriptionRoundTrip(t: string, json: string)
    requires t != "" && !IsSpace(t[0]) && !IsSpace(t[|t| - 1])
    requires NoReservationLabel(t)
    ensures Transcription(Reply(t, json)) == t
  {
    var s := Reply(t, json);
    TranscriptionMatch(t, json);
    FirstIsLeftmost(s, TranscriptionAt, 0);
    TrimOneNewline(t);
  }

  /** At the start of such a reply, the section pattern captures the
      transcription and the newline after it. */
  lemma TranscriptionMatch(t: string, json: string)
    requires t != "" && !IsSpace(t[0])
    requires NoReservationLabel(t)
    ensures TranscriptionAt(Reply(t, json), 0).Some?
    ensures Captured(TranscriptionAt(Reply(t, json), 0).value, 1) == t + "\n"
  {
    var s := Reply(t, json);
    ReplyLayout(t, json);
    LabelThenOneSpace(t, json);
    StopsAfterText(s, t, 15);
    assert s[15..16 + |t|] == t + "\n";
    SectionAfterOneSpace(s, 16 + |t|);
  }

  /** After the label and one space, the group runs from the character
      after the space to where the lookahead first holds. */
  lemma SectionAfterOneSpace(s: string, e: nat)
    requires |s| > 15 && LiteralAt(s, 0, TranscriptionLabel) && Run(s, |TranscriptionLabel|, IsSpace) == 1
    requires 16 <= e <= |s| && StopAt(s, 16) == e
    ensures TranscriptionAt(s, 0).Some? && Captured(TranscriptionAt(s, 0).value, 1) == s[15..e]
  {
  }

  /** Such a reply opens with the label and exactly one space. */
  lemma LabelThenOneSpace(t: string, json: string)
    requires t != "" && !IsSpace(t[0])
    ensures var s := Reply(t, json);
      && |s| > 15 && LiteralAt(s, 0, TranscriptionLabel)
      && Run(s, |TranscriptionLabel|, IsSpace) == 1
  {
    var s := Reply(t, json);
    ReplyLayout(t, json);
    assert LiteralAt(s, 0, TranscriptionLabel) by {
      assert s[..|TranscriptionLabel|] == s[..15][..14];
    }
    var n := |TranscriptionLabel|;
    assert s[n] == ' ' && s[n + 1] == t[0] by {
      assert s[n] == s[..15][n];
      assert s[n + 1] == s[15..15 + |t|][0];
    }
    assert Run(s, n + 1, IsSpace) == 0;
  }

  /** Inside the transcription, and across its end, no label starts before
      the one the layout puts there. */
  lemma StopsAfterText(s: string, t: string, q: nat)
    requires NoReservationLabel(t)
    requires q + |t| + 1 + |ReservationLabel| <= |s|
    requires s[q..q + |t|] == t && s[q + |t|] == '\n'
    requires LiteralAt(s, q + |t| + 1, ReservationLabel)
    ensures StopAt(s, q + 1) == q + |t| + 1
  {
    forall j | q <= j <= q + |t| ensures !LiteralAt(s, j, ReservationLabel) {
      NoLabelInText(s, t, q, j);
    }
  }

  /** A label starting inside an occurrence of `t` that ends in a newline
      would lie inside `t`. */
  lemma NoLabelInText(s: string, t: string, q: nat, j: nat)
    requires NoReservationLabel(t)
    requires q + |t| < |s| && s[q..q + |t|] == t && s[q + |t|] == '\n'
    requires q <= j <= q + |t|
    ensures !LiteralAt(s, j, ReservationLabel)
  {
    var e := q + |t|;
    if j + |ReservationLabel| <= e {
      SliceWithin(s, t, q, j, |ReservationLabel|);
      assert !LiteralAt(t, j - q, ReservationLabel);
    } else {
      NewlineBreaksLabel(s, j, e);
    }
  }

  /** A newline inside the span a label would cover rules the label out. */
  lemma NewlineBreaksLabel(s: string, j: nat, e: nat)
    requires j <= e < |s| && e < j + |ReservationLabel| && s[e] == '\n'
    ensures !LiteralAt(s, j, ReservationLabel)
  {
    LabelChars();
    if j + |ReservationLabel| <= |s| {
      assert s[j..j + |ReservationLabel|][e - j] == '\n';
    }
  }

  /** The label is upper-case letters and a colon. */
  lemma LabelChars()
    ensures |ReservationLabel| == 12
    ensures forall k :: 0 <= k < |ReservationLabel| ==>
      ('A' <= ReservationLabel[k] <= 'Z') || ReservationLabel[k] == ':'
  {
  }

  /** A slice of `s` that lies inside an occurrence of `t` is the
      corresponding slice of `t`. */
  lemma SliceWithin(s: string, t: string, q: nat, j: nat, n: nat)
    requires q + |t| <= |s| && s[q..q + |t|] == t
    requires q <= j && j + n <= q + |t|
    ensures t[j - q..j - q + n] == s[j..j + n]
  {
    forall i | 0 <= i < |t| ensures t[i] == s[q + i] {
      assert s[q..q + |t|][i] == s[q + i];
    }
  }

  /** Where the parts of a reply in the requested layout sit. */
  lemma ReplyLayout(t: string, json: string)
    ensures var s := Reply(t, json);
      && |s| == 16 + |t| + |ReservationLabel| + 1 + |json|
      && s[..15] == TranscriptionLabel + " " && s[15..15 + |t|] == t && s[15 + |t|] == '\n'
      && LiteralAt(s, 16 + |t|, ReservationLabel) && s[16 + |t| + |ReservationLabel|] == ' '
      && s[17 + |t| + |ReservationLabel|..] == json
  {
  }

  lemma TrimOneNewline(t: string)
    requires t != "" && !IsSpace(t[0]) && !IsSpace(t[|t| - 1])
    ensures Trim(t + "\n") == t
  {
    assert TrimStart(t + "\n") == t + "\n";
    assert (t + "\n")[..|t|] == t;
  }

  /** A reply in the requested layout hands exactly its JSON object to the
      parser, provided the object holds no closing brace before its end and
      the transcription does not hold the reservation label. */
  lemma ReservationRoundTrip(t: string, body: string)
    requires NoReservationLabel(t)
    requires forall j :: 0 <= j < |body| ==> body[j] != '}'
    ensures ReservationCandidate(Reply(t, "{" + body + "}")) == Some("{" + body + "}")
  {
    var json := "{" + body + "}";
    var s := Reply(t, json);
    ReplyLayout(t, json);
    var p := 16 + |t|;
    JsonAfterLabel(s, p, body);
    forall j | 0 <= j < p ensures ReservationAt(s, j).None? {
      NoLabelBefore(s, t, j);
    }
    FirstIsLeftmost(s, ReservationAt, p);
  }

  /** The label, one space and a brace-free object: the match holds the
      object. */
  lemma JsonAfterLabel(s: string, p: nat, body: string)
    requires LiteralAt(s, p, ReservationLabel) && p + |ReservationLabel| < |s|
    requires s[p + |ReservationLabel|] == ' ' && s[p + |ReservationLabel| + 1..] == "{" + body + "}"
    requires forall j :: 0 <= j < |body| ==> body[j] != '}'
    ensures ReservationAt(s, p).Some? && ReservationAt(s, p).value.groups[0] == Some("{" + body + "}")
  {
    var json := "{" + body + "}";
    var q := p + |ReservationLabel| + 1;
    assert s[q] == '{' by {
      assert s[q] == s[q..][0];
    }
    assert Run(s, p + |ReservationLabel|, IsSpace) == 1 by {
      assert Run(s, q, IsSpace) == 0;
    }
    assert CloseAt(s, q + 1) == Some(|s| - 1) by {
      forall j | q + 1 <= j < |s| - 1 ensures s[j] != '}' {
        assert s[j] == s[q..][j - q] == json[j - q] == body[j - q - 1];
      }
      assert s[|s| - 1] == s[q..][|json| - 1] == '}';
    }
    assert s[q..|s|] == json;
  }

  /** No reservation label starts before the one the layout puts after the
      transcription. */
  lemma NoLabelBefore(s: string, t: string, j: nat)
    requires NoReservationLabel(t)
    requires |s| >= 16 + |t| && s[..15] == TranscriptionLabel + " " && s[15..15 + |t|] == t
    requires s[15 + |t|] == '\n'
    requires j < 16 + |t|
    ensures !LiteralAt(s, j, ReservationLabel)
  {
    if j < 15 {
      PrefixHasNoLabelStart();
      assert s[j] == s[..15][j];
      if j < 14 {
        assert s[j + 1] == s[..15][j + 1];
      }
      LabelStart(s, j);
    } else {
      NoLabelInText(s, t, 15, j);
    }
  }

  /** A label starts with `RE`. */
  lemma LabelStart(s: string, j: nat)
    ensures LiteralAt(s, j, ReservationLabel) ==> j + 1 < |s| && s[j] == 'R' && s[j + 1] == 'E'
  {
    if LiteralAt(s, j, ReservationLabel) {
      assert s[j..j + 12][0] == s[j] && s[j..j + 12][1] == s[j + 1];
    }
  }

  /** No `R` of the transcription label is followed by an `E`, and its last
      character is the space. */
  lemma PrefixHasNoLabelStart()
    ensures var prefix := TranscriptionLabel + " ";
      && |prefix| == 15 && prefix[14] == ' '
      && forall k :: 0 <= k < 14 ==> !(prefix[k] == 'R' && prefix[k + 1] == 'E')
  {
  }

  // ------------------------------------------------------------- the route

  /** The vendor requests the route can make. */
  datatype Call = Transcribe | Extract | GenerateContent

  /** The `audio` form field: absent, a text value, or a file. */
  datatype AudioField = Absent | TextValue(text: string) | Upload

  /** What the route reads from the request: whether the body parses as
      form data, the `audio` field, and the `provider` field if it is
      text. */
  datatype Request = Request(isForm: bool, audio: AudioField, provider: Option<string>)

  /** `!audioFile`: the field is missing or the empty text. */
  predicate NoAudio(req: Request) {
    req.audio.Absent? || req.audio == TextValue("")
  }

  /** The audio can be read: a form whose `audio` field is a file. Only
      such a request reaches a provider path. */
  predicate HasAudio(req: Request) {
    req.isForm && req.audio.Upload?
  }

  /** What the route reads from the environment and the vendors: the two
      keys; the outcome of each request (`None` for a failed status, else
      the field read from its body: the Whisper text, the chat completion's
      content, the first candidate's first part's text if any); and
      `JSON.parse`. */
  datatype Outside<J> = Outside(
    openAIKey: Option<string>,
    googleKey: Option<string>,
    transcribed: Option<string>,
    extracted: Option<string>,
    generated: Option<Option<string>>,
    parse: string -> Option<J>)

  /** The JSON body: the text and the parsed reservation (`null` as
      `None`) on success, an error message otherwise. There is no metrics
      field. */
  datatype Body<J> = Transcribed(text: string, reservation: Option<J>) | Failed(error: string)

  datatype Response<J> = Response(status: nat, body: Body<J>)

  /** A response together with the vendor requests made, in order. */
  datatype Outcome<J> = Outcome(response: Response<J>, calls: seq<Call>)

  /** A provider path: its transcription and reservation, or `None` when it
      threw, and the requests it made. */
  datatype Attempt<J> = Attempt(result: Option<(string, Option<J>)>, calls: seq<Call>)

  /** `processWithOpenAI`: Whisper, then the chat model; content that does
      not parse leaves the reservation `null` without failing. */
  function WithOpenAI<J>(o: Outside<J>): (a: Attempt<J>)
    ensures !Truthy(o.openAIKey) ==> a == Attempt(None, [])
    ensures a.calls <= [Transcribe, Extract]
    ensures a.result.Some? <==> Truthy(o.openAIKey) && o.transcribed.Some? && o.extracted.Some?
    ensures a.result.Some? ==>
      a.result.value == (o.transcribed.value, o.parse(o.extracted.value)) && a.calls == [Transcribe, Extract]
  {
    if !Truthy(o.openAIKey) then Attempt(None, [])
    else match o.transcribed
      case None => Attempt(None, [Transcribe])
      case Some(text) =>
        match o.extracted
        case None => Attempt(None, [Transcribe, Extract])
        case Some(content) => Attempt(Some((text, o.parse(content))), [Transcribe, Extract])
  }

  /** `processWithGemini`: one request, then the two sections of its
      text. */
  function WithGemini<J>(o: Outside<J>): (a: Attempt<J>)
    ensures !Truthy(o.googleKey) ==> a == Attempt(None, [])
    ensures a.calls <= [GenerateContent]
    ensures a.result.Some? <==> Truthy(o.googleKey) && o.generated.Some?
    ensures a.result.Some? ==> var content := OrElse(o.generated.value, "");
      && a.result.value.0 == Transcription(content)
      && a.result.value.1 == (match ReservationCandidate(content)
           case None => None
           case Some(json) => o.parse(json))
  {
    if !Truthy(o.googleKey) then Attempt(None, [])
    else match o.generated
      case None => Attempt(None, [GenerateContent])
      case Some(text) =>
        var content := OrElse(text, "");
        var reservation := match ReservationCandidate(content)
          case None => None
          case Some(json) => o.parse(json);
        Attempt(Some((Transcription(content), reservation)), [GenerateContent])
  }

  /** The provider path a request selects: `openai` takes the two-step
      path, any other value Gemini. */
  function PathFor<J>(req: Request, o: Outside<J>): Attempt<J> {
    if req.provider == Some("openai") then WithOpenAI(o) else WithGemini(o)
  }

  /** `POST`. */
  function Post<J>(req: Request, o: Outside<J>): (r: Outcome<J>)
    ensures !req.isForm ==> r == Outcome(Response(500, Failed("Failed to process audio")), [])
    ensures req.isForm && NoAudio(req) ==> r == Outcome(Response(400, Failed("No audio file provided")), [])
    ensures req.isForm && req.audio.TextValue? && req.audio.text != "" ==>
      r == Outcome(Response(500, Failed("Failed to process audio")), [])
    ensures r.response.status in {200, 400, 500}
    ensures r.response.status == 400 <==> req.isForm && NoAudio(req)
    ensures r.response.status == 200 <==> r.response.body.Transcribed?
    ensures r.response.status == 500 ==> r.response.body == Failed("Failed to process audio")
    ensures r.calls != [] ==> HasAudio(req)
    ensures HasAudio(req) && req.provider == Some("openai") ==> r.calls <= [Transcribe, Extract]
    ensures HasAudio(req) && req.provider != Some("openai") ==> r.calls <= [GenerateContent]
    ensures HasAudio(req) ==> r.calls == PathFor(req, o).calls
    ensures HasAudio(req) ==> (r.response.status == 200 <==> PathFor(req, o).result.Some?)
    ensures HasAudio(req) && PathFor(req, o).result.Some? ==>
      r.response.body == Transcribed(PathFor(req, o).result.value.0, PathFor(req, o).result.value.1)
  {
    if !req.isForm then Outcome(Response(500, Failed("Failed to process audio")), [])
    else if NoAudio(req) then Outcome(Response(400, Failed("No audio file provided")), [])
    else if !req.audio.Upload? then Outcome(Response(500, Failed("Failed to process audio")), [])
    else
      var a := PathFor(req, o);
      match a.result
      case None => Outcome(Response(500, Failed("Failed to process audio")), a.calls)
      case Some((text, reservation)) => Outcome(Response(200, Transcribed(text, reservation)), a.calls)
  }

  /** A path whose key is missing fails with status 500 before any vendor
      request. */
  lemma MissingKeyFailsEarly<J>(req: Request, o: Outside<J>)
    requires HasAudio(req)
    requires if req.provider == Some("openai") then !Truthy(o.openAIKey) else !Truthy(o.googleKey)
    ensures Post(req, o) == Outcome(Response(500, Failed("Failed to process audio")), [])
  {
  }

  /** When both OpenAI requests succeed, the body holds the Whisper text
      and the parse of the chat model's content, after exactly the two
      requests. */
  lemma OpenAISucceeds<J>(req: Request, o: Outside<J>)
    requires HasAudio(req) && req.provider == Some("openai")
    requires Truthy(o.openAIKey) && o.transcribed.Some? && o.extracted.Some?
    ensures Post(req, o) ==
      Outcome(Response(200, Transcribed(o.transcribed.value, o.parse(o.extracted.value))), [Transcribe, Extract])
  {
  }

  /** When the chat model's content is not JSON, the transcription is still
      returned, with a `null` reservation. */
  lemma UnparsableExtractionKeepsText<J>(req: Request, o: Outside<J>)
    requires HasAudio(req) && req.provider == Some("openai")
    requires Truthy(o.openAIKey) && o.transcribed.Some? && o.extracted.Some?
    requires o.parse(o.extracted.value).None?
    ensures Post(req, o).response == Response(200, Transcribed(o.transcribed.value, None))
  {
  }

  /** A Gemini reply in the requested layout comes back as its
      transcription and the parse of its JSON object. */
  lemma GeminiReplyRoundTrip<J>(req: Request, o: Outside<J>, t: string, body: string)
    requires HasAudio(req) && req.provider != Some("openai") && Truthy(o.googleKey)
    requires t != "" && !IsSpace(t[0]) && !IsSpace(t[|t| - 1]) && NoReservationLabel(t)
    requires forall j :: 0 <= j < |body| ==> body[j] != '}'
    requires o.generated == Some(Some(Reply(t, "{" + body + "}")))
    ensures Post(req, o).response == Response(200, Transcribed(t, o.parse("{" + body + "}")))
  {
    var json := "{" + body + "}";
    TranscriptionRoundTrip(t, json);
    ReservationRoundTrip(t, body);
    GeminiSucceeds(req, o, Reply(t, json), t, json);
  }

  /** A generated text whose sections are `t` and `json`. */
  lemma GeminiSucceeds<J>(req: Request, o: Outside<J>, content: string, t: string, json: string)
    requires HasAudio(req) && req.provider != Some("openai") && Truthy(o.googleKey)
    requires o.generated == Some(Some(content))
    requires Transcription(content) == t && ReservationCandidate(content) == Some(json)
    ensures Post(req, o).response == Response(200, Transcribed(t, o.parse(json)))
  {
  }
}

=== FILE: types.dfy ===
/** The records the pipelines exchange (src/types/index.ts) and the fixed
    price table. */
module Types {
  import opened Wrappers

  /** The four pipelines the page switches between. The type declared in
      src/types/index.ts lists three; the page, the metrics panel and the
      provider switch also use "gemini-live". */
  datatype Provider = OpenAI | Gemini | OpenAIRealtime | GeminiLive

  /** The identifier each provider has on the wire and in the UI. */
  function ProviderId(p: Provider): (id: string)
    ensures id != ""
  {
    match p
    case OpenAI => "openai"
    case Gemini => "gemini"
    case OpenAIRealtime => "openai-realtime"
    case GeminiLive => "gemini-live"
  }

  /** The four identifiers are pairwise distinct, so an identifier names
      one provider. */
  lemma ProviderIdInjective(p: Provider, q: Provider)
    ensures ProviderId(p) == ProviderId(q) ==> p == q
  {
    if ProviderId(p) == ProviderId(q) {
      assert ProviderId(p)[|ProviderId(p)| - 1] == ProviderId(q)[|ProviderId(q)| - 1];
      assert |ProviderId(p)| == |ProviderId(q)|;
    }
  }

  /** `Partial<Reservation>` as far as the extraction paths and the card
      read it: every field may be missing. */
  datatype Draft = Draft(
    clientName: Option<string>,
    date: Option<string>,
    time: Option<string>,
    notes: Option<string>)

  const EmptyDraft: Draft := Draft(None, None, None, None)

  /** A saved reservation: `id`, `clientName`, `date`, `provider` and
      `createdAt` are mandatory, `time` and `notes` optional. */
  datatype Reservation = Reservation(
    id: string,
    clientName: string,
    date: string,
    time: Option<string>,
    notes: Option<string>,
    provider: Provider,
    createdAt: string)

  /** A JavaScript number as far as a cost goes: a value, or `NaN` (what
      arithmetic on `undefined` gives). */
  datatype Usd = Usd(amount: real) | NaN

  /** `n > 0`, which is false for `NaN`. */
  predicate Positive(n: Usd) {
    n.Usd? && n.amount > 0.0
  }

  /** Usage of one session or request: only the duration is mandatory. */
  datatype UsageMetrics = UsageMetrics(
    durationMs: nat,
    tokensInput: Option<nat>,
    tokensOutput: Option<nat>,
    tokensTotal: Option<nat>,
    estimatedCostUsd: Option<Usd>)

  /** What a recorder hands to the page: the text always, a partial
      reservation and metrics when it has them. */
  datatype TranscriptionResult = TranscriptionResult(
    text: string,
    reservation: Option<Draft>,
    metrics: Option<UsageMetrics>)

  /** Prices in USD per one million tokens. */
  datatype TokenRates = TokenRates(inputPerMillion: real, outputPerMillion: real)

  datatype RealtimeTokenPrices = RealtimeTokenPrices(
    audioInputPerMillion: real,
    audioOutputPerMillion: real,
    textPerMillion: real)

  datatype OpenAIPrices = OpenAIPrices(
    whisperPerMinute: real,
    gpt4oMini: TokenRates,
    realtime: RealtimeTokenPrices)

  datatype GeminiPrices = GeminiPrices(flash: TokenRates)

  datatype PriceTable = PriceTable(openai: OpenAIPrices, gemini: GeminiPrices)

  /** `PRICING`: fixed at build time. */
  const Pricing: PriceTable := PriceTable(
    OpenAIPrices(
      0.006,
      TokenRates(0.15, 0.60),
      RealtimeTokenPrices(100.00, 200.00, 5.00)),
    GeminiPrices(TokenRates(0.075, 0.30)))

  /** `PRICING.gemini.live`, which the Gemini Live hook reads: the table has
      no such entry, so the lookup gives `undefined`. */
  const GeminiLiveRates: Option<TokenRates> := None

  /** `PRICING.openai.realtime.audioInputPerMinute` and
      `audioOutputPerMinute`, which the realtime recorder reads: the
      realtime entry is priced per million tokens and has neither field. */
  const RealtimeInputPerMinute: Option<real> := None
  const RealtimeOutputPerMinute: Option<real> := None

  /** Every price in the table is positive, and output tokens cost more
      than input tokens for both chat models. */
  lemma PricingIsPositive()
    ensures Pricing.openai.whisperPerMinute > 0.0
    ensures 0.0 < Pricing.openai.gpt4oMini.inputPerMillion < Pricing.openai.gpt4oMini.outputPerMillion
    ensures 0.0 < Pricing.gemini.flash.inputPerMillion < Pricing.gemini.flash.outputPerMillion
    ensures Pricing.gemini.flash.inputPerMillion < Pricing.openai.gpt4oMini.inputPerMillion
    ensures 0.0 < Pricing.openai.realtime.textPerMillion < Pricing.openai.realtime.audioInputPerMillion
      < Pricing.openai.realtime.audioOutputPerMillion
  {
  }
}

=== FILE: worklet.dfy ===
/** The recorder worklet embedded in src/hooks/useGeminiLive.ts: samples of
    the first channel are copied into a fixed buffer, and each time the
    buffer fills, a copy of it is posted and the write index starts over.
    Samples are abstract here; the float-to-int16 conversion is not part of
    this model. */
module Worklet {
  /** `this.bufferSize`. */
  const BufferSize: nat := 2048

  /** The posted chunks, end to end. */
  function Flatten<T>(chunks: seq<seq<T>>): seq<T> {
    if chunks == [] then [] else Flatten(chunks[..|chunks| - 1]) + chunks[|chunks| - 1]
  }

  /** Every chunk holds exactly one buffer's worth of samples. */
  predicate FullChunks<T>(chunks: seq<seq<T>>) {
    forall k :: 0 <= k < |chunks| ==> |chunks[k]| == BufferSize
  }

  lemma {:induction false} FlattenLength<T>(chunks: seq<seq<T>>)
    requires FullChunks(chunks)
    ensures |Flatten(chunks)| == |chunks| * BufferSize
  {
    if chunks != [] {
      FlattenLength(chunks[..|chunks| - 1]);
    }
  }

  /** `inputs[0][0]` when the first input has a channel, else nothing. */
  function FirstChannel<T>(inputs: seq<seq<seq<T>>>): seq<T> {
    if |inputs| > 0 && |inputs[0]| > 0 then inputs[0][0] else []
  }

  /** `process`: `buffered` is the filled part of the buffer
      (`int16Buffer[..bufferIndex]`). The new filled part stays below one
      buffer, each posted chunk is full, and the chunks followed by the new
      filled part are exactly the old filled part followed by the channel's
      samples, so the chunks are a prefix of the samples in order. */
  method Process<T>(buffered: seq<T>, inputs: seq<seq<seq<T>>>) returns (next: seq<T>, posted: seq<seq<T>>)
    requires |buffered| < BufferSize
    ensures |next| < BufferSize
    ensures FullChunks(posted)
    ensures Flatten(posted) + next == buffered + FirstChannel(inputs)
    ensures |posted| == (|buffered| + |FirstChannel(inputs)|) / BufferSize
    ensures Flatten(posted) == (buffered + FirstChannel(inputs))[..|posted| * BufferSize]
  {
    next := buffered;
    posted := [];
    var channel := FirstChannel(inputs);
    var i := 0;
    while i < |channel|
      invariant 0 <= i <= |channel|
      invariant |next| < BufferSize
      invariant FullChunks(posted)
      invariant Flatten(posted) + next == buffered + channel[..i]
      decreases |channel| - i
    {
      ghost var before := next;
      next := next + [channel[i]];
      assert channel[..i + 1] == channel[..i] + [channel[i]];
      assert Flatten(posted) + next == Flatten(posted) + before + [channel[i]];
      i := i + 1;
      if |next| == BufferSize {
        assert Flatten(posted + [next]) == Flatten(posted) + next by {
          assert (posted + [next])[..|posted|] == posted;
        }
        posted := posted + [next];
        next := [];
      }
    }
    assert channel[..i] == channel;
    FlattenLength(posted);
    var all := buffered + channel;
    assert Flatten(posted) == all[..|posted| * BufferSize] by {
      assert all == Flatten(posted) + next;
    }
  }
}

=== FILE: wrappers.dfy ===
/** Optional values and fallible results, used wherever the program has
    `undefined`/`null` or throws. */
module Wrappers {

  /** `None` stands for JavaScript's `undefined` or `null`. */
  datatype Option<+T> = None | Some(value: T) {

    /** The value, or `default` when there is none (`x ?? default`). */
    function GetOr(default: T): T {
      match this
      case Some(v) => v
      case None => default
    }
  }

  /** `Failure` carries the message of an exception the code throws. */
  datatype Result<+R, +E> = Success(value: R) | Failure(error: E)
}
